=== FILE: README.md ===
# Clinic appointment backend: a Dafny model

This project models the service layer of a Spring Boot clinic backend. The
backend has admins, doctors and patients. It issues JSON Web Tokens (JWTs) at
login and checks them on every protected endpoint. Patients book one-hour
appointments in a doctor's free hourly slots. Doctors record one
prescription per appointment.

The model covers four layers:

- **Persistent state.** The relational tables (admins, doctors, patients,
  appointments) and the prescription document collection form one immutable
  `Store`. Each repository query is a pure function over the store, and each
  `save` is an upsert. The store also holds the `AUTO_INCREMENT` counters
  behind the `IDENTITY` id columns, so an insert never reuses the id of a
  deleted row.
- **Token service.** Claims issuing, the role and account decision of
  `validateToken`, and the resolution of a token's subject to an account id.
  Decoding a token is abstract: an operation receives `Some(claims)` or
  `None`.
- **Services.** The doctor, central, appointment, patient and prescription
  services. Status codes, error messages and store effects follow the source
  branch by branch.
- **Controllers.** The appointment, doctor and prescription endpoints. Each
  one runs the token gate before delegating to a service.

Some inputs are not computed by the model and are passed in as parameters:

- Store write failures are a `storeFails` flag. Each service's `catch` branch
  handles this case.
- The clock is a `now` parameter.
- An exception that no handler catches becomes `Response(500, Uncaught)`.

The main properties are the following:

- **Availability.** A start time is offered exactly when it is on the hour,
  between 09:00 and 16:00, and not already booked (`OfferedIffSlotFree`).
- **No double booking.** Once a booking succeeds, the same doctor, date and
  hour are refused (`NoDoubleBooking`).
- **Prescriptions.** At most one prescription is kept per appointment.
- **Tokens.** A token is accepted for at most one role.
- **Owner checks.** The checks on appointment update and cancel hold.
- **Deletes.** The doctor-delete cascade keeps every foreign key resolvable.
- **Queries.** Each repository filter returns exactly the rows it should, in
  table order.

## Model

| member | source | states |
|---|---|---|
| Clock.DayWindowIsDate | app/src/main/java/com/project/back_end/services/DoctorService.java:43-46 | the inclusive window from start of day to `LocalTime.MAX` holds a time exactly when it falls on that date |
| Clock.PlusOneHour | app/src/main/java/com/project/back_end/models/Appointment.java:100 | one hour later on the time line, rolling over into the next day, and still a well-formed date-time |
| Clock.FormatHHmmInjective | app/src/main/java/com/project/back_end/services/DoctorService.java:55-58 | two times print the same "HH:mm" exactly when hour and minute agree |
| Clock.FormatMatchesSlot | app/src/main/java/com/project/back_end/services/DoctorService.java:48-58 | a booking's "HH:mm" equals the template label of hour h exactly when it starts at h:00 |
| AppointmentModel.EndTime | app/src/main/java/com/project/back_end/models/Appointment.java:98-101 | null exactly when the start is null, otherwise exactly one hour after the start |
| AppointmentModel.AppointmentDate | app/src/main/java/com/project/back_end/models/Appointment.java:103-106 | null exactly when the start is null |
| AppointmentModel.AppointmentTimeOnly | app/src/main/java/com/project/back_end/models/Appointment.java:108-111 | null exactly when the start is null |
| AppointmentModel.DerivedPartsRecombine | app/src/main/java/com/project/back_end/models/Appointment.java:97-111 | the date part and the time-of-day part give back the start; all three derived values are null together |
| AppointmentModel.ValidAppointmentEndsInFuture | app/src/main/java/com/project/back_end/models/Appointment.java:24-25 | an appointment that passes `@Future` also passes it at any earlier clock, and ends after `now` |
| PrescriptionModel.NewPrescription | app/src/main/java/com/project/back_end/models/Prescription.java:43-48 | the four fields are taken over, the refill count keeps its default 0, and every other field is null |
| PrescriptionModel.NewPrescriptionValidIff | app/src/main/java/com/project/back_end/models/Prescription.java:13-36 | a constructed prescription passes bean validation exactly when name, medication and dosage meet their size bounds and the appointment id is non-null |
| AppointmentDtoModel.NewAppointmentDto | app/src/main/java/com/project/back_end/DTO/AppointmentDTO.java:92-116 | the ten fields are copied; date and time-of-day recombine to the start; the end is one hour after the start |
| Database.NextId | app/src/main/java/com/project/back_end/models/Appointment.java:12-14 | the id an insert receives is above the table's counter and above every stored id |
| Database.SaveDoctorRow | app/src/main/java/com/project/back_end/services/DoctorService.java:66-75 | a stored doctor with the record's id is replaced in place and the counter stays; otherwise the record is appended under a new id above the counter and above every stored id, and the counter moves to it; nothing else in the store changes |
| Database.SavePatientRow | app/src/main/java/com/project/back_end/services/PatientService.java:47-54 | as for doctors: replacement in place for a stored id, otherwise an append under a new id above the counter and every stored id; nothing else changes |
| Database.SaveAppointmentRow | app/src/main/java/com/project/back_end/services/AppointmentService.java:44-51 | as for doctors: replacement in place for a stored id, otherwise an append under a new id above the counter and every stored id; nothing else changes |
| Database.AppointmentSavedKeepsUniqueIds | app/src/main/java/com/project/back_end/models/Appointment.java:12-14 | a save keeps appointment ids unique (likewise `DoctorSavedKeepsUniqueIds`, `PatientSavedKeepsUniqueIds`) |
| Database.AppointmentSavedKeepsIssuedCovers | app/src/main/java/com/project/back_end/models/Appointment.java:12-14 | a save keeps every counter at or above every id stored in its table |
| Database.SavePrescriptionDoc | app/src/main/java/com/project/back_end/services/PrescriptionService.java:35-50 | the document is stored; a document without an id is appended; one whose id is stored replaces that document in place |
| Database.FindPrescriptionsByAppointmentId | app/src/main/java/com/project/back_end/repo/PrescriptionRepository.java:22 | exactly the documents with that appointment id, in collection order |
| Database.AppointmentIdsPermute | app/src/main/java/com/project/back_end/services/PatientService.java:80-98 | two listings of the same appointments in different orders list the same ids in different orders |
| DoctorRepository.FindByEmail | app/src/main/java/com/project/back_end/repo/DoctorRepository.java:17-23 | a stored doctor with that email, and null exactly when there is none |
| DoctorRepository.FindByNameLike | app/src/main/java/com/project/back_end/repo/DoctorRepository.java:25-32 | exactly the doctors whose name contains the query, case-sensitively, in table order |
| DoctorRepository.FindByNameAndSpecialtyIgnoreCase | app/src/main/java/com/project/back_end/repo/DoctorRepository.java:42-45 | exactly the doctors whose name contains the query and whose specialty equals the query, both ignoring case |
| DoctorRepository.FindBySpecialtyIgnoreCase | app/src/main/java/com/project/back_end/repo/DoctorRepository.java:47-53 | exactly the doctors whose specialty equals the query ignoring case |
| AppointmentRepository.FindByDoctorIdAndTimeBetween | app/src/main/java/com/project/back_end/repo/AppointmentRepository.java:24-31 | exactly the doctor's appointments with a start inside the inclusive range |
| AppointmentRepository.FindByDoctorIdPatientNameAndTimeBetween | app/src/main/java/com/project/back_end/repo/AppointmentRepository.java:38-48 | as above, restricted to patients whose name contains the query ignoring case |
| AppointmentRepository.DeleteAllByDoctorId | app/src/main/java/com/project/back_end/repo/AppointmentRepository.java:53-55 | the remaining rows are exactly those of other doctors, in table order |
| AppointmentRepository.DeleteAllByDoctorIdRemovesOnlyThoseRows | app/src/main/java/com/project/back_end/repo/AppointmentRepository.java:53-55 | the kept rows and the doctor's rows together are the old table as a multiset |
| AppointmentRepository.FindByPatientId | app/src/main/java/com/project/back_end/repo/AppointmentRepository.java:60 | exactly the patient's appointments |
| AppointmentRepository.FindByPatientIdAndStatusOrderByTime | app/src/main/java/com/project/back_end/repo/AppointmentRepository.java:66 | a permutation of the patient's appointments with that status, ascending by start, null starts first |
| AppointmentRepository.FilterByDoctorNameAndPatientId | app/src/main/java/com/project/back_end/repo/AppointmentRepository.java:71-74 | exactly the patient's appointments whose doctor's name contains the query ignoring case |
| AppointmentRepository.FilterByDoctorNameAndPatientIdAndStatus | app/src/main/java/com/project/back_end/repo/AppointmentRepository.java:79-83 | as above, restricted to one status |
| AppointmentRepository.StatusFilterAgreesWithQuery | app/src/main/java/com/project/back_end/repo/AppointmentRepository.java:71-83 | filtering the two-parameter result by status in memory gives the three-parameter query's list |
| AppointmentRepository.UpdateStatus | app/src/main/java/com/project/back_end/repo/AppointmentRepository.java:88-91 | only the status of the row with that id changes; every other field and row is unchanged |
| TokenService.GenerateToken | app/src/main/java/com/project/back_end/services/TokenService.java:53-63 | the token carries the identifier and role and expires seven days after issue |
| TokenService.IssuedTokenAccepted | app/src/main/java/com/project/back_end/services/TokenService.java:53-63 | an issued token, decoded later and checked for its own role, is accepted exactly while less than seven days have passed and its identifier names a stored account of that role |
| TokenService.IssuedTokenSubject | app/src/main/java/com/project/back_end/services/TokenService.java:77-88 | the subject extracted from an issued token is the identifier it was issued for while the token is under seven days old, and null once decoding rejects it as expired |
| TokenService.ValidateToken | app/src/main/java/com/project/back_end/services/TokenService.java:98-123 | accepts exactly when the role claim equals the expected role ignoring case and the subject names a stored account of that role |
| TokenService.ValidateTokenRejectsOtherRoles | app/src/main/java/com/project/back_end/services/TokenService.java:106-109 | a token accepted for one role is rejected for every role that differs ignoring case |
| TokenService.ValidateTokenAcceptsLiveAccount | app/src/main/java/com/project/back_end/services/TokenService.java:106-119 | a matching role claim plus a stored account of that role is enough for acceptance |
| TokenService.ValidateTokenAsWrittenRejectsAll | app/src/main/java/com/project/back_end/services/TokenService.java:98-123 | as written, every token is rejected, including the ones the intended decision accepts |
| TokenService.GetUserIdFromToken | app/src/main/java/com/project/back_end/services/TokenService.java:138-168 | the id of a patient, else a doctor, else an admin whose identifier is the subject, and null when none is found |
| TokenService.IdTokenResolvesToNoOne | app/src/main/java/com/project/back_end/services/TokenService.java:138-168 | a token whose subject is a decimal account id, as every login issues, resolves to no account id while every stored email and username holds a non-digit |
| DoctorService.TemplateShape | app/src/main/java/com/project/back_end/services/DoctorService.java:48-53 | the template is the eight distinct labels "09:00" to "16:00" |
| DoctorService.InTemplate | app/src/main/java/com/project/back_end/services/DoctorService.java:48-53 | a label is in the template exactly when it is the label of an hour from 9 to 16 |
| DoctorService.BookedOn | app/src/main/java/com/project/back_end/services/DoctorService.java:43-46 | exactly the doctor's appointments that start on that date |
| DoctorService.GetDoctorAvailability | app/src/main/java/com/project/back_end/services/DoctorService.java:42-60 | an order-preserving selection from the template that holds no booked label |
| DoctorService.AvailabilitySlotIff | app/src/main/java/com/project/back_end/services/DoctorService.java:42-60 | the label of hour h is offered exactly when h is a template hour with no booking at h:00 that day |
| DoctorService.OfferedIffSlotFree | app/src/main/java/com/project/back_end/services/DoctorService.java:42-60 | a start time is offered exactly when it is on the hour, within 09:00 to 16:00, and not booked |
| DoctorService.AvailabilityOnlyTemplateSlots | app/src/main/java/com/project/back_end/services/DoctorService.java:48-58 | every offered label is the label of a template hour |
| DoctorService.AvailabilityWithoutBookings | app/src/main/java/com/project/back_end/services/DoctorService.java:42-60 | with no booking that day, all eight slots are offered in order |
| DoctorService.AvailabilityIgnoresOtherBookings | app/src/main/java/com/project/back_end/services/DoctorService.java:43-46 | adding another doctor's booking, or one on another day, leaves the availability unchanged |
| DoctorService.ScanTimesIff | app/src/main/java/com/project/back_end/services/DoctorService.java:190-203 | the loop's flag ends true exactly when it started true or some entry is in the requested half of the day |
| DoctorService.FilterByTime | app/src/main/java/com/project/back_end/services/DoctorService.java:187-206 | exactly the doctors with a non-null time list that has an entry before noon for "AM" or from noon for "PM", in order; any other value selects nobody |
| DoctorService.FilterByNameSpecialtyAndTime | app/src/main/java/com/project/back_end/services/DoctorService.java:144-150 | exactly the doctors matching the name and specialty ignoring case and offering the half day |
| DoctorService.FilterByNameAndTime | app/src/main/java/com/project/back_end/services/DoctorService.java:153-156 | exactly the doctors whose name contains the query case-sensitively and who offer the half day |
| DoctorService.FilterByNameAndSpecialty | app/src/main/java/com/project/back_end/services/DoctorService.java:159-163 | exactly the doctors matching the name and specialty ignoring case |
| DoctorService.FilterByTimeAndSpecialty | app/src/main/java/com/project/back_end/services/DoctorService.java:166-169 | exactly the doctors of that specialty ignoring case who offer the half day |
| DoctorService.FilterBySpecialty | app/src/main/java/com/project/back_end/services/DoctorService.java:172-175 | exactly the doctors of that specialty ignoring case |
| DoctorService.FindByName | app/src/main/java/com/project/back_end/services/DoctorService.java:135-138 | exactly the doctors whose name contains the query case-sensitively |
| DoctorService.FilterByTimeOnly | app/src/main/java/com/project/back_end/services/DoctorService.java:178-181 | exactly the doctors who offer the half day |
| DoctorService.SaveDoctor | app/src/main/java/com/project/back_end/services/DoctorService.java:66-75 | -1 exactly when the email is taken, 1 exactly when it is free and the store does not fail; only a 1 changes the store, and then the doctor is stored |
| DoctorService.SaveDoctorTwiceRefused | app/src/main/java/com/project/back_end/services/DoctorService.java:66-75 | after a successful save, a second save with the same email is refused and changes nothing |
| DoctorService.UpdateDoctor | app/src/main/java/com/project/back_end/services/DoctorService.java:81-90 | -1 exactly when the id is unknown, 1 exactly when it is known and the store does not fail; a 1 replaces that row in place and leaves the others |
| DoctorService.UpdateDoctorKeepsReferences | app/src/main/java/com/project/back_end/services/DoctorService.java:81-90 | an update keeps every appointment's doctor and patient resolvable |
| DoctorService.DeleteDoctor | app/src/main/java/com/project/back_end/services/DoctorService.java:104-114 | -1 exactly when the id is unknown, 1 exactly when it is known and the store does not fail; a 1 removes the doctor and all of that doctor's appointments and nothing else |
| DoctorService.DeleteDoctorKeepsReferences | app/src/main/java/com/project/back_end/services/DoctorService.java:104-114 | if every appointment referred to a stored doctor and patient before the delete, the same holds after it |
| DoctorService.SaveDoctorKeepsIdsConsistent | app/src/main/java/com/project/back_end/services/DoctorService.java:66-75 | a doctor save keeps ids unique in every table and every counter above its table's ids |
| DoctorService.UpdateDoctorKeepsIdsConsistent | app/src/main/java/com/project/back_end/services/DoctorService.java:81-90 | an update keeps the same identity invariants |
| DoctorService.DeleteDoctorKeepsIdsConsistent | app/src/main/java/com/project/back_end/services/DoctorService.java:104-114 | deleting a doctor and that doctor's appointments keeps the same identity invariants |
| DoctorService.ValidateDoctor | app/src/main/java/com/project/back_end/services/DoctorService.java:119-129 | 200 with a DOCTOR token for the id of the doctor the email lookup finds, exactly when its password matches; every other outcome is 401 "Invalid credentials" |
| DoctorService.ValidateDoctorAcceptsStoredDoctor | app/src/main/java/com/project/back_end/services/DoctorService.java:119-129 | with unique emails, every stored doctor logging in with its own email and password gets 200 and a DOCTOR token for its id |
| DoctorService.DoctorLoginTokenRejected | app/src/main/java/com/project/back_end/services/DoctorService.java:126 | the token a doctor login issues carries the numeric id as subject, so the token check rejects it whenever no stored email is all digits |
| CentralService.CheckToken | app/src/main/java/com/project/back_end/services/CentralService.java:52-65 | 200 exactly when the token validates for the role (the corrected decision of the Findings row), otherwise 401 "Invalid or expired token" |
| CentralService.ValidateAdmin | app/src/main/java/com/project/back_end/services/CentralService.java:70-85 | 200 with an ADMIN token for the id of the admin the username lookup finds, exactly when its password matches; every other outcome is 401 "Invalid admin credentials" |
| CentralService.ValidateAdminAcceptsStoredAdmin | app/src/main/java/com/project/back_end/services/CentralService.java:70-85 | with unique usernames, every stored admin logging in with its own username and password gets 200 and an ADMIN token for its id |
| CentralService.AdminLoginTokenRejected | app/src/main/java/com/project/back_end/services/CentralService.java:78 | the token an admin login issues carries the numeric id as subject, so the ADMIN check rejects it whenever no stored username is all digits |
| CentralService.ValidatePatientLogin | app/src/main/java/com/project/back_end/services/CentralService.java:141-157 | 200 with a PATIENT token for the id of the patient the email lookup finds, exactly when its password matches; every other outcome is 401 "Invalid patient credentials" |
| CentralService.ValidatePatientLoginAcceptsStoredPatient | app/src/main/java/com/project/back_end/services/CentralService.java:141-157 | with unique emails, every stored patient logging in with its own email and password gets 200 and a PATIENT token for its id |
| CentralService.PatientLoginTokenRejected | app/src/main/java/com/project/back_end/services/CentralService.java:150 | the token a patient login issues carries the numeric id as subject, so the PATIENT check rejects it whenever no stored email is all digits |
| CentralService.FilterDoctor | app/src/main/java/com/project/back_end/services/CentralService.java:91-110 | for each combination of non-null filters, exactly the doctors the chosen query selects, in table order |
| CentralService.FilterDoctorIgnoresNameWithSpecialtyOnly | app/src/main/java/com/project/back_end/services/CentralService.java:99-100 | with a specialty and no time, the name has no effect on the result |
| CentralService.ValidateAppointment | app/src/main/java/com/project/back_end/services/CentralService.java:118-126 | -1 exactly for an unknown doctor; 1 exactly when the start is an unbooked on-the-hour template slot; a null start throws |
| CentralService.ValidatePatient | app/src/main/java/com/project/back_end/services/CentralService.java:133-136 | true exactly when no stored patient shares the email or the phone |
| CentralService.CreatedPatientNotUnique | app/src/main/java/com/project/back_end/services/CentralService.java:133-136 | after a patient is registered, the uniqueness check refuses the same patient |
| CentralService.FilterPatient | app/src/main/java/com/project/back_end/services/CentralService.java:162-177 | dispatches on which of condition and doctor name are given to the matching patient-service filter for the token's account id; every listed appointment belongs to that account and matches the filters; with a condition alone, exactly the matching appointments are listed, earliest first; an invalid condition gives 400 |
| CentralService.FilterPatientNarrows | app/src/main/java/com/project/back_end/services/CentralService.java:162-177 | adding a condition to a doctor-name filter only narrows the list: where the name alone gives 200, both give 200 with a subset of its ids |
| AppointmentService.BookAppointment | app/src/main/java/com/project/back_end/services/AppointmentService.java:44-51 | 1 exactly when the save succeeds and both references resolve; only a 1 changes the appointment table |
| AppointmentService.BookAppointmentKeepsReferences | app/src/main/java/com/project/back_end/services/AppointmentService.java:44-51 | a booking keeps every appointment's doctor and patient resolvable |
| AppointmentService.UpdateAppointment | app/src/main/java/com/project/back_end/services/AppointmentService.java:58-78 | 404 exactly for an unknown id; 401 only when a stored row with the id belongs to another patient; 500 "Failed to update appointment" only when the save throws (store failure or an unresolved doctor or patient); a 200 means both references resolve and replaces every row with the id by the incoming record, in place; only a 200 changes the store |
| AppointmentService.UpdateAppointmentOutcome | app/src/main/java/com/project/back_end/services/AppointmentService.java:58-78 | with unique ids, 401 exactly when the stored row with the id belongs to another patient, and 500 exactly when it belongs to the same patient and the save throws |
| AppointmentService.UpdateAppointmentKeepsReferences | app/src/main/java/com/project/back_end/services/AppointmentService.java:58-78 | an update keeps every appointment's doctor and patient resolvable |
| AppointmentService.CancelAppointment | app/src/main/java/com/project/back_end/services/AppointmentService.java:84-105 | 404 exactly for an unknown id; for the row `findById` returns, 401 exactly when the token's account id is not its patient's; 200 exactly for the owner with a working store, removing exactly the rows with that id; 500 "Failed to cancel appointment" only on a failed delete |
| AppointmentService.CancelTwiceNotFound | app/src/main/java/com/project/back_end/services/AppointmentService.java:84-105 | after a 200, cancelling the same id again gives 404 and changes nothing |
| AppointmentService.CancelKeepsReferences | app/src/main/java/com/project/back_end/services/AppointmentService.java:84-105 | a cancel keeps every appointment's doctor and patient resolvable |
| AppointmentService.BookAppointmentKeepsIdsConsistent | app/src/main/java/com/project/back_end/services/AppointmentService.java:44-51 | a booking keeps appointment ids unique and the counters above every stored id |
| AppointmentService.UpdateAppointmentKeepsIdsConsistent | app/src/main/java/com/project/back_end/services/AppointmentService.java:58-78 | an update keeps the same identity invariants |
| AppointmentService.CancelAppointmentKeepsIdsConsistent | app/src/main/java/com/project/back_end/services/AppointmentService.java:84-105 | a cancel keeps the same identity invariants |
| AppointmentService.CancelledIdNotReissued | app/src/main/java/com/project/back_end/models/Appointment.java:12-14 | after a cancel, a later booking never leaves a row with the cancelled appointment's id: the `IDENTITY` counter has already passed it |
| AppointmentService.GetAppointments | app/src/main/java/com/project/back_end/services/AppointmentService.java:112-128 | exactly the token account's appointments on that date, further narrowed by patient name when one is given |
| AppointmentService.ChangeStatus | app/src/main/java/com/project/back_end/services/AppointmentService.java:134-144 | 200 exactly when the store does not fail; only the status of the matching row changes |
| AppointmentService.ChangeStatusIdempotent | app/src/main/java/com/project/back_end/services/AppointmentService.java:134-144 | setting the same status a second time leaves the store as the first time left it |
| AppointmentService.ChangeStatusKeepsIdsConsistent | app/src/main/java/com/project/back_end/services/AppointmentService.java:134-144 | a status change keeps the same identity invariants |
| PatientService.CreatePatient | app/src/main/java/com/project/back_end/services/PatientService.java:47-54 | 1 exactly when the store does not fail, and then the patient is stored |
| PatientService.CreatePatientKeepsIdsConsistent | app/src/main/java/com/project/back_end/services/PatientService.java:47-54 | a registration keeps the same identity invariants |
| PatientService.ToDto | app/src/main/java/com/project/back_end/services/PatientService.java:165-177 | succeeds exactly when the start, the doctor and the patient exist; the fields come from them and the derived fields are consistent |
| PatientService.ToDtos | app/src/main/java/com/project/back_end/services/PatientService.java:67-71 | succeeds exactly when every element maps, and then yields one transfer object per appointment in order |
| PatientService.GetPatientAppointment | app/src/main/java/com/project/back_end/services/PatientService.java:60-74 | 401 "Unauthorized access" unless the token's account id is the requested id; for the owner, 200 exactly when every one of the patient's appointments maps to a transfer object (otherwise the uncaught 500), listing all of them by id in table order |
| PatientService.ConditionStatus | app/src/main/java/com/project/back_end/services/PatientService.java:83-90 | "past" selects completed, "future" scheduled, ignoring case; any other condition selects nothing |
| PatientService.ConditionWithinListing | app/src/main/java/com/project/back_end/services/PatientService.java:60-98 | a condition filter only narrows the owner's listing: when both answer 200, every appointment the past/future filter lists is also listed by getPatientAppointment |
| PatientService.FilterByCondition | app/src/main/java/com/project/back_end/services/PatientService.java:80-98 | 400 exactly for an invalid condition; otherwise 200 exactly when every appointment of the patient with the selected status maps, else the uncaught 500; a 200 lists those appointments, each once by id (a reordering of them), earliest first |
| PatientService.FilterByDoctor | app/src/main/java/com/project/back_end/services/PatientService.java:104-113 | 200 exactly when every appointment of the patient whose doctor's name matches maps, else the uncaught 500; a 200 lists exactly those appointments by id, in table order |
| PatientService.FilterByDoctorAndCondition | app/src/main/java/com/project/back_end/services/PatientService.java:119-139 | 400 exactly for an invalid condition; otherwise the same response as the three-parameter query |
| PatientService.DoctorAndConditionNarrowsDoctor | app/src/main/java/com/project/back_end/services/PatientService.java:104-139 | where the doctor-name filter gives 200, the doctor-and-condition filter also gives 200, listing a subset of its ids |
| PatientService.GetPatientDetails | app/src/main/java/com/project/back_end/services/PatientService.java:145-155 | 404 "Patient not found" exactly when no patient has the token's subject as email; otherwise that patient |
| PatientService.RegisteredPatientFound | app/src/main/java/com/project/back_end/services/PatientService.java:145-155 | a patient registered under an email no one else had is found by a token whose subject is that email |
| PrescriptionService.SavePrescription | app/src/main/java/com/project/back_end/services/PrescriptionService.java:35-50 | 400 exactly when the appointment already has a prescription, 201 exactly when it has none and the store does not fail; 201 stores the document; errors leave the store unchanged |
| PrescriptionService.SecondSaveRefused | app/src/main/java/com/project/back_end/services/PrescriptionService.java:35-50 | after a successful save, a second save for the same appointment is refused and changes nothing |
| PrescriptionService.SaveDocKeepsOnePerAppointment | app/src/main/java/com/project/back_end/services/PrescriptionService.java:43 | storing a document for an appointment with no document keeps one document per appointment |
| PrescriptionService.SavePrescriptionKeepsOnePerAppointment | app/src/main/java/com/project/back_end/services/PrescriptionService.java:35-50 | the service keeps at most one prescription per appointment |
| PrescriptionService.SavePrescriptionKeepsUniqueDocumentIds | app/src/main/java/com/project/back_end/services/PrescriptionService.java:35-50 | a save through the service keeps document ids unique |
| PrescriptionService.GetPrescription | app/src/main/java/com/project/back_end/services/PrescriptionService.java:59-70 | 200 with exactly the appointment's prescriptions, in collection order |
| PrescriptionService.SavedPrescriptionFound | app/src/main/java/com/project/back_end/services/PrescriptionService.java:35-70 | after a 201, the lookup by that appointment finds exactly the saved prescription |
| AppointmentController.GetAppointments | app/src/main/java/com/project/back_end/controllers/AppointmentController.java:25-38 | 200 exactly when the token validates as doctor; a 200 lists exactly the token account's appointments on that date, narrowed to matching patient names when the name is non-empty; otherwise the token error |
| AppointmentController.BookAppointment | app/src/main/java/com/project/back_end/controllers/AppointmentController.java:40-63 | the token gate, then 400 "Doctor does not exist", 400 "Appointment time unavailable" for a taken or off-template slot; on a free slot, 201 exactly when the service stores the booking and 500 "Failed to book appointment" with the store unchanged otherwise |
| AppointmentController.NoDoubleBooking | app/src/main/java/com/project/back_end/controllers/AppointmentController.java:40-63 | after a 201, another booking of the same doctor, date and hour is refused and the store is unchanged |
| AppointmentController.UpdateAppointment | app/src/main/java/com/project/back_end/controllers/AppointmentController.java:65-77 | the token error unless the token validates as patient; otherwise the service's answer |
| AppointmentController.CancelAppointment | app/src/main/java/com/project/back_end/controllers/AppointmentController.java:79-91 | the token error unless the token validates as patient; otherwise the service's answer |
| DoctorController.GetDoctorAvailability | app/src/main/java/com/project/back_end/controllers/DoctorController.java:27-42 | 200 exactly when the token validates for the role in the path; the slots are the template hours with no booking |
| DoctorController.SaveDoctor | app/src/main/java/com/project/back_end/controllers/DoctorController.java:44-62 | ADMIN only; 409 exactly when the email is taken; 200 exactly when the token validates, the email is free and the store does not fail, and then the doctor is stored; 500 "Failed to save doctor" otherwise |
| DoctorController.UpdateDoctor | app/src/main/java/com/project/back_end/controllers/DoctorController.java:64-82 | ADMIN only; 404 exactly for an unknown id; 200 exactly when the id is known and the store does not fail, replacing that row in place; 500 "Failed to update doctor" otherwise |
| DoctorController.DeleteDoctor | app/src/main/java/com/project/back_end/controllers/DoctorController.java:84-102 | ADMIN only; 404 exactly for an unknown id; 200 exactly when the id is known and the store does not fail, removing the doctor and that doctor's appointments; 500 "Failed to delete doctor" otherwise |
| DoctorController.FilterDoctors | app/src/main/java/com/project/back_end/controllers/DoctorController.java:104-112 | always 200 with exactly the doctors whose name contains the name segment ignoring case, whose specialty equals the speciality segment ignoring case, and who offer the half-day the time segment names, in table order |
| PrescriptionController.SavePrescription | app/src/main/java/com/project/back_end/controllers/PrescriptionController.java:35-53 | DOCTOR only; the appointment is marked completed before the save, so a refused save still changes the status; 201 exactly when the status update and the save both succeed and the appointment had no prescription |
| PrescriptionController.GetPrescription | app/src/main/java/com/project/back_end/controllers/PrescriptionController.java:58-70 | 200 exactly when the token validates as DOCTOR, with the appointment's prescriptions |

## Left out

- Token encoding, signing and signature checking are not modelled. Every operation that takes a token takes the decoded claims, or `None` when the library rejects the token. Whether the configured parser accepts the issued tokens is library behaviour.
- Token expiry is checked inside decoding. The library rejects an expired token while parsing it, so `Some(claims)` stands for a token that was unexpired at the time of the request. `Jwt.Parse` is a modelling definition of that library step (no source line implements it) for a token whose signature verifies, and `TokenService.IssuedTokenAccepted` connects issuing, expiry and the token check. The library's rounding of `iat` and `exp` to whole seconds and any clock-skew allowance are not modelled; times are milliseconds.
- Every token gate uses the corrected decision `TokenService.ValidateToken` of the Findings row: `CentralService.CheckToken` and, through it, every controller member. With the decision as written (`TokenService.ValidateTokenAsWritten`), each of them answers 401 "Invalid or expired token" to every request.
- Bean validation at save time is not modelled. Hibernate checks the `@NotNull`, `@Future` and `@Size` constraints when it persists an appointment; a violation makes the save throw, and the services answer as for any other failed save. The `storeFails` flag covers that case. `AppointmentModel.Valid` and `PrescriptionModel.Valid` state the constraints, but no service outcome is computed from them.
- Database.SavePrescriptionDoc: a document saved without an id keeps a null id. MongoDB would assign a fresh ObjectId. No modelled operation reads document ids.
- Spring and JPA machinery are not modelled: transactions and rollback, lazy loading, and exceptions thrown by a read. Write failures are the `storeFails` and `statusFails` parameters.
- A Hibernate merge of a detached entity with an unknown or null id is not modelled. Ids are natural numbers, and an unknown id is inserted under a fresh id.
- Database.NextId: the doctor and patient tables are taken to use `IDENTITY` generation as the appointment and admin tables do, because `Doctor.java` and `Patient.java` are not part of this model. The admin table has no counter, since no modelled operation inserts an admin.
- A finder that Spring Data would make throw when several rows match (`findByEmail`, `findByEmailOrPhone`, `findByUsername`) returns the first match instead.
- The doctor and patient references of an appointment are ids resolved against the store. A null reference is not modelled.
- Case folding covers ASCII letters only. String lengths count characters, not UTF-16 code units.
- `LIKE` wildcard characters inside a query string and database collation are not modelled. `LIKE '%q%'` is a plain substring test.
- DoctorService.FilterByTime: requires every stored time to be an "HH:mm" string. It does not model the `DateTimeParseException` that `LocalTime.parse` throws on other strings, or the "HH:mm:ss" form.
- DoctorService.FilterByNameSpecialtyAndTime: needs the same well-formed times as `FilterByTime`, for the same reason.
- DoctorService.FilterByNameAndTime: same precondition, same reason.
- DoctorService.FilterByTimeAndSpecialty: same precondition, same reason.
- DoctorService.FilterByTimeOnly: same precondition, same reason.
- CentralService.FilterDoctor: same precondition when a time filter is given, same reason.
- DoctorController.FilterDoctors: same precondition, same reason. The route `/filter/{name}/{time}/{speciality}` always binds all three segments, so only the three-filter branch of `filterDoctor` is reachable through it, and the model takes three strings.
- DoctorService.SaveDoctor: the database's unique constraint on email is not modelled separately. The explicit email check makes it unreachable.
- CentralService.ValidatePatient: with several matching rows, the source's repository call would throw. The model answers "false" instead.
- Passwords are compared in plain text as in the source. Hashing is not modelled.
- Several parts of the application are not part of this model:
  - The dashboard MVC controller, the admin and patient controllers, the `Login` and `Admin` classes, and the getter/setter boilerplate. They only pass values through.
  - The static JavaScript front end.
  - `Doctor.java` and `Patient.java`. Their fields are taken from their uses in the services.
- Concurrency is not modelled. Two bookings that race past the availability check are outside the model.
- `getDoctors` is not modelled separately. It returns the doctor table unchanged (`CentralService.FilterDoctor` with no filters).

## Findings

| source | as written | input that shows it | evidently intended | confidence | as-written member | corrected member |
|---|---|---|---|---|---|---|
| app/src/main/java/com/project/back_end/services/TokenService.java:100 | the token parser is obtained by casting the result of `Jwts.builder()` to `JwtParserBuilder`; the cast throws, and the catch turns every call into `false` | any token, including one just issued to a stored account | build the parser with `Jwts.parser()`, so that a valid token for a stored account of the right role is accepted | not executed | TokenService.ValidateTokenAsWritten | TokenService.ValidateToken |

=== FILE: appointment_controller.dfy ===
/** The appointment endpoints: each runs the token check first and returns
    its error unchanged; booking then runs the availability gate before the
    store is touched. */
module AppointmentController {
  import opened Wrappers
  import opened Clock
  import opened Jwt
  import opened Http
  import opened AppointmentModel
  import opened Database
  import opened Seqs
  import opened Text
  import opened AppointmentRepository
  import TokenService
  import DoctorRepository
  import CentralService
  import DoctorService
  import AppointmentService

  /** The doctor's listing for a date: only for a token that validates for
      role "doctor" (ignoring case), and only that account's appointments
      on that date. */
  function GetAppointments(s: Store, date: int, patientName: string, decoded: Option<Claims>): (r: Response)
    ensures r.status == OK <==> TokenService.ValidateToken(decoded, "doctor", s)
    ensures r.status != OK ==> r == Response(UNAUTHORIZED, Error("Invalid or expired token"))
    ensures r.status == OK ==>
      && r.body.Appointments?
      && forall a :: a in r.body.appointments ==>
           a in s.appointments && TokenService.GetUserIdFromToken(decoded, s) == Some(a.doctorId)
           && a.time.Some? && a.time.value.date == date
    ensures r.status == OK && patientName == [] ==>
      forall a :: a in r.body.appointments <==>
        a in s.appointments && TokenService.GetUserIdFromToken(decoded, s) == Some(a.doctorId)
        && a.time.Some? && a.time.value.date == date
    ensures r.status == OK && patientName != [] ==>
      forall a :: a in r.body.appointments <==>
        a in s.appointments && TokenService.GetUserIdFromToken(decoded, s) == Some(a.doctorId)
        && a.time.Some? && a.time.value.date == date
        && PatientName(s, a).Some? && ContainsIgnoreCase(PatientName(s, a).value, patientName)
    ensures r.status == OK ==> IsSubsequence(r.body.appointments, s.appointments)
  {
    var validation := CentralService.CheckToken(decoded, "doctor", s);
    if IsError(validation) then validation
    else Response(OK, Appointments(AppointmentService.GetAppointments(s, Some(patientName), date, decoded)))
  }

  /** Booking: a token that does not validate as a patient gets the token
      error; an unknown doctor 400 "Doctor does not exist"; a time that is
      not a free slot 400 "Appointment time unavailable"; a null time on a
      known doctor an uncaught exception. Only then is the appointment
      saved: 201, or 500 "Failed to book appointment" when the save returns
      0. Only a 201 changes the store. */
  function BookAppointment(s: Store, a: Appointment, decoded: Option<Claims>, storeFails: bool): (res: (Response, Store))
    ensures !TokenService.ValidateToken(decoded, "patient", s) ==>
      res == (Response(UNAUTHORIZED, Error("Invalid or expired token")), s)
    ensures TokenService.ValidateToken(decoded, "patient", s) && !DoctorRepository.ExistsById(s.doctors, a.doctorId) ==>
      res == (Response(BAD_REQUEST, Error("Doctor does not exist")), s)
    ensures (TokenService.ValidateToken(decoded, "patient", s) && DoctorRepository.ExistsById(s.doctors, a.doctorId)
             && a.time.None?) ==>
      res == (Response(INTERNAL_SERVER_ERROR, Uncaught), s)
    ensures (TokenService.ValidateToken(decoded, "patient", s) && DoctorRepository.ExistsById(s.doctors, a.doctorId)
             && a.time.Some? && !DoctorService.SlotFree(s, a.doctorId, a.time.value)) ==>
      res == (Response(BAD_REQUEST, Error("Appointment time unavailable")), s)
    ensures (TokenService.ValidateToken(decoded, "patient", s) && DoctorRepository.ExistsById(s.doctors, a.doctorId)
             && a.time.Some? && DoctorService.SlotFree(s, a.doctorId, a.time.value)) ==>
      && (res.0.status == CREATED <==> AppointmentService.BookAppointment(s, a, storeFails).0 == 1)
      && (res.0.status == CREATED ==>
            res == (Response(CREATED, Message("Appointment booked successfully")), AppointmentService.BookAppointment(s, a, storeFails).1))
      && (res.0.status != CREATED ==> res == (Response(INTERNAL_SERVER_ERROR, Error("Failed to book appointment")), s))
    ensures res.0.status != CREATED ==> res.1 == s
    ensures res.0.status == CREATED ==>
      && TokenService.ValidateToken(decoded, "patient", s)
      && a.time.Some? && DoctorService.SlotFree(s, a.doctorId, a.time.value)
      && AppointmentSaved(s, res.1, a)
      && (exists x :: x in res.1.appointments && x.(id := a.id) == a)
      && (forall x :: x in s.appointments && x.id != a.id ==> x in res.1.appointments)
  {
    var validation := CentralService.CheckToken(decoded, "patient", s);
    if IsError(validation) then (validation, s)
    else
      match CentralService.ValidateAppointment(s, a)
      case Failure(_) => (Response(INTERNAL_SERVER_ERROR, Uncaught), s)
      case Success(v) =>
        if v == -1 then (Response(BAD_REQUEST, Error("Doctor does not exist")), s)
        else if v == 0 then (Response(BAD_REQUEST, Error("Appointment time unavailable")), s)
        else
          var (code, s') := AppointmentService.BookAppointment(s, a, storeFails);
          if code == 1 then (Response(CREATED, Message("Appointment booked successfully")), s')
          else (Response(INTERNAL_SERVER_ERROR, Error("Failed to book appointment")), s)
  }

  /** Once a booking went through, the same doctor cannot be booked again
      at the same hour that day: the second request is not created and
      changes nothing. */
  lemma NoDoubleBooking(s: Store, a: Appointment, decoded: Option<Claims>, storeFails: bool,
                        b: Appointment, decoded2: Option<Claims>, storeFails2: bool)
    requires BookAppointment(s, a, decoded, storeFails).0.status == CREATED
    requires b.doctorId == a.doctorId && b.time.Some? && a.time.Some?
    requires b.time.value.date == a.time.value.date && b.time.value.time.hour == a.time.value.time.hour
    ensures var s' := BookAppointment(s, a, decoded, storeFails).1;
      BookAppointment(s', b, decoded2, storeFails2).0.status != CREATED &&
      BookAppointment(s', b, decoded2, storeFails2).1 == s'
  {
    var s' := BookAppointment(s, a, decoded, storeFails).1;
    var x :| x in s'.appointments && x.(id := a.id) == a;
    assert x.doctorId == a.doctorId && x.time == a.time;
    assert DoctorService.BookedAt(s', b.doctorId, b.time.value.date, b.time.value.time.hour);
  }

  /** Update: delegated to the service only for a token that validates as
      a patient; a 200 also means the stored appointment belonged to the
      incoming patient id. */
  function UpdateAppointment(s: Store, a: Appointment, decoded: Option<Claims>, storeFails: bool): (res: (Response, Store))
    ensures !TokenService.ValidateToken(decoded, "patient", s) ==>
      res == (Response(UNAUTHORIZED, Error("Invalid or expired token")), s)
    ensures TokenService.ValidateToken(decoded, "patient", s) ==>
      res == AppointmentService.UpdateAppointment(s, a, storeFails)
    ensures res.0.status == OK ==>
      TokenService.ValidateToken(decoded, "patient", s) &&
      exists e :: e in s.appointments && e.id == a.id && e.patientId == a.patientId
  {
    var validation := CentralService.CheckToken(decoded, "patient", s);
    if IsError(validation) then (validation, s)
    else
      var res := AppointmentService.UpdateAppointment(s, a, storeFails);
      assert res.0.status == OK ==> exists e :: e in s.appointments && e.id == a.id && e.patientId == a.patientId by {
        if res.0.status == OK {
          var e := FindAppointmentById(s, a.id).value;
          assert e in s.appointments && e.id == a.id;
        }
      }
      res
  }

  /** Cancel: delegated to the service only for a token that validates as
      a patient. */
  function CancelAppointment(s: Store, id: nat, decoded: Option<Claims>, storeFails: bool): (res: (Response, Store))
    ensures !TokenService.ValidateToken(decoded, "patient", s) ==>
      res == (Response(UNAUTHORIZED, Error("Invalid or expired token")), s)
    ensures TokenService.ValidateToken(decoded, "patient", s) ==>
      res == AppointmentService.CancelAppointment(s, id, decoded, storeFails)
    ensures res.0.status == OK ==>
      TokenService.ValidateToken(decoded, "patient", s) &&
      exists e :: e in s.appointments && e.id == id && TokenService.GetUserIdFromToken(decoded, s) == Some(e.patientId)
  {
    var validation := CentralService.CheckToken(decoded, "patient", s);
    if IsError(validation) then (validation, s)
    else AppointmentService.CancelAppointment(s, id, decoded, storeFails)
  }
}

=== FILE: appointment_repository.dfy ===
/** The queries and updates of the appointment repository, as pure functions
    over the appointment table. Rows come back in table order unless the
    query sorts; a comparison with a null parameter (`a.doctor.id = NULL`)
    matches no row. Joins to the doctor and patient tables are inner joins. */
module AppointmentRepository {
  import opened Wrappers
  import opened Seqs
  import opened Text
  import opened Clock
  import opened Accounts
  import opened AppointmentModel
  import opened Database

  predicate HasId(id: Option<nat>, value: nat) {
    id == Some(value)
  }

  /** `findByDoctorIdAndAppointmentTimeBetween`: the doctor's appointments
      with `start <= time <= end`. */
  function FindByDoctorIdAndTimeBetween(apps: seq<Appointment>, doctorId: Option<nat>,
                                        start: DateTime, end: DateTime): (r: seq<Appointment>)
    ensures forall a :: a in r <==>
      a in apps && HasId(doctorId, a.doctorId) && a.time.Some? && Between(a.time.value, start, end)
    ensures IsSubsequence(r, apps)
  {
    Filter(apps, (a: Appointment) =>
      HasId(doctorId, a.doctorId) && a.time.Some? && Between(a.time.value, start, end))
  }

  /** The name of the stored patient of `a`, when that patient exists. */
  function PatientName(s: Store, a: Appointment): Option<string> {
    match FindPatientById(s, a.patientId)
    case None => None
    case Some(p) => Some(p.name)
  }

  /** The name of the stored doctor of `a`, when that doctor exists. */
  function DoctorName(s: Store, a: Appointment): Option<string> {
    match FindDoctorById(s, a.doctorId)
    case None => None
    case Some(d) => Some(d.name)
  }

  /** `findByDoctorIdAndPatient_NameContainingIgnoreCaseAndAppointmentTimeBetween`:
      as above, and the lower-cased patient name contains the lower-cased
      query. */
  function FindByDoctorIdPatientNameAndTimeBetween(s: Store, doctorId: Option<nat>, patientName: string,
                                                   start: DateTime, end: DateTime): (r: seq<Appointment>)
    ensures forall a :: a in r <==>
      && a in s.appointments && HasId(doctorId, a.doctorId)
      && a.time.Some? && Between(a.time.value, start, end)
      && PatientName(s, a).Some? && ContainsIgnoreCase(PatientName(s, a).value, patientName)
    ensures IsSubsequence(r, s.appointments)
  {
    Filter(s.appointments, (a: Appointment) =>
      && HasId(doctorId, a.doctorId)
      && a.time.Some? && Between(a.time.value, start, end)
      && PatientName(s, a).Some? && ContainsIgnoreCase(PatientName(s, a).value, patientName))
  }

  function OfDoctor(doctorId: nat): Appointment -> bool {
    (a: Appointment) => a.doctorId == doctorId
  }

  /** `deleteAllByDoctorId`: the table without the doctor's appointments. */
  function DeleteAllByDoctorId(apps: seq<Appointment>, doctorId: nat): (r: seq<Appointment>)
    ensures forall a :: a in r <==> a in apps && a.doctorId != doctorId
    ensures IsSubsequence(r, apps)
  {
    Filter(apps, Not(OfDoctor(doctorId)))
  }

  /** What `deleteAllByDoctorId` removes is exactly the doctor's
      appointments: together with them the remaining table is the old one. */
  lemma DeleteAllByDoctorIdRemovesOnlyThoseRows(apps: seq<Appointment>, doctorId: nat)
    ensures multiset(DeleteAllByDoctorId(apps, doctorId)) + multiset(Filter(apps, OfDoctor(doctorId)))
         == multiset(apps)
  {
    FilterPartition(apps, OfDoctor(doctorId));
  }

  function OfPatient(patientId: Option<nat>): Appointment -> bool {
    (a: Appointment) => HasId(patientId, a.patientId)
  }

  /** `findByPatientId`. */
  function FindByPatientId(apps: seq<Appointment>, patientId: Option<nat>): (r: seq<Appointment>)
    ensures forall a :: a in r <==> a in apps && HasId(patientId, a.patientId)
    ensures IsSubsequence(r, apps)
  {
    Filter(apps, OfPatient(patientId))
  }

  function HasStatus(status: int): Appointment -> bool {
    (a: Appointment) => a.status == status
  }

  /** `ORDER BY appointmentTime ASC`, with null times first. */
  predicate TimeLe(a: Option<Moment>, b: Option<Moment>) {
    a.None? || (b.Some? && Instant(a.value) <= Instant(b.value))
  }

  predicate SortedByTime(xs: seq<Appointment>) {
    forall i, j :: 0 <= i < j < |xs| ==> TimeLe(xs[i].time, xs[j].time)
  }

  /** Putting an appointment no later than every one of a sorted list in
      front keeps it sorted. */
  lemma ConsSorted(y: Appointment, xs: seq<Appointment>)
    requires SortedByTime(xs)
    requires forall z :: z in xs ==> TimeLe(y.time, z.time)
    ensures SortedByTime([y] + xs)
  {
    var r := [y] + xs;
    forall i, j | 0 <= i < j < |r| ensures TimeLe(r[i].time, r[j].time) {
      if i == 0 {
        assert r[j] == xs[j - 1];
      } else {
        assert r[i] == xs[i - 1] && r[j] == xs[j - 1];
      }
    }
  }

  function InsertByTime(x: Appointment, xs: seq<Appointment>): (r: seq<Appointment>)
    requires SortedByTime(xs)
    ensures SortedByTime(r)
    ensures multiset(r) == multiset(xs) + multiset{x}
    ensures |r| == |xs| + 1
    ensures forall y :: y in r ==> y == x || y in xs
  {
    if |xs| == 0 then [x]
    else if TimeLe(x.time, xs[0].time) then [x] + xs
    else
      var rest := InsertByTime(x, xs[1..]);
      assert xs == [xs[0]] + xs[1..];
      assert forall y :: y in rest ==> TimeLe(xs[0].time, y.time);
      ConsSorted(xs[0], rest);
      assert multiset([xs[0]] + rest) == multiset{xs[0]} + multiset(rest);
      [xs[0]] + rest
  }

  /** A stable insertion sort on the start time. */
  function SortByTime(xs: seq<Appointment>): (r: seq<Appointment>)
    ensures SortedByTime(r)
    ensures multiset(r) == multiset(xs)
  {
    if |xs| == 0 then []
    else
      assert xs == [xs[0]] + xs[1..];
      InsertByTime(xs[0], SortByTime(xs[1..]))
  }

  /** `findByPatient_IdAndStatusOrderByAppointmentTimeAsc`: the patient's
      appointments with that status, each exactly as often as stored,
      ascending by start time. */
  function FindByPatientIdAndStatusOrderByTime(apps: seq<Appointment>, patientId: Option<nat>,
                                               status: int): (r: seq<Appointment>)
    ensures SortedByTime(r)
    ensures multiset(r) == multiset(Filter(apps, And(OfPatient(patientId), HasStatus(status))))
    ensures forall a :: a in r <==> a in apps && HasId(patientId, a.patientId) && a.status == status
  {
    var matching := Filter(apps, And(OfPatient(patientId), HasStatus(status)));
    var r := SortByTime(matching);
    assert forall a :: a in r <==> a in apps && HasId(patientId, a.patientId) && a.status == status by {
      forall a ensures a in r <==> a in matching {
        assert a in r <==> a in multiset(r);
        assert a in matching <==> a in multiset(matching);
      }
      forall a ensures And(OfPatient(patientId), HasStatus(status))(a) <==> HasId(patientId, a.patientId) && a.status == status {
      }
    }
    r
  }

  /** The `WHERE` clause of the doctor-name queries: the doctor row exists
      and its lower-cased name contains the lower-cased query, and the
      appointment belongs to the patient. */
  function DoctorNameAndPatient(s: Store, doctorName: string, patientId: Option<nat>): Appointment -> bool {
    (a: Appointment) =>
      DoctorName(s, a).Some? && ContainsIgnoreCase(DoctorName(s, a).value, doctorName)
      && HasId(patientId, a.patientId)
  }

  /** `filterByDoctorNameAndPatientId`: the patient's appointments whose
      doctor's lower-cased name contains the lower-cased query. */
  function FilterByDoctorNameAndPatientId(s: Store, doctorName: string, patientId: Option<nat>): (r: seq<Appointment>)
    ensures forall a :: a in r <==>
      && a in s.appointments && HasId(patientId, a.patientId)
      && DoctorName(s, a).Some? && ContainsIgnoreCase(DoctorName(s, a).value, doctorName)
    ensures IsSubsequence(r, s.appointments)
  {
    Filter(s.appointments, DoctorNameAndPatient(s, doctorName, patientId))
  }

  /** `filterByDoctorNameAndPatientIdAndStatus`. */
  function FilterByDoctorNameAndPatientIdAndStatus(s: Store, doctorName: string, patientId: Option<nat>,
                                                   status: int): (r: seq<Appointment>)
    ensures forall a :: a in r <==>
      && a in s.appointments && HasId(patientId, a.patientId) && a.status == status
      && DoctorName(s, a).Some? && ContainsIgnoreCase(DoctorName(s, a).value, doctorName)
    ensures IsSubsequence(r, s.appointments)
  {
    Filter(s.appointments, And(DoctorNameAndPatient(s, doctorName, patientId), HasStatus(status)))
  }

  /** Filtering the doctor-name matches by status in memory gives the same
      list, in the same order, as the three-parameter query. */
  lemma StatusFilterAgreesWithQuery(s: Store, doctorName: string, patientId: Option<nat>, status: int)
    ensures Filter(FilterByDoctorNameAndPatientId(s, doctorName, patientId), HasStatus(status))
         == FilterByDoctorNameAndPatientIdAndStatus(s, doctorName, patientId, status)
  {
    FilterFilter(s.appointments, DoctorNameAndPatient(s, doctorName, patientId), HasStatus(status));
  }

  /** `updateStatus(status, id)`: the row with that id gets the new status;
      every other field and every other row is unchanged. */
  function UpdateStatus(apps: seq<Appointment>, status: int, id: Option<nat>): (r: seq<Appointment>)
    ensures |r| == |apps|
    ensures forall i :: 0 <= i < |apps| ==> r[i].(status := apps[i].status) == apps[i]
    ensures forall i :: 0 <= i < |apps| ==>
      r[i].status == (if HasId(id, apps[i].id) then status else apps[i].status)
  {
    Map(apps, (a: Appointment) => if HasId(id, a.id) then a.(status := status) else a)
  }
}

=== FILE: appointment_service.dfy ===
/** The appointment service: booking, the owner checks on update and
    cancel, the doctor's day listing and the status change. Every write
    either happens completely or, on a store failure, not at all. */
module AppointmentService {
  import opened Wrappers
  import opened Seqs
  import opened Text
  import opened Clock
  import opened Jwt
  import opened Http
  import opened Accounts
  import opened AppointmentModel
  import opened Database
  import opened AppointmentRepository
  import TokenService

  /** `bookAppointment`: a JPA `save` with no checks of its own. It returns
      0 when the save throws: on a store failure, or when the doctor or the
      patient the appointment refers to is not stored (the foreign key
      fails). */
  function BookAppointment(s: Store, a: Appointment, storeFails: bool): (res: (int, Store))
    ensures res.0 in {0, 1}
    ensures res.0 == 1 <==>
      !storeFails && (exists d :: d in s.doctors && d.id == a.doctorId) && (exists p :: p in s.patients && p.id == a.patientId)
    ensures res.0 == 0 ==> res.1 == s
    ensures res.0 == 1 ==> AppointmentSaved(s, res.1, a)
    ensures res.0 == 1 ==> exists x :: x in res.1.appointments && x.(id := a.id) == a
    ensures res.0 == 1 ==> forall x :: x in s.appointments && x.id != a.id ==> x in res.1.appointments
  {
    if storeFails || FindDoctorById(s, a.doctorId).None? || FindPatientById(s, a.patientId).None? then (0, s)
    else (1, SaveAppointmentRow(s, a))
  }

  /** A booking keeps the foreign keys of the appointment table intact. */
  lemma BookAppointmentKeepsReferences(s: Store, a: Appointment, storeFails: bool)
    requires ReferencesResolve(s)
    ensures ReferencesResolve(BookAppointment(s, a, storeFails).1)
  {
    var s' := BookAppointment(s, a, storeFails).1;
    forall x | x in s'.appointments
      ensures (exists d :: d in s'.doctors && d.id == x.doctorId) && (exists p :: p in s'.patients && p.id == x.patientId)
    {
      if x !in s.appointments {
        assert x.(id := a.id) == a;
      }
    }
  }

  /** `updateAppointment`: 404 when no appointment has the incoming id, 401
      when the stored one belongs to another patient, 500 "Failed to update
      appointment" when the save throws (a store failure, or a doctor or
      patient reference no stored row resolves, as for booking), and
      otherwise 200 with the stored appointment replaced by the incoming
      record. Only a 200 changes the store. */
  function UpdateAppointment(s: Store, a: Appointment, storeFails: bool): (res: (Response, Store))
    ensures res.0.status in {OK, UNAUTHORIZED, NOT_FOUND, INTERNAL_SERVER_ERROR}
    ensures res.0.status == INTERNAL_SERVER_ERROR ==>
      res.0.body == Error("Failed to update appointment") &&
      (storeFails || (forall d :: d in s.doctors ==> d.id != a.doctorId) || (forall p :: p in s.patients ==> p.id != a.patientId))
    ensures res.0.status == OK ==>
      !storeFails && (exists d :: d in s.doctors && d.id == a.doctorId) && (exists p :: p in s.patients && p.id == a.patientId)
    ensures res.0.status == NOT_FOUND <==> forall x :: x in s.appointments ==> x.id != a.id
    ensures res.0.status == NOT_FOUND ==> res.0.body == Error("Appointment not found")
    ensures res.0.status == UNAUTHORIZED ==>
      res.0.body == Error("Unauthorized to update this appointment") &&
      exists e :: e in s.appointments && e.id == a.id && e.patientId != a.patientId
    ensures res.0.status != OK ==> res.1 == s
    ensures res.0.status == OK ==>
      res.1 == s.(appointments := res.1.appointments) && ReplacedById(s.appointments, res.1.appointments, a)
  {
    match FindAppointmentById(s, a.id)
    case None => (Response(NOT_FOUND, Error("Appointment not found")), s)
    case Some(existing) =>
      assert exists i :: 0 <= i < |s.appointments| && s.appointments[i].id == a.id;
      if existing.patientId != a.patientId then
        (Response(UNAUTHORIZED, Error("Unauthorized to update this appointment")), s)
      else if storeFails || FindDoctorById(s, a.doctorId).None? || FindPatientById(s, a.patientId).None? then
        (Response(INTERNAL_SERVER_ERROR, Error("Failed to update appointment")), s)
      else
        (Response(OK, Message("Appointment updated successfully")), SaveAppointmentRow(s, a))
  }

  /** With unique appointment ids the update's outcome is decided by the
      stored appointment with the incoming id: 401 exactly when it belongs
      to another patient, 500 exactly when it belongs to the same patient
      and the save throws. */
  lemma UpdateAppointmentOutcome(s: Store, a: Appointment, storeFails: bool)
    requires UniqueAppointmentIds(s.appointments)
    ensures UpdateAppointment(s, a, storeFails).0.status == UNAUTHORIZED <==>
      exists e :: e in s.appointments && e.id == a.id && e.patientId != a.patientId
    ensures UpdateAppointment(s, a, storeFails).0.status == INTERNAL_SERVER_ERROR <==>
      (exists e :: e in s.appointments && e.id == a.id && e.patientId == a.patientId) &&
      (storeFails || (forall d :: d in s.doctors ==> d.id != a.doctorId) || (forall p :: p in s.patients ==> p.id != a.patientId))
  {
    FoundAppointmentUnique(s, a.id);
  }

  /** An update keeps the foreign keys of the appointment table intact: the
      replacing record refers to a stored doctor and patient whenever the
      store accepts it. */
  lemma UpdateAppointmentKeepsReferences(s: Store, a: Appointment, storeFails: bool)
    requires ReferencesResolve(s)
    ensures ReferencesResolve(UpdateAppointment(s, a, storeFails).1)
  {
    var res := UpdateAppointment(s, a, storeFails);
    forall x | x in res.1.appointments
      ensures (exists d :: d in res.1.doctors && d.id == x.doctorId) && (exists p :: p in res.1.patients && p.id == x.patientId)
    {
      if res.0.status == OK {
        var i :| 0 <= i < |res.1.appointments| && res.1.appointments[i] == x;
        if s.appointments[i].id != a.id {
          assert x in s.appointments;
        }
      }
    }
  }

  function IdIs(id: nat): Appointment -> bool {
    (x: Appointment) => x.id == id
  }

  /** `r` keeps, in order, exactly the rows of `apps` whose id is not `id`. */
  ghost predicate RemovedById(apps: seq<Appointment>, r: seq<Appointment>, id: nat) {
    (forall x :: x in r <==> x in apps && x.id != id) && IsSubsequence(r, apps)
  }

  /** Deleting by id keeps exactly the other rows, in order. */
  lemma RemoveId(apps: seq<Appointment>, id: nat)
    ensures RemovedById(apps, Filter(apps, Not(IdIs(id))), id)
  {
  }

  /** With unique ids, deleting by the id of a stored row removes exactly
      one copy of that row. */
  lemma RemoveUniqueId(apps: seq<Appointment>, e: Appointment)
    requires UniqueAppointmentIds(apps) && e in apps
    ensures multiset(Filter(apps, Not(IdIs(e.id)))) + multiset{e} == multiset(apps)
  {
    var k :| 0 <= k < |apps| && apps[k] == e;
    FilterSingle(apps, IdIs(e.id), k);
    FilterPartition(apps, IdIs(e.id));
  }

  /** `cancelAppointment`: 404 when no appointment has the id, 401 when the
      account id resolved from the token is not the appointment's patient,
      500 on a store failure, and otherwise 200 with the appointment
      deleted. Only a 200 changes the store. */
  function CancelAppointment(s: Store, id: nat, decoded: Option<Claims>, storeFails: bool): (res: (Response, Store))
    ensures res.0.status in {OK, UNAUTHORIZED, NOT_FOUND, INTERNAL_SERVER_ERROR}
    ensures res.0.status == NOT_FOUND <==> forall x :: x in s.appointments ==> x.id != id
    ensures res.0.status == UNAUTHORIZED ==>
      res.0.body == Error("Unauthorized to cancel this appointment") &&
      exists e :: e in s.appointments && e.id == id && TokenService.GetUserIdFromToken(decoded, s) != Some(e.patientId)
    ensures FindAppointmentById(s, id).Some? ==>
      (res.0.status == UNAUTHORIZED <==>
        TokenService.GetUserIdFromToken(decoded, s) != Some(FindAppointmentById(s, id).value.patientId))
    ensures res.0.status == OK <==>
      && FindAppointmentById(s, id).Some?
      && TokenService.GetUserIdFromToken(decoded, s) == Some(FindAppointmentById(s, id).value.patientId)
      && !storeFails
    ensures res.0.status == INTERNAL_SERVER_ERROR ==> storeFails && res.0.body == Error("Failed to cancel appointment")
    ensures res.0.status != OK ==> res.1 == s
    ensures res.0.status == OK ==>
      && res.1 == s.(appointments := res.1.appointments)
      && (exists e :: e in s.appointments && e.id == id && TokenService.GetUserIdFromToken(decoded, s) == Some(e.patientId))
      && RemovedById(s.appointments, res.1.appointments, id)
    ensures res.0.status == OK && UniqueAppointmentIds(s.appointments) ==>
      exists e :: e in s.appointments && e.id == id &&
        multiset(res.1.appointments) + multiset{e} == multiset(s.appointments)
  {
    match FindAppointmentById(s, id)
    case None => (Response(NOT_FOUND, Error("Appointment not found")), s)
    case Some(existing) =>
      if TokenService.GetUserIdFromToken(decoded, s) != Some(existing.patientId) then
        (Response(UNAUTHORIZED, Error("Unauthorized to cancel this appointment")), s)
      else if storeFails then
        (Response(INTERNAL_SERVER_ERROR, Error("Failed to cancel appointment")), s)
      else
        var apps := Filter(s.appointments, Not(IdIs(id)));
        RemoveId(s.appointments, id);
        assert UniqueAppointmentIds(s.appointments) ==>
          multiset(apps) + multiset{existing} == multiset(s.appointments) by {
          if UniqueAppointmentIds(s.appointments) {
            RemoveUniqueId(s.appointments, existing);
          }
        }
        (Response(OK, Message("Appointment canceled successfully")), s.(appointments := apps))
  }

  /** The appointment writes keep the identity invariants of the store,
      so the premises of `UpdateAppointmentOutcome` and of the multiset
      clause of `CancelAppointment` survive any sequence of requests. */
  lemma BookAppointmentKeepsIdsConsistent(s: Store, a: Appointment, storeFails: bool)
    requires IdsConsistent(s)
    ensures IdsConsistent(BookAppointment(s, a, storeFails).1)
  {
    var res := BookAppointment(s, a, storeFails);
    if res.0 == 1 {
      AppointmentSavedKeepsUniqueIds(s, res.1, a);
      AppointmentSavedKeepsIssuedCovers(s, res.1, a);
    }
  }

  lemma UpdateAppointmentKeepsIdsConsistent(s: Store, a: Appointment, storeFails: bool)
    requires IdsConsistent(s)
    ensures IdsConsistent(UpdateAppointment(s, a, storeFails).1)
  {
    var res := UpdateAppointment(s, a, storeFails);
    if res.0.status == OK {
      var r := res.1.appointments;
      forall i, j | 0 <= i < |r| && 0 <= j < |r| && r[i].id == r[j].id ensures i == j {
        assert r[i].id == s.appointments[i].id && r[j].id == s.appointments[j].id;
      }
      forall x | x in r ensures x.id <= res.1.issued.appointment {
        var k :| 0 <= k < |r| && r[k] == x;
        assert x.id == s.appointments[k].id && s.appointments[k] in s.appointments;
      }
    }
  }

  lemma CancelAppointmentKeepsIdsConsistent(s: Store, id: nat, decoded: Option<Claims>, storeFails: bool)
    requires IdsConsistent(s)
    ensures IdsConsistent(CancelAppointment(s, id, decoded, storeFails).1)
  {
    if CancelAppointment(s, id, decoded, storeFails).0.status == OK {
      FilterKeepsUniqueAppointmentIds(s.appointments, Not(IdIs(id)));
    }
  }

  /** A successful cancel leaves no row with the id, and the counter
      stays at or above it. */
  lemma CancelFreesId(s: Store, id: nat, decoded: Option<Claims>, storeFails: bool)
    requires IssuedCovers(s)
    requires CancelAppointment(s, id, decoded, storeFails).0.status == OK
    ensures var s1 := CancelAppointment(s, id, decoded, storeFails).1;
      (forall x :: x in s1.appointments ==> x.id != id) && id <= s1.issued.appointment
  {
    var e :| e in s.appointments && e.id == id;
  }

  /** A save into a table with no row `id` whose counter has passed `id`
      leaves no row `id`. */
  lemma SaveAvoidsFreedId(s: Store, r: Store, a: Appointment, id: nat)
    requires AppointmentSaved(s, r, a)
    requires (forall x :: x in s.appointments ==> x.id != id) && id <= s.issued.appointment
    ensures forall x :: x in r.appointments ==> x.id != id
  {
    forall x | x in r.appointments ensures x.id != id {
      var k :| 0 <= k < |r.appointments| && r.appointments[k] == x;
      if k < |s.appointments| {
        assert x.id == s.appointments[k].id && s.appointments[k] in s.appointments;
      }
    }
  }

  /** A cancelled appointment's id is never handed out again: after a
      cancel, no booking, whatever it carries, leaves a row with that id. */
  lemma CancelledIdNotReissued(s: Store, id: nat, decoded: Option<Claims>, fails1: bool, a: Appointment, fails2: bool)
    requires IssuedCovers(s)
    requires CancelAppointment(s, id, decoded, fails1).0.status == OK
    ensures var s1 := CancelAppointment(s, id, decoded, fails1).1;
      forall x :: x in BookAppointment(s1, a, fails2).1.appointments ==> x.id != id
  {
    var s1 := CancelAppointment(s, id, decoded, fails1).1;
    CancelFreesId(s, id, decoded, fails1);
    if BookAppointment(s1, a, fails2).0 == 1 {
      SaveAvoidsFreedId(s1, BookAppointment(s1, a, fails2).1, a, id);
    }
  }

  /** `getAppointments`: the appointments of the account id resolved from
      the token within the whole day `date`; when a non-empty patient name
      is given, only those whose patient's name contains it, ignoring
      case. */
  function GetAppointments(s: Store, patientName: Option<string>, date: int, decoded: Option<Claims>): (r: seq<Appointment>)
    ensures IsSubsequence(r, s.appointments)
    ensures patientName.None? || patientName.value == [] ==>
      forall a :: a in r <==>
        a in s.appointments && TokenService.GetUserIdFromToken(decoded, s) == Some(a.doctorId)
        && a.time.Some? && a.time.value.date == date
    ensures patientName.Some? && patientName.value != [] ==>
      forall a :: a in r <==>
        a in s.appointments && TokenService.GetUserIdFromToken(decoded, s) == Some(a.doctorId)
        && a.time.Some? && a.time.value.date == date
        && PatientName(s, a).Some? && ContainsIgnoreCase(PatientName(s, a).value, patientName.value)
  {
    var doctorId := TokenService.GetUserIdFromToken(decoded, s);
    forall a: Appointment | a.time.Some? ensures Between(a.time.value, StartOfDay(date), EndOfDay(date)) <==> a.time.value.date == date {
      DayWindowIsDate(a.time.value, date);
    }
    if patientName.Some? && patientName.value != [] then
      FindByDoctorIdPatientNameAndTimeBetween(s, doctorId, patientName.value, StartOfDay(date), EndOfDay(date))
    else
      FindByDoctorIdAndTimeBetween(s.appointments, doctorId, StartOfDay(date), EndOfDay(date))
  }

  /** `changeStatus`: the appointment with that id gets the status. It
      answers 200 whether or not such an appointment exists, and 500 on a
      store failure, which changes nothing. */
  function ChangeStatus(s: Store, id: Option<nat>, status: int, storeFails: bool): (res: (Response, Store))
    ensures res.0.status == OK <==> !storeFails
    ensures storeFails ==> res == (Response(INTERNAL_SERVER_ERROR, Error("Failed to update status")), s)
    ensures res.1 == s.(appointments := res.1.appointments)
    ensures |res.1.appointments| == |s.appointments|
    ensures forall i :: 0 <= i < |s.appointments| ==>
      res.1.appointments[i].(status := s.appointments[i].status) == s.appointments[i]
    ensures !storeFails ==> forall i :: 0 <= i < |s.appointments| ==>
      res.1.appointments[i].status == (if HasId(id, s.appointments[i].id) then status else s.appointments[i].status)
    ensures (forall a :: a in s.appointments ==> !HasId(id, a.id)) ==> res.1 == s
  {
    if storeFails then (Response(INTERNAL_SERVER_ERROR, Error("Failed to update status")), s)
    else
      var apps := UpdateStatus(s.appointments, status, id);
      assert (forall a :: a in s.appointments ==> !HasId(id, a.id)) ==> apps == s.appointments by {
        if forall a :: a in s.appointments ==> !HasId(id, a.id) {
          forall i | 0 <= i < |apps| ensures apps[i] == s.appointments[i] {
            assert s.appointments[i] in s.appointments;
          }
        }
      }
      (Response(OK, Message("Status updated successfully")), s.(appointments := apps))
  }

  lemma ChangeStatusKeepsIdsConsistent(s: Store, id: Option<nat>, status: int, storeFails: bool)
    requires IdsConsistent(s)
    ensures IdsConsistent(ChangeStatus(s, id, status, storeFails).1)
  {
    var r := ChangeStatus(s, id, status, storeFails).1.appointments;
    forall i, j | 0 <= i < |r| && 0 <= j < |r| && r[i].id == r[j].id ensures i == j {
      assert r[i].(status := s.appointments[i].status) == s.appointments[i];
      assert r[j].(status := s.appointments[j].status) == s.appointments[j];
    }
    forall x | x in r ensures x.id <= s.issued.appointment {
      var k :| 0 <= k < |r| && r[k] == x;
      assert r[k].(status := s.appointments[k].status) == s.appointments[k];
      assert s.appointments[k] in s.appointments;
    }
  }

  /** A cancelled appointment is gone: cancelling the same id again finds
      nothing and changes nothing, whoever asks. */
  lemma CancelTwiceNotFound(s: Store, id: nat, decoded: Option<Claims>, storeFails: bool,
                            decoded2: Option<Claims>, storeFails2: bool)
    requires CancelAppointment(s, id, decoded, storeFails).0.status == OK
    ensures var s' := CancelAppointment(s, id, decoded, storeFails).1;
      CancelAppointment(s', id, decoded2, storeFails2) == (Response(NOT_FOUND, Error("Appointment not found")), s')
  {
  }

  /** Cancelling only removes appointments, so the foreign keys of the
      appointment table stay intact. */
  lemma CancelKeepsReferences(s: Store, id: nat, decoded: Option<Claims>, storeFails: bool)
    requires ReferencesResolve(s)
    ensures ReferencesResolve(CancelAppointment(s, id, decoded, storeFails).1)
  {
  }

  /** Setting the same status twice is the same as setting it once. */
  lemma ChangeStatusIdempotent(s: Store, id: Option<nat>, status: int, storeFails: bool)
    ensures var s1 := ChangeStatus(s, id, status, false).1;
      ChangeStatus(s1, id, status, storeFails).1 == s1
  {
    var s1 := ChangeStatus(s, id, status, false).1;
    var s2 := ChangeStatus(s1, id, status, storeFails).1;
    if !storeFails {
      forall i | 0 <= i < |s1.appointments| ensures s2.appointments[i] == s1.appointments[i] {
        assert s1.appointments[i].(status := s.appointments[i].status) == s.appointments[i];
        assert s2.appointments[i].(status := s1.appointments[i].status) == s1.appointments[i];
      }
    }
  }
}

=== FILE: central_service.dfy ===
/** The central service: the token check every controller runs first, the
    admin and patient logins, the booking gate, the patient uniqueness
    check, and the null-driven dispatches of the doctor and patient
    filters. */
module CentralService {
  import opened Wrappers
  import opened Seqs
  import opened Text
  import opened Clock
  import opened Jwt
  import opened Http
  import opened Accounts
  import opened AppointmentModel
  import opened Database
  import DoctorRepository
  import TokenService
  import DoctorService
  import PatientService
  import opened AppointmentRepository

  /** `validateToken`: 401 "Invalid or expired token" unless the decoded
      token carries the expected role (ignoring case) and names a stored
      account of that role; 200 "Token is valid" otherwise. */
  function CheckToken(decoded: Option<Claims>, userRole: string, s: Store): (r: Response)
    ensures r.status == OK <==>
      && decoded.Some? && decoded.value.role.Some?
      && EqualsIgnoreCase(userRole, decoded.value.role.value)
      && TokenService.AccountExists(s, decoded.value.role.value, decoded.value.subject)
    ensures r.status != OK ==> r == Response(UNAUTHORIZED, Error("Invalid or expired token"))
    ensures IsError(r) <==> r.status != OK
  {
    if !TokenService.ValidateToken(decoded, userRole, s) then Response(UNAUTHORIZED, Error("Invalid or expired token"))
    else Response(OK, Message("Token is valid"))
  }

  /** `validateAdmin`: 401 unless the admin found by username has exactly
      the given password; otherwise a token for the admin's id with role
      ADMIN. */
  function ValidateAdmin(s: Store, username: Option<string>, password: Option<string>, now: int): (r: Response)
    ensures r.status == OK ==>
      exists a :: a in s.admins && username == Some(a.username) && password == Some(a.password)
        && r.body == Token(TokenService.GenerateToken(NatToString(a.id), "ADMIN", now))
    ensures (forall a :: a in s.admins && username == Some(a.username) ==> password != Some(a.password)) ==>
      r == Response(UNAUTHORIZED, Error("Invalid admin credentials"))
    ensures r.status in {OK, UNAUTHORIZED}
    ensures r.status != OK ==> r == Response(UNAUTHORIZED, Error("Invalid admin credentials"))
    ensures match FindAdminByUsername(s, username)
      case Some(a) =>
        password == Some(a.password) ==>
          r == Response(OK, Token(TokenService.GenerateToken(NatToString(a.id), "ADMIN", now)))
      case None => r.status == UNAUTHORIZED
  {
    match FindAdminByUsername(s, username)
    case None => Response(UNAUTHORIZED, Error("Invalid admin credentials"))
    case Some(a) =>
      if password != Some(a.password) then Response(UNAUTHORIZED, Error("Invalid admin credentials"))
      else Response(OK, Token(TokenService.GenerateToken(NatToString(a.id), "ADMIN", now)))
  }

  /** `validatePatientLogin`: as for admins, by patient email, role PATIENT. */
  function ValidatePatientLogin(s: Store, login: Login, now: int): (r: Response)
    ensures r.status == OK ==>
      exists p :: p in s.patients && login.identifier == Some(p.email) && login.password == Some(p.password)
        && r.body == Token(TokenService.GenerateToken(NatToString(p.id), "PATIENT", now))
    ensures (forall p :: p in s.patients && login.identifier == Some(p.email) ==> login.password != Some(p.password)) ==>
      r == Response(UNAUTHORIZED, Error("Invalid patient credentials"))
    ensures r.status in {OK, UNAUTHORIZED}
    ensures r.status != OK ==> r == Response(UNAUTHORIZED, Error("Invalid patient credentials"))
    ensures match FindPatientByEmail(s, login.identifier)
      case Some(p) =>
        login.password == Some(p.password) ==>
          r == Response(OK, Token(TokenService.GenerateToken(NatToString(p.id), "PATIENT", now)))
      case None => r.status == UNAUTHORIZED
  {
    match FindPatientByEmail(s, login.identifier)
    case None => Response(UNAUTHORIZED, Error("Invalid patient credentials"))
    case Some(p) =>
      if login.password != Some(p.password) then Response(UNAUTHORIZED, Error("Invalid patient credentials"))
      else Response(OK, Token(TokenService.GenerateToken(NatToString(p.id), "PATIENT", now)))
  }

  /** With usernames unique across the admin table, every stored admin
      logs in with its own username and password and receives an ADMIN
      token for its id. */
  lemma ValidateAdminAcceptsStoredAdmin(s: Store, a: Admin, now: int)
    requires a in s.admins
    requires forall i, j :: 0 <= i < |s.admins| && 0 <= j < |s.admins| && s.admins[i].username == s.admins[j].username ==> i == j
    ensures ValidateAdmin(s, Some(a.username), Some(a.password), now) ==
      Response(OK, Token(TokenService.GenerateToken(NatToString(a.id), "ADMIN", now)))
  {
    var x := FindAdminByUsername(s, Some(a.username)).value;
    var i :| 0 <= i < |s.admins| && s.admins[i] == x;
    var k :| 0 <= k < |s.admins| && s.admins[k] == a;
    assert i == k;
  }

  /** The token an admin login issues carries the admin's numeric id as its
      subject, while token validation looks the subject up as a username:
      unless some stored username consists of digits only, the admin's own
      login token is rejected. */
  lemma AdminLoginTokenRejected(s: Store, username: Option<string>, password: Option<string>, now: int)
    requires ValidateAdmin(s, username, password, now).status == OK
    requires forall a :: a in s.admins ==> exists i :: 0 <= i < |a.username| && !('0' <= a.username[i] <= '9')
    ensures !TokenService.ValidateToken(Some(ValidateAdmin(s, username, password, now).body.claims), "ADMIN", s)
  {
    var r := ValidateAdmin(s, username, password, now);
    var a :| a in s.admins && r.body == Token(TokenService.GenerateToken(NatToString(a.id), "ADMIN", now));
    TokenService.IdNamesNoAdmin(s, a.id);
    TokenService.IssuedTokenForNoAccountRejected(NatToString(a.id), "ADMIN", now, s);
  }

  /** With emails unique across the patient table, every stored patient
      logs in with its own email and password and receives a PATIENT token
      for its id. */
  lemma ValidatePatientLoginAcceptsStoredPatient(s: Store, p: Patient, now: int)
    requires p in s.patients
    requires forall i, j :: 0 <= i < |s.patients| && 0 <= j < |s.patients| && s.patients[i].email == s.patients[j].email ==> i == j
    ensures ValidatePatientLogin(s, Login(Some(p.email), Some(p.password)), now) ==
      Response(OK, Token(TokenService.GenerateToken(NatToString(p.id), "PATIENT", now)))
  {
    var x := FindPatientByEmail(s, Some(p.email)).value;
    var i :| 0 <= i < |s.patients| && s.patients[i] == x;
    var k :| 0 <= k < |s.patients| && s.patients[k] == p;
    assert i == k;
  }

  /** As for doctors and admins: a patient's own login token names the
      patient's numeric id, which the PATIENT check looks up as an email. */
  lemma PatientLoginTokenRejected(s: Store, login: Login, now: int)
    requires ValidatePatientLogin(s, login, now).status == OK
    requires forall p :: p in s.patients ==> exists i :: 0 <= i < |p.email| && !('0' <= p.email[i] <= '9')
    ensures !TokenService.ValidateToken(Some(ValidatePatientLogin(s, login, now).body.claims), "PATIENT", s)
  {
    var r := ValidatePatientLogin(s, login, now);
    var p :| p in s.patients && r.body == Token(TokenService.GenerateToken(NatToString(p.id), "PATIENT", now));
    TokenService.IdNamesNoPatient(s, p.id);
    TokenService.IssuedTokenForNoAccountRejected(NatToString(p.id), "PATIENT", now, s);
  }

  /** `filterDoctor`: which filters are non-null decides the query. Each
      case is stated by what its result contains; note that a name given
      together with a specialty but no time is ignored, and that the name
      match is case-insensitive only when all three filters are given. */
  function FilterDoctor(s: Store, name: Option<string>, specialty: Option<string>, timeSlot: Option<string>): (r: seq<Doctor>)
    requires timeSlot.Some? ==> DoctorService.TimesWellFormed(s.doctors)
    ensures IsSubsequence(r, s.doctors)
    ensures name.Some? && specialty.Some? && timeSlot.Some? ==>
      forall d :: d in r <==>
        d in s.doctors && ContainsIgnoreCase(d.name, name.value) && EqualsIgnoreCase(d.specialty, specialty.value)
        && DoctorService.OffersHalfDay(d, timeSlot.value)
    ensures name.Some? && specialty.None? && timeSlot.Some? ==>
      forall d :: d in r <==>
        d in s.doctors && Contains(d.name, name.value) && DoctorService.OffersHalfDay(d, timeSlot.value)
    ensures name.None? && specialty.Some? && timeSlot.Some? ==>
      forall d :: d in r <==>
        d in s.doctors && EqualsIgnoreCase(d.specialty, specialty.value) && DoctorService.OffersHalfDay(d, timeSlot.value)
    ensures specialty.Some? && timeSlot.None? ==>
      forall d :: d in r <==> d in s.doctors && EqualsIgnoreCase(d.specialty, specialty.value)
    ensures name.Some? && specialty.None? && timeSlot.None? ==>
      forall d :: d in r <==> d in s.doctors && Contains(d.name, name.value)
    ensures name.None? && specialty.None? && timeSlot.Some? ==>
      forall d :: d in r <==> d in s.doctors && DoctorService.OffersHalfDay(d, timeSlot.value)
    ensures name.None? && specialty.None? && timeSlot.None? ==> r == s.doctors
  {
    if name.Some? && specialty.Some? && timeSlot.Some? then
      var base := DoctorRepository.FindByNameAndSpecialtyIgnoreCase(s.doctors, name.value, specialty.value);
      IsSubsequenceTrans(DoctorService.FilterByTime(base, timeSlot.value), base, s.doctors);
      DoctorService.FilterByTime(base, timeSlot.value)
    else if name.Some? && timeSlot.Some? then
      var base := DoctorRepository.FindByNameLike(s.doctors, name.value);
      IsSubsequenceTrans(DoctorService.FilterByTime(base, timeSlot.value), base, s.doctors);
      DoctorService.FilterByTime(base, timeSlot.value)
    else if specialty.Some? && timeSlot.Some? then
      var base := DoctorRepository.FindBySpecialtyIgnoreCase(s.doctors, specialty.value);
      IsSubsequenceTrans(DoctorService.FilterByTime(base, timeSlot.value), base, s.doctors);
      DoctorService.FilterByTime(base, timeSlot.value)
    else if specialty.Some? then DoctorService.FilterBySpecialty(s, specialty.value)
    else if name.Some? then DoctorService.FindByName(s, name.value)
    else if timeSlot.Some? then DoctorService.FilterByTimeOnly(s, timeSlot.value)
    else
      IsSubsequenceRefl(s.doctors);
      s.doctors
  }

  /** With a specialty and no time, the name filter has no effect. */
  lemma FilterDoctorIgnoresNameWithSpecialtyOnly(s: Store, name1: Option<string>, name2: Option<string>, specialty: string)
    ensures FilterDoctor(s, name1, Some(specialty), None) == FilterDoctor(s, name2, Some(specialty), None)
  {
  }

  /** `validateAppointment`: -1 when no doctor has the appointment's doctor
      id (decided before the time is read); otherwise 1 when the
      appointment's "HH:mm" is among the doctor's free slots that day and 0
      when not. A null time on a known doctor throws. */
  function ValidateAppointment(s: Store, a: Appointment): (r: Result<int, string>)
    ensures r == Success(-1) <==> !DoctorRepository.ExistsById(s.doctors, a.doctorId)
    ensures r.Failure? <==> DoctorRepository.ExistsById(s.doctors, a.doctorId) && a.time.None?
    ensures r.Success? ==> r.value in {-1, 0, 1}
    ensures r == Success(1) <==>
      DoctorRepository.ExistsById(s.doctors, a.doctorId) && a.time.Some? && DoctorService.SlotFree(s, a.doctorId, a.time.value)
  {
    match FindDoctorById(s, a.doctorId)
    case None => Success(-1)
    case Some(_) =>
      match a.time
      case None => Failure("NullPointerException")
      case Some(t) =>
        var slots := DoctorService.GetDoctorAvailability(s, a.doctorId, t.date);
        DoctorService.OfferedIffSlotFree(s, a.doctorId, t);
        Success(if FormatHHmm(t.time) in slots then 1 else 0)
  }

  /** `validatePatient`: true exactly when no stored patient shares the
      email or the phone number. */
  function ValidatePatient(s: Store, p: Patient): (ok: bool)
    ensures ok <==> forall q :: q in s.patients ==> q.email != p.email && q.phone != p.phone
  {
    FindPatientByEmailOrPhone(s, p.email, p.phone).None?
  }

  /** `filterPatient`: the account id resolved from the token is the
      patient; a condition and a doctor name together filter by both, either
      one alone by itself, and neither lists all the patient's
      appointments. Every listed appointment is the resolved account's, has
      the status the condition selects and a doctor whose name contains the
      one given. */
  function FilterPatient(s: Store, condition: Option<string>, doctorName: Option<string>, decoded: Option<Claims>): (r: Response)
    ensures condition.Some? && PatientService.ConditionStatus(condition.value).None? ==>
      r == Response(BAD_REQUEST, Error("Invalid condition"))
    ensures r.status == OK ==>
      && r.body.AppointmentDtos?
      && forall i :: 0 <= i < |r.body.dtos| ==>
           Some(r.body.dtos[i].patientId) == TokenService.GetUserIdFromToken(decoded, s)
    ensures r.status == OK && condition.Some? ==>
      forall i :: 0 <= i < |r.body.dtos| ==>
        Some(r.body.dtos[i].status) == PatientService.ConditionStatus(condition.value)
    ensures r.status == OK && doctorName.Some? ==>
      forall i :: 0 <= i < |r.body.dtos| ==> ContainsIgnoreCase(r.body.dtos[i].doctorName, doctorName.value)
    ensures condition.None? && doctorName.None? ==> r.status != UNAUTHORIZED
    ensures condition.None? && doctorName.None? && TokenService.GetUserIdFromToken(decoded, s).None? ==>
      r == Response(INTERNAL_SERVER_ERROR, Uncaught)
    ensures condition.Some? && doctorName.Some? ==>
      r == PatientService.FilterByDoctorAndCondition(s, condition.value, doctorName.value, TokenService.GetUserIdFromToken(decoded, s))
    ensures condition.Some? && doctorName.None? ==>
      r == PatientService.FilterByCondition(s, condition.value, TokenService.GetUserIdFromToken(decoded, s))
    ensures condition.None? && doctorName.Some? ==>
      r == PatientService.FilterByDoctor(s, doctorName.value, TokenService.GetUserIdFromToken(decoded, s))
    ensures condition.None? && doctorName.None? ==>
      r == PatientService.GetPatientAppointment(s, TokenService.GetUserIdFromToken(decoded, s), decoded)
    ensures condition.Some? && doctorName.None? && PatientService.ConditionStatus(condition.value).Some? ==>
      PatientService.ConditionListed(s, TokenService.GetUserIdFromToken(decoded, s),
                                     PatientService.ConditionStatus(condition.value).value, r)
    ensures condition.None? && doctorName.Some? && r.status == OK ==>
      forall a :: (a in s.appointments && HasId(TokenService.GetUserIdFromToken(decoded, s), a.patientId)
                   && DoctorName(s, a).Some? && ContainsIgnoreCase(DoctorName(s, a).value, doctorName.value)) ==>
        exists i :: 0 <= i < |r.body.dtos| && r.body.dtos[i].id == a.id
  {
    var id := TokenService.GetUserIdFromToken(decoded, s);
    if condition.Some? && doctorName.Some? then
      PatientService.FilterByDoctorAndCondition(s, condition.value, doctorName.value, id)
    else if condition.Some? then
      PatientService.FilterByCondition(s, condition.value, id)
    else if doctorName.Some? then
      PatientService.FilterByDoctor(s, doctorName.value, id)
    else
      PatientService.GetPatientAppointment(s, id, decoded)
  }

  /** Registering a patient makes the same details no longer unique: the
      uniqueness check refuses the same patient afterwards. */
  lemma CreatedPatientNotUnique(s: Store, p: Patient)
    ensures !ValidatePatient(PatientService.CreatePatient(s, p, false).1, p)
  {
    var s' := PatientService.CreatePatient(s, p, false).1;
    var x :| x in s'.patients && x.(id := p.id) == p;
    assert x.email == p.email;
  }

  /** Adding a condition to a doctor-name filter only narrows the list:
      when the name alone answers 200, name and condition together answer
      200 with appointments the name alone lists. */
  lemma FilterPatientNarrows(s: Store, condition: string, doctorName: string, decoded: Option<Claims>)
    requires PatientService.ConditionStatus(condition).Some?
    requires FilterPatient(s, None, Some(doctorName), decoded).status == OK
    ensures var both := FilterPatient(s, Some(condition), Some(doctorName), decoded);
      var byName := FilterPatient(s, None, Some(doctorName), decoded);
      && both.status == OK
      && forall i :: 0 <= i < |both.body.dtos| ==>
           exists j :: 0 <= j < |byName.body.dtos| && byName.body.dtos[j].id == both.body.dtos[i].id
  {
    var id := TokenService.GetUserIdFromToken(decoded, s);
    assert FilterPatient(s, None, Some(doctorName), decoded) == PatientService.FilterByDoctor(s, doctorName, id);
    assert FilterPatient(s, Some(condition), Some(doctorName), decoded) ==
      PatientService.FilterByDoctorAndCondition(s, condition, doctorName, id);
    PatientService.DoctorAndConditionNarrowsDoctor(s, condition, doctorName, id);
  }
}

=== FILE: clock.dfy ===
/** The `java.time` values the backend uses, without time zones: a
    `LocalDate` is an epoch day, a `LocalTime` an (hour, minute, second,
    nanosecond) tuple, a `LocalDateTime` the pair of both. "Now" is always a
    parameter. */
module Clock {
  import opened Text

  const NanosPerSecond: int := 1_000_000_000
  const NanosPerMinute: int := 60 * NanosPerSecond
  const NanosPerHour: int := 60 * NanosPerMinute
  const NanosPerDay: int := 24 * NanosPerHour

  datatype LocalTime = LocalTime(hour: nat, minute: nat, second: nat, nano: nat)

  /** A `LocalDateTime`: `date` counts days from the epoch. */
  datatype DateTime = DateTime(date: int, time: LocalTime)

  predicate ValidTime(t: LocalTime) {
    t.hour < 24 && t.minute < 60 && t.second < 60 && t.nano < NanosPerSecond
  }

  predicate Valid(dt: DateTime) {
    ValidTime(dt.time)
  }

  /** A well-formed `LocalDateTime`, as every parsed or stored value is. */
  type Moment = dt: DateTime | Valid(dt) witness DateTime(0, LocalTime(0, 0, 0, 0))

  function NanoOfDay(t: LocalTime): int {
    t.hour * NanosPerHour + t.minute * NanosPerMinute + t.second * NanosPerSecond + t.nano
  }

  /** The position of `dt` on the time line, in nanoseconds from the epoch;
      `LocalDateTime.compareTo` orders by it. */
  function Instant(dt: DateTime): int {
    dt.date * NanosPerDay + NanoOfDay(dt.time)
  }

  lemma NanoOfDayBounds(t: LocalTime)
    requires ValidTime(t)
    ensures 0 <= NanoOfDay(t) < NanosPerDay
  {
  }

  predicate IsAfter(a: DateTime, b: DateTime) {
    Instant(a) > Instant(b)
  }

  /** SQL `t BETWEEN lo AND hi`: both ends inclusive. */
  predicate Between(t: DateTime, lo: DateTime, hi: DateTime) {
    Instant(lo) <= Instant(t) <= Instant(hi)
  }

  /** `LocalTime.MAX`, 23:59:59.999999999. */
  const EndOfDayTime: LocalTime := LocalTime(23, 59, 59, NanosPerSecond - 1)

  /** `date.atStartOfDay()`. */
  function StartOfDay(date: int): DateTime {
    DateTime(date, LocalTime(0, 0, 0, 0))
  }

  /** `date.atTime(LocalTime.MAX)`. */
  function EndOfDay(date: int): DateTime {
    DateTime(date, EndOfDayTime)
  }

  /** The inclusive window [date 00:00, date 23:59:59.999999999] holds exactly
      the date-times whose date part is `date`. */
  lemma DayWindowIsDate(t: DateTime, date: int)
    requires Valid(t)
    ensures Between(t, StartOfDay(date), EndOfDay(date)) <==> t.date == date
  {
    NanoOfDayBounds(t.time);
    assert NanoOfDay(EndOfDayTime) == NanosPerDay - 1;
    if t.date < date {
      assert Instant(t) < date * NanosPerDay;
    } else if t.date > date {
      assert Instant(t) >= (date + 1) * NanosPerDay;
    }
  }

  /** `LocalDateTime.plusHours(1)`: the hour rolls over into the next day
      after 23. */
  function PlusOneHour(dt: DateTime): (r: DateTime)
    requires Valid(dt)
    ensures Valid(r)
    ensures Instant(r) == Instant(dt) + NanosPerHour
  {
    if dt.time.hour == 23 then DateTime(dt.date + 1, dt.time.(hour := 0))
    else DateTime(dt.date, dt.time.(hour := dt.time.hour + 1))
  }

  /** `String.format("%02d:00", h)`: the label of the hourly slot starting at `h`. */
  function Slot(h: nat): string
    requires h < 24
  {
    Pad2(h) + ":00"
  }

  /** `time.format(DateTimeFormatter.ofPattern("HH:mm"))`: seconds and
      nanoseconds are dropped. */
  function FormatHHmm(t: LocalTime): (r: string)
    requires ValidTime(t)
    ensures |r| == 5 && r[2] == ':'
  {
    Pad2(t.hour) + ":" + Pad2(t.minute)
  }

  /** Two times print the same "HH:mm" exactly when they agree on hour and
      minute. */
  lemma FormatHHmmInjective(a: LocalTime, b: LocalTime)
    requires ValidTime(a) && ValidTime(b)
    ensures FormatHHmm(a) == FormatHHmm(b) <==> a.hour == b.hour && a.minute == b.minute
  {
    if FormatHHmm(a) == FormatHHmm(b) {
      var fa, fb := FormatHHmm(a), FormatHHmm(b);
      assert Pad2(a.hour) == fa[..2] == fb[..2] == Pad2(b.hour);
      assert Pad2(a.minute) == fa[3..] == fb[3..] == Pad2(b.minute);
    }
  }

  /** A booking's "HH:mm" equals the label of slot `h` exactly when the
      booking starts on the hour `h`. */
  lemma FormatMatchesSlot(t: LocalTime, h: nat)
    requires ValidTime(t) && h < 24
    ensures FormatHHmm(t) == Slot(h) <==> t.hour == h && t.minute == 0
  {
    FormatHHmmInjective(t, LocalTime(h, 0, 0, 0));
    assert Slot(h) == FormatHHmm(LocalTime(h, 0, 0, 0));
  }
}

=== FILE: database.dfy ===
/** The persistent state behind the services: the relational tables for
    accounts and appointments and the document collection of prescriptions,
    as immutable sequences in insertion order. The single-result finders of
    the admin, patient and prescription repositories live here too. */
module Database {
  import opened Wrappers
  import opened Seqs
  import opened Accounts
  import opened AppointmentModel
  import opened PrescriptionModel

  datatype Store = Store(
    admins: seq<Admin>,
    doctors: seq<Doctor>,
    patients: seq<Patient>,
    appointments: seq<Appointment>,
    prescriptions: seq<Prescription>,
    issued: Issued)

  /** The `AUTO_INCREMENT` counters behind the `IDENTITY` columns of the
      tables the services insert into: the largest id each has handed out.
      A delete never lowers a counter, so the id of a deleted row is not
      handed out again. */
  datatype Issued = Issued(doctor: nat, patient: nat, appointment: nat)

  /** One more than the largest id in `ids`. */
  function AboveAll(ids: seq<nat>): (r: nat)
    ensures forall i :: 0 <= i < |ids| ==> ids[i] < r
  {
    if |ids| == 0 then 1
    else
      var rest := AboveAll(ids[1..]);
      if ids[0] < rest then rest else ids[0] + 1
  }

  /** The id an insert receives: above the table's counter and above every
      id stored in the table. */
  function NextId(last: nat, ids: seq<nat>): (r: nat)
    ensures last < r
    ensures forall i :: 0 <= i < |ids| ==> ids[i] < r
  {
    var above := AboveAll(ids);
    if last < above then above else last + 1
  }

  function DoctorIds(ds: seq<Doctor>): (r: seq<nat>)
    ensures |r| == |ds| && forall i :: 0 <= i < |ds| ==> r[i] == ds[i].id
  {
    Map(ds, (d: Doctor) => d.id)
  }

  function PatientIds(ps: seq<Patient>): (r: seq<nat>)
    ensures |r| == |ps| && forall i :: 0 <= i < |ps| ==> r[i] == ps[i].id
  {
    Map(ps, (p: Patient) => p.id)
  }

  function AppointmentIds(as_: seq<Appointment>): (r: seq<nat>)
    ensures |r| == |as_| && forall i :: 0 <= i < |as_| ==> r[i] == as_[i].id
  {
    Map(as_, (a: Appointment) => a.id)
  }

  lemma AppointmentIdsAppend(xs: seq<Appointment>, ys: seq<Appointment>)
    ensures AppointmentIds(xs + ys) == AppointmentIds(xs) + AppointmentIds(ys)
  {
    assert forall i :: 0 <= i < |xs| ==> (xs + ys)[i] == xs[i];
    assert forall i :: |xs| <= i < |xs| + |ys| ==> (xs + ys)[i] == ys[i - |xs|];
  }

  /** Listing the same appointments in another order lists the same ids
      in another order. */
  lemma {:induction false} AppointmentIdsPermute(xs: seq<Appointment>, ys: seq<Appointment>)
    requires multiset(xs) == multiset(ys)
    ensures multiset(AppointmentIds(xs)) == multiset(AppointmentIds(ys))
    decreases |xs|
  {
    if |xs| == 0 {
      assert |multiset(ys)| == 0;
    } else {
      var x := xs[0];
      assert x in multiset(ys);
      var k :| 0 <= k < |ys| && ys[k] == x;
      var front, back := ys[..k], ys[k + 1..];
      assert ys == front + [x] + back;
      assert xs == [x] + xs[1..];
      MultisetRemoveAt(xs, ys, k);
      AppointmentIdsPermute(xs[1..], front + back);
      AppointmentIdsAppend([x], xs[1..]);
      AppointmentIdsAppend(front, [x]);
      AppointmentIdsAppend(front + [x], back);
      AppointmentIdsAppend(front, back);
    }
  }

  // ---- finders (`findById`, `findByEmail`, `findByUsername`, ...) ----

  function FindDoctorById(s: Store, id: nat): (r: Option<Doctor>)
    ensures r.None? <==> forall x :: x in s.doctors ==> x.id != id
    ensures r.Some? ==> r.value in s.doctors && r.value.id == id
  {
    FindFirst(s.doctors, (d: Doctor) => d.id == id)
  }

  function FindPatientById(s: Store, id: nat): (r: Option<Patient>)
    ensures r.None? <==> forall x :: x in s.patients ==> x.id != id
    ensures r.Some? ==> r.value in s.patients && r.value.id == id
  {
    FindFirst(s.patients, (p: Patient) => p.id == id)
  }

  function FindAppointmentById(s: Store, id: nat): (r: Option<Appointment>)
    ensures r.None? <==> forall x :: x in s.appointments ==> x.id != id
    ensures r.Some? ==> r.value in s.appointments && r.value.id == id
  {
    FindFirst(s.appointments, (a: Appointment) => a.id == id)
  }

  /** `PatientRepository.findByEmail`. A null email matches no row. */
  function FindPatientByEmail(s: Store, email: Option<string>): (r: Option<Patient>)
    ensures r.None? <==> email.None? || forall p :: p in s.patients ==> p.email != email.value
    ensures r.Some? ==> r.value in s.patients && email == Some(r.value.email)
  {
    if email.None? then None else FindFirst(s.patients, (p: Patient) => p.email == email.value)
  }

  /** `PatientRepository.findByEmailOrPhone`. */
  function FindPatientByEmailOrPhone(s: Store, email: string, phone: string): Option<Patient> {
    FindFirst(s.patients, (p: Patient) => p.email == email || p.phone == phone)
  }

  /** `AdminRepository.findByUsername`. A null username matches no row. */
  function FindAdminByUsername(s: Store, username: Option<string>): (r: Option<Admin>)
    ensures r.None? <==> username.None? || forall a :: a in s.admins ==> a.username != username.value
    ensures r.Some? ==> r.value in s.admins && username == Some(r.value.username)
  {
    if username.None? then None else FindFirst(s.admins, (a: Admin) => a.username == username.value)
  }

  /** `PrescriptionRepository.findByAppointmentId`: every document with that
      appointment id, in insertion order (a null id matches the documents
      whose appointment id is null). */
  function FindPrescriptionsByAppointmentId(ps: seq<Prescription>, appointmentId: Option<nat>): (r: seq<Prescription>)
    ensures forall p :: p in r <==> p in ps && p.appointmentId == appointmentId
    ensures IsSubsequence(r, ps)
  {
    Filter(ps, (p: Prescription) => p.appointmentId == appointmentId)
  }

  // ---- `save` ----

  /** What a JPA `save` of `d` does: a stored doctor with `d`'s id is
      replaced in place and the counter stays; otherwise `d` is appended
      under a new id, above the counter and above every stored id, and the
      counter moves up to it. Nothing else in the store changes. */
  predicate DoctorSaved(s: Store, r: Store, d: Doctor) {
    && r == s.(doctors := r.doctors, issued := s.issued.(doctor := r.issued.doctor))
    && if exists i :: 0 <= i < |s.doctors| && s.doctors[i].id == d.id then
         && r.issued == s.issued && |r.doctors| == |s.doctors| && d in r.doctors
         && forall i :: 0 <= i < |s.doctors| ==> r.doctors[i] == (if s.doctors[i].id == d.id then d else s.doctors[i])
       else
         && s.issued.doctor < r.issued.doctor
         && (forall x :: x in s.doctors ==> x.id < r.issued.doctor)
         && r.doctors == s.doctors + [d.(id := r.issued.doctor)]
  }

  /** JPA `save` of a doctor. Either way the record is stored under some
      id, rows with other ids stay, and nothing else appears. */
  function SaveDoctorRow(s: Store, d: Doctor): (r: Store)
    ensures DoctorSaved(s, r, d)
    ensures exists x :: x in r.doctors && x.(id := d.id) == d
    ensures forall x :: x in s.doctors && x.id != d.id ==> x in r.doctors
    ensures forall x :: x in r.doctors ==> x in s.doctors || x.(id := d.id) == d
  {
    var ds := s.doctors;
    if exists i :: 0 <= i < |ds| && ds[i].id == d.id then
      var r := Map(ds, (x: Doctor) => if x.id == d.id then d else x);
      assert d in r by {
        var i :| 0 <= i < |ds| && ds[i].id == d.id;
        assert r[i] == d;
      }
      assert forall x :: x in ds && x.id != d.id ==> x in r by {
        forall x | x in ds && x.id != d.id ensures x in r {
          var i :| 0 <= i < |ds| && ds[i] == x;
          assert r[i] == x;
        }
      }
      s.(doctors := r)
    else
      var id := NextId(s.issued.doctor, DoctorIds(ds));
      var r := ds + [d.(id := id)];
      assert r[|ds|].(id := d.id) == d;
      s.(doctors := r, issued := s.issued.(doctor := id))
  }

  /** What a JPA `save` of `p` does, as for doctors. */
  predicate PatientSaved(s: Store, r: Store, p: Patient) {
    && r == s.(patients := r.patients, issued := s.issued.(patient := r.issued.patient))
    && if exists i :: 0 <= i < |s.patients| && s.patients[i].id == p.id then
         && r.issued == s.issued && |r.patients| == |s.patients| && p in r.patients
         && forall i :: 0 <= i < |s.patients| ==> r.patients[i] == (if s.patients[i].id == p.id then p else s.patients[i])
       else
         && s.issued.patient < r.issued.patient
         && (forall x :: x in s.patients ==> x.id < r.issued.patient)
         && r.patients == s.patients + [p.(id := r.issued.patient)]
  }

  function SavePatientRow(s: Store, p: Patient): (r: Store)
    ensures PatientSaved(s, r, p)
    ensures exists x :: x in r.patients && x.(id := p.id) == p
    ensures forall x :: x in s.patients && x.id != p.id ==> x in r.patients
    ensures forall x :: x in r.patients ==> x in s.patients || x.(id := p.id) == p
  {
    var ps := s.patients;
    if exists i :: 0 <= i < |ps| && ps[i].id == p.id then
      var r := Map(ps, (x: Patient) => if x.id == p.id then p else x);
      assert p in r by {
        var i :| 0 <= i < |ps| && ps[i].id == p.id;
        assert r[i] == p;
      }
      assert forall x :: x in ps && x.id != p.id ==> x in r by {
        forall x | x in ps && x.id != p.id ensures x in r {
          var i :| 0 <= i < |ps| && ps[i] == x;
          assert r[i] == x;
        }
      }
      s.(patients := r)
    else
      var id := NextId(s.issued.patient, PatientIds(ps));
      var r := ps + [p.(id := id)];
      assert r[|ps|].(id := p.id) == p;
      s.(patients := r, issued := s.issued.(patient := id))
  }

  /** `r` is `as_` with every row whose id is `a`'s replaced by `a`, and
      `a` is among them. */
  predicate ReplacedById(as_: seq<Appointment>, r: seq<Appointment>, a: Appointment) {
    && |r| == |as_| && a in r
    && forall i :: 0 <= i < |as_| ==> r[i] == (if as_[i].id == a.id then a else as_[i])
  }

  /** What a JPA `save` of `a` does, as for doctors. */
  predicate AppointmentSaved(s: Store, r: Store, a: Appointment) {
    && r == s.(appointments := r.appointments, issued := s.issued.(appointment := r.issued.appointment))
    && if exists i :: 0 <= i < |s.appointments| && s.appointments[i].id == a.id then
         r.issued == s.issued && ReplacedById(s.appointments, r.appointments, a)
       else
         && s.issued.appointment < r.issued.appointment
         && (forall x :: x in s.appointments ==> x.id < r.issued.appointment)
         && r.appointments == s.appointments + [a.(id := r.issued.appointment)]
  }

  function SaveAppointmentRow(s: Store, a: Appointment): (r: Store)
    ensures AppointmentSaved(s, r, a)
    ensures exists x :: x in r.appointments && x.(id := a.id) == a
    ensures forall x :: x in s.appointments && x.id != a.id ==> x in r.appointments
    ensures forall x :: x in r.appointments ==> x in s.appointments || x.(id := a.id) == a
  {
    var as_ := s.appointments;
    if exists i :: 0 <= i < |as_| && as_[i].id == a.id then
      var r := Map(as_, (x: Appointment) => if x.id == a.id then a else x);
      assert a in r by {
        var i :| 0 <= i < |as_| && as_[i].id == a.id;
        assert r[i] == a;
      }
      assert forall x :: x in as_ && x.id != a.id ==> x in r by {
        forall x | x in as_ && x.id != a.id ensures x in r {
          var i :| 0 <= i < |as_| && as_[i] == x;
          assert r[i] == x;
        }
      }
      s.(appointments := r)
    else
      var id := NextId(s.issued.appointment, AppointmentIds(as_));
      var r := as_ + [a.(id := id)];
      assert r[|as_|].(id := a.id) == a;
      s.(appointments := r, issued := s.issued.(appointment := id))
  }

  /** MongoDB `save`: a document whose id is already stored replaces that
      document, any other document is appended. */
  function SavePrescriptionDoc(ps: seq<Prescription>, p: Prescription): (r: seq<Prescription>)
    ensures p in r
    ensures forall x :: x in r ==> x in ps || x == p
    ensures p.id.None? ==> r == ps + [p]
    ensures (p.id.Some? && exists i :: 0 <= i < |ps| && ps[i].id == p.id) ==>
      |r| == |ps| && forall i :: 0 <= i < |ps| ==> r[i] == (if ps[i].id == p.id then p else ps[i])
    ensures !(p.id.Some? && exists i :: 0 <= i < |ps| && ps[i].id == p.id) ==> r == ps + [p]
  {
    if p.id.Some? && exists i :: 0 <= i < |ps| && ps[i].id == p.id then
      var r := Map(ps, (x: Prescription) => if x.id == p.id then p else x);
      assert p in r by {
        var i :| 0 <= i < |ps| && ps[i].id == p.id;
        assert r[i] == p;
      }
      r
    else ps + [p]
  }

  // ---- store invariants ----

  predicate UniqueDoctorIds(ds: seq<Doctor>) {
    forall i, j :: 0 <= i < |ds| && 0 <= j < |ds| && ds[i].id == ds[j].id ==> i == j
  }

  predicate UniquePatientIds(ps: seq<Patient>) {
    forall i, j :: 0 <= i < |ps| && 0 <= j < |ps| && ps[i].id == ps[j].id ==> i == j
  }

  predicate UniqueAppointmentIds(as_: seq<Appointment>) {
    forall i, j :: 0 <= i < |as_| && 0 <= j < |as_| && as_[i].id == as_[j].id ==> i == j
  }

  /** Every stored id is at most its table's counter: the counters have
      seen every row. */
  predicate IssuedCovers(s: Store) {
    && (forall x :: x in s.doctors ==> x.id <= s.issued.doctor)
    && (forall x :: x in s.patients ==> x.id <= s.issued.patient)
    && (forall x :: x in s.appointments ==> x.id <= s.issued.appointment)
  }

  /** The identity invariants of the tables: ids are unique in each table,
      and no counter is below an id stored in its table. */
  predicate IdsConsistent(s: Store) {
    UniqueDoctorIds(s.doctors) && UniquePatientIds(s.patients) && UniqueAppointmentIds(s.appointments) && IssuedCovers(s)
  }

  /** A `save` keeps the counters above every stored id. */
  lemma DoctorSavedKeepsIssuedCovers(s: Store, r: Store, d: Doctor)
    requires DoctorSaved(s, r, d) && IssuedCovers(s)
    ensures IssuedCovers(r)
  {
    forall x | x in r.doctors ensures x.id <= r.issued.doctor {
      var k :| 0 <= k < |r.doctors| && r.doctors[k] == x;
      if k < |s.doctors| { assert s.doctors[k] in s.doctors; }
    }
  }

  lemma PatientSavedKeepsIssuedCovers(s: Store, r: Store, p: Patient)
    requires PatientSaved(s, r, p) && IssuedCovers(s)
    ensures IssuedCovers(r)
  {
    forall x | x in r.patients ensures x.id <= r.issued.patient {
      var k :| 0 <= k < |r.patients| && r.patients[k] == x;
      if k < |s.patients| { assert s.patients[k] in s.patients; }
    }
  }

  lemma AppointmentSavedKeepsIssuedCovers(s: Store, r: Store, a: Appointment)
    requires AppointmentSaved(s, r, a) && IssuedCovers(s)
    ensures IssuedCovers(r)
  {
    forall x | x in r.appointments ensures x.id <= r.issued.appointment {
      var k :| 0 <= k < |r.appointments| && r.appointments[k] == x;
      if k < |s.appointments| { assert s.appointments[k] in s.appointments; }
    }
  }

  /** A `save` keeps ids unique: a replacement keeps every row's id, and an
      insert uses an id no row has. */
  lemma DoctorSavedKeepsUniqueIds(s: Store, r: Store, d: Doctor)
    requires DoctorSaved(s, r, d) && UniqueDoctorIds(s.doctors)
    ensures UniqueDoctorIds(r.doctors)
  {
    forall i, j | 0 <= i < |r.doctors| && 0 <= j < |r.doctors| && r.doctors[i].id == r.doctors[j].id
      ensures i == j
    {
      if i < |s.doctors| { assert r.doctors[i].id == s.doctors[i].id && s.doctors[i] in s.doctors; }
      if j < |s.doctors| { assert r.doctors[j].id == s.doctors[j].id && s.doctors[j] in s.doctors; }
    }
  }

  lemma PatientSavedKeepsUniqueIds(s: Store, r: Store, p: Patient)
    requires PatientSaved(s, r, p) && UniquePatientIds(s.patients)
    ensures UniquePatientIds(r.patients)
  {
    forall i, j | 0 <= i < |r.patients| && 0 <= j < |r.patients| && r.patients[i].id == r.patients[j].id
      ensures i == j
    {
      if i < |s.patients| { assert r.patients[i].id == s.patients[i].id && s.patients[i] in s.patients; }
      if j < |s.patients| { assert r.patients[j].id == s.patients[j].id && s.patients[j] in s.patients; }
    }
  }

  lemma AppointmentSavedKeepsUniqueIds(s: Store, r: Store, a: Appointment)
    requires AppointmentSaved(s, r, a) && UniqueAppointmentIds(s.appointments)
    ensures UniqueAppointmentIds(r.appointments)
  {
    forall i, j | 0 <= i < |r.appointments| && 0 <= j < |r.appointments| && r.appointments[i].id == r.appointments[j].id
      ensures i == j
    {
      if i < |s.appointments| { assert r.appointments[i].id == s.appointments[i].id && s.appointments[i] in s.appointments; }
      if j < |s.appointments| { assert r.appointments[j].id == s.appointments[j].id && s.appointments[j] in s.appointments; }
    }
  }

  /** Deleting rows keeps ids unique. */
  lemma FilterKeepsUniqueDoctorIds(ds: seq<Doctor>, p: Doctor -> bool)
    requires UniqueDoctorIds(ds)
    ensures UniqueDoctorIds(Filter(ds, p))
  {
    var key := (x: Doctor) => x.id;
    assert DistinctKeys(ds, key);
    FilterKeepsDistinctKeys(ds, p, key);
    var r := Filter(ds, p);
    assert forall i :: 0 <= i < |r| ==> key(r[i]) == r[i].id;
  }

  lemma FilterKeepsUniqueAppointmentIds(as_: seq<Appointment>, p: Appointment -> bool)
    requires UniqueAppointmentIds(as_)
    ensures UniqueAppointmentIds(Filter(as_, p))
  {
    var key := (x: Appointment) => x.id;
    assert DistinctKeys(as_, key);
    FilterKeepsDistinctKeys(as_, p, key);
    var r := Filter(as_, p);
    assert forall i :: 0 <= i < |r| ==> key(r[i]) == r[i].id;
  }

  /** With unique appointment ids, the appointment the id lookup finds is
      the only stored one with that id. */
  lemma FoundAppointmentUnique(s: Store, id: nat)
    ensures UniqueAppointmentIds(s.appointments) && FindAppointmentById(s, id).Some? ==>
      forall e :: e in s.appointments && e.id == id ==> e == FindAppointmentById(s, id).value
  {
    if UniqueAppointmentIds(s.appointments) && FindAppointmentById(s, id).Some? {
      var found := FindAppointmentById(s, id).value;
      var k :| 0 <= k < |s.appointments| && s.appointments[k] == found;
      forall e | e in s.appointments && e.id == id ensures e == found {
        var j :| 0 <= j < |s.appointments| && s.appointments[j] == e;
      }
    }
  }

  /** The foreign keys of the appointment table: every appointment refers to
      a stored doctor and a stored patient. */
  predicate ReferencesResolve(s: Store) {
    forall a :: a in s.appointments ==>
      (exists d :: d in s.doctors && d.id == a.doctorId) &&
      (exists p :: p in s.patients && p.id == a.patientId)
  }
}

=== FILE: doctor_controller.dfy ===
/** The doctor endpoints: availability for whatever role the path names,
    the ADMIN-only writes with their mapping from service codes to
    statuses, and the public filter. */
module DoctorController {
  import opened Wrappers
  import opened Seqs
  import opened Text
  import opened Clock
  import opened Jwt
  import opened Http
  import opened Accounts
  import opened Database
  import TokenService
  import DoctorRepository
  import CentralService
  import DoctorService

  /** Availability is computed only for a token that validates for the role
      in the path; the token error is passed on otherwise. */
  function GetDoctorAvailability(s: Store, user: string, doctorId: nat, date: int, decoded: Option<Claims>): (r: Response)
    ensures r.status == OK <==> TokenService.ValidateToken(decoded, user, s)
    ensures r.status != OK ==> r == Response(UNAUTHORIZED, Error("Invalid or expired token"))
    ensures r.status == OK ==>
      && r.body.Availability?
      && IsSubsequence(r.body.slots, DoctorService.Template())
      && forall h :: 9 <= h < 17 ==>
           (Slot(h) in r.body.slots <==> !DoctorService.BookedAt(s, doctorId, date, h))
  {
    var validation := CentralService.CheckToken(decoded, user, s);
    if IsError(validation) then Response(validation.status, Error(validation.body.text))
    else
      var slots := DoctorService.GetDoctorAvailability(s, doctorId, date);
      assert forall h :: 9 <= h < 17 ==> (Slot(h) in slots <==> !DoctorService.BookedAt(s, doctorId, date, h)) by {
        forall h | 9 <= h < 17 ensures Slot(h) in slots <==> !DoctorService.BookedAt(s, doctorId, date, h) {
          DoctorService.AvailabilitySlotIff(s, doctorId, date, h);
        }
      }
      Response(OK, Availability(slots))
  }

  /** Saving a doctor: the token error unless the token validates as ADMIN;
      then 200 "Doctor added to db", 409 "Doctor already exists" when the
      email is taken, 500 "Failed to save doctor" on a store failure. Only a
      200 changes the store. */
  function SaveDoctor(s: Store, d: Doctor, decoded: Option<Claims>, storeFails: bool): (res: (Response, Store))
    ensures !TokenService.ValidateToken(decoded, "ADMIN", s) ==>
      res == (Response(UNAUTHORIZED, Error("Invalid or expired token")), s)
    ensures res.0.status == CONFLICT <==>
      TokenService.ValidateToken(decoded, "ADMIN", s) && exists x :: x in s.doctors && x.email == d.email
    ensures res.0.status == CONFLICT ==> res.0.body == Error("Doctor already exists")
    ensures res.0.status == OK <==>
      TokenService.ValidateToken(decoded, "ADMIN", s) && (forall x :: x in s.doctors ==> x.email != d.email) && !storeFails
    ensures res.0.status == INTERNAL_SERVER_ERROR ==> res.0.body == Error("Failed to save doctor")
    ensures res.0.status != OK ==> res.1 == s
    ensures res.0.status == OK ==>
      && TokenService.ValidateToken(decoded, "ADMIN", s)
      && (forall x :: x in s.doctors ==> x.email != d.email)
      && DoctorSaved(s, res.1, d)
      && exists x :: x in res.1.doctors && x.(id := d.id) == d
    ensures res.0.status in {OK, UNAUTHORIZED, CONFLICT, INTERNAL_SERVER_ERROR}
  {
    var validation := CentralService.CheckToken(decoded, "ADMIN", s);
    if IsError(validation) then (validation, s)
    else
      var (code, s') := DoctorService.SaveDoctor(s, d, storeFails);
      if code == 1 then (Response(OK, Message("Doctor added to db")), s')
      else if code == -1 then (Response(CONFLICT, Error("Doctor already exists")), s)
      else (Response(INTERNAL_SERVER_ERROR, Error("Failed to save doctor")), s)
  }

  /** Updating a doctor: ADMIN only; 200 "Doctor updated", 404 "Doctor not
      found" for an unknown id, 500 "Failed to update doctor". Only a 200
      changes the store. */
  function UpdateDoctor(s: Store, d: Doctor, decoded: Option<Claims>, storeFails: bool): (res: (Response, Store))
    ensures !TokenService.ValidateToken(decoded, "ADMIN", s) ==>
      res == (Response(UNAUTHORIZED, Error("Invalid or expired token")), s)
    ensures res.0.status == NOT_FOUND <==>
      TokenService.ValidateToken(decoded, "ADMIN", s) && !DoctorRepository.ExistsById(s.doctors, d.id)
    ensures res.0.status == NOT_FOUND ==> res.0.body == Error("Doctor not found")
    ensures res.0.status == OK <==>
      TokenService.ValidateToken(decoded, "ADMIN", s) && DoctorRepository.ExistsById(s.doctors, d.id) && !storeFails
    ensures res.0.status == INTERNAL_SERVER_ERROR ==> res.0.body == Error("Failed to update doctor")
    ensures res.0.status != OK ==> res.1 == s
    ensures res.0.status == OK ==>
      && res.1 == s.(doctors := res.1.doctors)
      && d in res.1.doctors && |res.1.doctors| == |s.doctors|
      && forall i :: 0 <= i < |s.doctors| ==>
           res.1.doctors[i] == (if s.doctors[i].id == d.id then d else s.doctors[i])
    ensures res.0.status in {OK, UNAUTHORIZED, NOT_FOUND, INTERNAL_SERVER_ERROR}
  {
    var validation := CentralService.CheckToken(decoded, "ADMIN", s);
    if IsError(validation) then (validation, s)
    else
      var (code, s') := DoctorService.UpdateDoctor(s, d, storeFails);
      if code == 1 then (Response(OK, Message("Doctor updated")), s')
      else if code == -1 then (Response(NOT_FOUND, Error("Doctor not found")), s)
      else (Response(INTERNAL_SERVER_ERROR, Error("Failed to update doctor")), s)
  }

  /** Deleting a doctor: ADMIN only; 200 "Doctor deleted successfully" with
      the doctor and the doctor's appointments gone, 404 "Doctor not found
      with id", 500 "Failed to delete doctor". Only a 200 changes the
      store. */
  function DeleteDoctor(s: Store, id: nat, decoded: Option<Claims>, storeFails: bool): (res: (Response, Store))
    ensures !TokenService.ValidateToken(decoded, "ADMIN", s) ==>
      res == (Response(UNAUTHORIZED, Error("Invalid or expired token")), s)
    ensures res.0.status == NOT_FOUND <==>
      TokenService.ValidateToken(decoded, "ADMIN", s) && !DoctorRepository.ExistsById(s.doctors, id)
    ensures res.0.status == NOT_FOUND ==> res.0.body == Error("Doctor not found with id")
    ensures res.0.status == OK <==>
      TokenService.ValidateToken(decoded, "ADMIN", s) && DoctorRepository.ExistsById(s.doctors, id) && !storeFails
    ensures res.0.status == INTERNAL_SERVER_ERROR ==> res.0.body == Error("Failed to delete doctor")
    ensures res.0.status != OK ==> res.1 == s
    ensures res.0.status == OK ==>
      && (forall x :: x in res.1.doctors <==> x in s.doctors && x.id != id)
      && (forall a :: a in res.1.appointments <==> a in s.appointments && a.doctorId != id)
      && res.1.patients == s.patients && res.1.admins == s.admins && res.1.prescriptions == s.prescriptions
    ensures res.0.status in {OK, UNAUTHORIZED, NOT_FOUND, INTERNAL_SERVER_ERROR}
  {
    var validation := CentralService.CheckToken(decoded, "ADMIN", s);
    if IsError(validation) then (validation, s)
    else
      var (code, s') := DoctorService.DeleteDoctor(s, id, storeFails);
      if code == 1 then (Response(OK, Message("Doctor deleted successfully")), s')
      else if code == -1 then (Response(NOT_FOUND, Error("Doctor not found with id")), s)
      else (Response(INTERNAL_SERVER_ERROR, Error("Failed to delete doctor")), s)
  }

  /** The public filter. The route binds all three path segments, so the
      service always receives a name, a specialty and a time and runs its
      three-filter query: the path gives (name, time, speciality) and the
      service takes (name, specialty, time), so the time value filters by
      half-day and the speciality value by specialty. */
  function FilterDoctors(s: Store, name: string, time: string, speciality: string): (r: Response)
    requires DoctorService.TimesWellFormed(s.doctors)
    ensures r.status == OK && r.body.Doctors?
    ensures IsSubsequence(r.body.doctors, s.doctors)
    ensures forall d :: d in r.body.doctors <==>
      && d in s.doctors && ContainsIgnoreCase(d.name, name) && EqualsIgnoreCase(d.specialty, speciality)
      && DoctorService.OffersHalfDay(d, time)
  {
    Response(OK, Doctors(CentralService.FilterDoctor(s, Some(name), Some(speciality), Some(time))))
  }
}

=== FILE: doctor_repository.dfy ===
/** The queries of the doctor repository, as pure functions over the doctor
    table in table order. */
module DoctorRepository {
  import opened Wrappers
  import opened Seqs
  import opened Text
  import opened Accounts

  /** `findByEmail`: the doctor with that email, or null. */
  function FindByEmail(ds: seq<Doctor>, email: string): (r: Option<Doctor>)
    ensures r.Some? ==> r.value in ds && r.value.email == email
    ensures r.None? <==> forall d :: d in ds ==> d.email != email
  {
    FindFirst(ds, (d: Doctor) => d.email == email)
  }

  /** `existsById`. */
  predicate ExistsById(ds: seq<Doctor>, id: nat) {
    exists d :: d in ds && d.id == id
  }

  /** `findByNameLike`: `name LIKE '%query%'`, case-sensitive. */
  function FindByNameLike(ds: seq<Doctor>, name: string): (r: seq<Doctor>)
    ensures forall d :: d in r <==> d in ds && Contains(d.name, name)
    ensures IsSubsequence(r, ds)
  {
    Filter(ds, (d: Doctor) => Contains(d.name, name))
  }

  /** `findByNameContainingIgnoreCaseAndSpecialtyIgnoreCase`: a
      case-insensitive substring match on the name and a case-insensitive
      equality on the specialty. */
  function FindByNameAndSpecialtyIgnoreCase(ds: seq<Doctor>, name: string, specialty: string): (r: seq<Doctor>)
    ensures forall d :: d in r <==>
      d in ds && ContainsIgnoreCase(d.name, name) && EqualsIgnoreCase(d.specialty, specialty)
    ensures IsSubsequence(r, ds)
  {
    Filter(ds, (d: Doctor) => ContainsIgnoreCase(d.name, name) && EqualsIgnoreCase(d.specialty, specialty))
  }

  /** `findBySpecialtyIgnoreCase`. */
  function FindBySpecialtyIgnoreCase(ds: seq<Doctor>, specialty: string): (r: seq<Doctor>)
    ensures forall d :: d in r <==> d in ds && EqualsIgnoreCase(d.specialty, specialty)
    ensures IsSubsequence(r, ds)
  {
    Filter(ds, (d: Doctor) => EqualsIgnoreCase(d.specialty, specialty))
  }
}

=== FILE: doctor_service.dfy ===
/** The doctor service: the free hourly slots of a doctor on a date, the
    AM/PM availability filter, doctor creation, update and deletion with
    their result codes (1 done, -1 refused, 0 store failure), and doctor
    login. */
module DoctorService {
  import opened Wrappers
  import opened Seqs
  import opened Text
  import opened Clock
  import opened Jwt
  import opened Http
  import opened Accounts
  import opened AppointmentModel
  import opened Database
  import opened AppointmentRepository
  import DoctorRepository
  import TokenService

  // ---- availability ----

  /** The hourly slot labels from `h` up to, but excluding, 17:00. */
  function SlotsFrom(h: nat): seq<string>
    requires 9 <= h <= 17
    decreases 17 - h
  {
    if h < 17 then [Slot(h)] + SlotsFrom(h + 1) else []
  }

  /** The fixed daily template: one slot per hour from 09:00 to 16:00. */
  function Template(): seq<string> {
    SlotsFrom(9)
  }

  lemma {:induction false} SlotsFromShape(h: nat)
    requires 9 <= h <= 17
    ensures |SlotsFrom(h)| == 17 - h
    ensures forall i :: 0 <= i < 17 - h ==> SlotsFrom(h)[i] == Slot(h + i)
    decreases 17 - h
  {
    if h < 17 {
      SlotsFromShape(h + 1);
    }
  }

  /** The template is "09:00", "10:00", ..., "16:00": eight labels, the i-th
      for hour 9 + i, none repeated. */
  lemma TemplateShape()
    ensures |Template()| == 8
    ensures forall i :: 0 <= i < 8 ==> Template()[i] == Slot(9 + i)
    ensures Template() == ["09:00", "10:00", "11:00", "12:00", "13:00", "14:00", "15:00", "16:00"]
    ensures NoDuplicates(Template())
  {
    SlotsFromShape(9);
    assert Slot(9) == "09:00" && Slot(10) == "10:00" && Slot(11) == "11:00" && Slot(12) == "12:00";
    assert Slot(13) == "13:00" && Slot(14) == "14:00" && Slot(15) == "15:00" && Slot(16) == "16:00";
    forall i, j | 0 <= i < j < 8 ensures Template()[i] != Template()[j] {
      FormatMatchesSlot(LocalTime(9 + i, 0, 0, 0), 9 + j);
      assert Slot(9 + i) == FormatHHmm(LocalTime(9 + i, 0, 0, 0));
    }
  }

  /** A label is in the template exactly when it is the label of an hour
      from 9 to 16. */
  lemma InTemplate(x: string)
    ensures x in Template() <==> exists h :: 9 <= h < 17 && x == Slot(h)
  {
    TemplateShape();
    if x in Template() {
      var i :| 0 <= i < 8 && Template()[i] == x;
      assert x == Slot(9 + i);
    }
    if exists h :: 9 <= h < 17 && x == Slot(h) {
      var h :| 9 <= h < 17 && x == Slot(h);
      assert Template()[h - 9] == x;
    }
  }

  predicate HasTime(apps: seq<Appointment>) {
    forall a :: a in apps ==> a.time.Some?
  }

  /** The "HH:mm" label of each booked appointment, in query order. */
  function BookedLabels(apps: seq<Appointment>): (r: seq<string>)
    requires HasTime(apps)
    ensures forall x :: x in r <==> exists a :: a in apps && FormatHHmm(a.time.value.time) == x
  {
    if |apps| == 0 then []
    else
      assert forall a :: a in apps[1..] ==> a in apps;
      assert forall a :: a in apps ==> a == apps[0] || a in apps[1..];
      [FormatHHmm(apps[0].time.value.time)] + BookedLabels(apps[1..])
  }

  /** The appointments that count against the doctor's day: the doctor's
      bookings in [date 00:00, date 23:59:59.999999999]. */
  function BookedOn(s: Store, doctorId: nat, date: int): (r: seq<Appointment>)
    ensures HasTime(r)
    ensures forall a :: a in r <==>
      a in s.appointments && a.doctorId == doctorId && a.time.Some? && a.time.value.date == date
  {
    var r := FindByDoctorIdAndTimeBetween(s.appointments, Some(doctorId), StartOfDay(date), EndOfDay(date));
    assert forall a :: a in r <==>
      a in s.appointments && a.doctorId == doctorId && a.time.Some? && a.time.value.date == date by {
      forall a: Appointment | a.time.Some? {
        DayWindowIsDate(a.time.value, date);
      }
    }
    r
  }

  /** `getDoctorAvailability`: the template with each booked "HH:mm" label
      removed once, in booking order. */
  function GetDoctorAvailability(s: Store, doctorId: nat, date: int): (r: seq<string>)
    ensures IsSubsequence(r, Template())
    ensures |r| <= 8
    ensures forall a :: a in BookedOn(s, doctorId, date) ==> FormatHHmm(a.time.value.time) !in r
  {
    var booked := BookedOn(s, doctorId, date);
    TemplateShape();
    RemoveEachIsWithout(Template(), BookedLabels(booked));
    RemoveEach(Template(), BookedLabels(booked))
  }

  /** Some booking of the doctor starts on that date at `h`:00, at whatever
      second. */
  predicate BookedAt(s: Store, doctorId: nat, date: int, h: nat) {
    exists a :: a in s.appointments && a.doctorId == doctorId && a.time.Some?
      && a.time.value.date == date && a.time.value.time.hour == h && a.time.value.time.minute == 0
  }

  /** A start time a booking can take: on the hour, within 09:00 to 16:00,
      and that hour not yet booked for the doctor that day. */
  predicate SlotFree(s: Store, doctorId: nat, t: Moment) {
    t.time.minute == 0 && 9 <= t.time.hour < 17 && !BookedAt(s, doctorId, t.date, t.time.hour)
  }

  /** Slot `h` is offered exactly when `h` is one of the template hours and
      no booking of that doctor on that date starts at `h`:00. Off-hour
      bookings (09:30) remove nothing, and a slot booked twice is gone once. */
  lemma AvailabilitySlotIff(s: Store, doctorId: nat, date: int, h: nat)
    requires h < 24
    ensures Slot(h) in GetDoctorAvailability(s, doctorId, date) <==> 9 <= h < 17 && !BookedAt(s, doctorId, date, h)
  {
    OfferedIffUnbooked(s, doctorId, date, Slot(h));
    SlotInTemplate(h);
    BookedLabelIff(s, doctorId, date, h);
  }

  /** A label is offered exactly when the template has it and no booking of
      the doctor that day carries it. */
  lemma OfferedIffUnbooked(s: Store, doctorId: nat, date: int, x: string)
    ensures x in GetDoctorAvailability(s, doctorId, date) <==>
      x in Template() && x !in BookedLabels(BookedOn(s, doctorId, date))
  {
    TemplateShape();
    RemoveEachIsWithout(Template(), BookedLabels(BookedOn(s, doctorId, date)));
  }

  /** The label of hour `h` is a template label exactly for the hours 9 to
      16. */
  lemma SlotInTemplate(h: nat)
    requires h < 24
    ensures Slot(h) in Template() <==> 9 <= h < 17
  {
    InTemplate(Slot(h));
    if exists k :: 9 <= k < 17 && Slot(h) == Slot(k) {
      var k :| 9 <= k < 17 && Slot(h) == Slot(k);
      FormatMatchesSlot(LocalTime(h, 0, 0, 0), k);
      assert Slot(h) == FormatHHmm(LocalTime(h, 0, 0, 0));
    }
  }

  /** The label of hour `h` is among the doctor's booked labels that day
      exactly when a booking starts at `h`:00. */
  lemma BookedLabelIff(s: Store, doctorId: nat, date: int, h: nat)
    requires h < 24
    ensures Slot(h) in BookedLabels(BookedOn(s, doctorId, date)) <==> BookedAt(s, doctorId, date, h)
  {
    var booked := BookedOn(s, doctorId, date);
    forall a | a in booked ensures FormatHHmm(a.time.value.time) == Slot(h) <==> a.time.value.time.hour == h && a.time.value.time.minute == 0 {
      FormatMatchesSlot(a.time.value.time, h);
    }
  }

  /** A start time is offered exactly when it is on the hour, within 09:00
      to 16:00, and that hour is not booked for the doctor that day. */
  lemma OfferedIffSlotFree(s: Store, doctorId: nat, t: Moment)
    ensures FormatHHmm(t.time) in GetDoctorAvailability(s, doctorId, t.date) <==>
      SlotFree(s, doctorId, t)
  {
    var slots := GetDoctorAvailability(s, doctorId, t.date);
    if FormatHHmm(t.time) in slots {
      AvailabilityOnlyTemplateSlots(s, doctorId, t.date, FormatHHmm(t.time));
      var h :| 9 <= h < 17 && FormatHHmm(t.time) == Slot(h);
      FormatMatchesSlot(t.time, h);
      AvailabilitySlotIff(s, doctorId, t.date, h);
    }
    FormatMatchesSlot(t.time, t.time.hour);
    AvailabilitySlotIff(s, doctorId, t.date, t.time.hour);
  }

  /** Every offered label is the label of a template hour. */
  lemma AvailabilityOnlyTemplateSlots(s: Store, doctorId: nat, date: int, x: string)
    requires x in GetDoctorAvailability(s, doctorId, date)
    ensures exists h :: 9 <= h < 17 && x == Slot(h)
  {
    TemplateShape();
    RemoveEachIsWithout(Template(), BookedLabels(BookedOn(s, doctorId, date)));
    InTemplate(x);
  }

  /** With no bookings that day, the doctor is offered all eight slots,
      09:00 to 16:00, in order. */
  lemma AvailabilityWithoutBookings(s: Store, doctorId: nat, date: int)
    requires forall a :: a in s.appointments && a.doctorId == doctorId && a.time.Some? ==> a.time.value.date != date
    ensures GetDoctorAvailability(s, doctorId, date) == ["09:00", "10:00", "11:00", "12:00", "13:00", "14:00", "15:00", "16:00"]
  {
    var booked := BookedOn(s, doctorId, date);
    assert booked == [] by {
      if |booked| > 0 { assert false; }
    }
    TemplateShape();
  }

  /** Only the doctor's own bookings on that date matter: adding an
      appointment of another doctor, of another day, or without a time
      leaves the availability unchanged. */
  lemma AvailabilityIgnoresOtherBookings(s: Store, doctorId: nat, date: int, b: Appointment)
    requires b.doctorId != doctorId || b.time.None? || b.time.value.date != date
    ensures GetDoctorAvailability(s.(appointments := s.appointments + [b]), doctorId, date)
         == GetDoctorAvailability(s, doctorId, date)
  {
    var s' := s.(appointments := s.appointments + [b]);
    var p := (a: Appointment) =>
      HasId(Some(doctorId), a.doctorId) && a.time.Some? && Between(a.time.value, StartOfDay(date), EndOfDay(date));
    FilterAppend(s.appointments, [b], p);
    if b.time.Some? {
      DayWindowIsDate(b.time.value, date);
    }
    assert Filter([b], p) == [];
    assert BookedOn(s', doctorId, date) == BookedOn(s, doctorId, date);
  }

  // ---- AM/PM filter ----

  function DigitValue(c: char): int {
    c as int - '0' as int
  }

  /** A string `LocalTime.parse` reads as "HH:mm". */
  predicate WellFormedHHmm(t: string) {
    && |t| == 5 && t[2] == ':'
    && '0' <= t[0] <= '9' && '0' <= t[1] <= '9' && '0' <= t[3] <= '9' && '0' <= t[4] <= '9'
    && DigitValue(t[0]) * 10 + DigitValue(t[1]) < 24
    && DigitValue(t[3]) * 10 + DigitValue(t[4]) < 60
  }

  /** `LocalTime.parse(t).getHour()`. */
  function HourOf(t: string): (h: nat)
    requires WellFormedHHmm(t)
    ensures h < 24
  {
    DigitValue(t[0]) * 10 + DigitValue(t[1])
  }

  predicate TimesWellFormed(ds: seq<Doctor>) {
    forall d :: d in ds && d.availableTimes.Some? ==>
      forall t :: t in d.availableTimes.value ==> WellFormedHHmm(t)
  }

  /** One entry sets the flag: a morning hour when "AM" is asked for, an
      afternoon hour when "PM" is (both ignoring case). */
  predicate Hit(t: string, amOrPm: string)
    requires WellFormedHHmm(t)
  {
    (EqualsIgnoreCase("AM", amOrPm) && HourOf(t) < 12) || (EqualsIgnoreCase("PM", amOrPm) && HourOf(t) >= 12)
  }

  /** The inner loop of `filterByTime`: the flag `ok` after scanning `times`. */
  function ScanTimes(times: seq<string>, amOrPm: string, ok: bool): bool
    requires forall t :: t in times ==> WellFormedHHmm(t)
  {
    if |times| == 0 then ok
    else ScanTimes(times[1..], amOrPm, ok || Hit(times[0], amOrPm))
  }

  lemma {:induction false} ScanTimesIff(times: seq<string>, amOrPm: string, ok: bool)
    requires forall t :: t in times ==> WellFormedHHmm(t)
    ensures ScanTimes(times, amOrPm, ok) <==> ok || exists t :: t in times && Hit(t, amOrPm)
    decreases |times|
  {
    if |times| > 0 {
      ScanTimesIff(times[1..], amOrPm, ok || Hit(times[0], amOrPm));
      assert forall t :: t in times <==> t == times[0] || t in times[1..];
    }
  }

  /** The doctor has a non-null list of times with an entry in the asked
      half of the day. */
  predicate OffersHalfDay(d: Doctor, amOrPm: string)
    requires d.availableTimes.Some? ==> forall t :: t in d.availableTimes.value ==> WellFormedHHmm(t)
  {
    d.availableTimes.Some? && exists t :: t in d.availableTimes.value && Hit(t, amOrPm)
  }

  function KeepForTime(amOrPm: string): Doctor -> bool {
    (d: Doctor) =>
      d.availableTimes.Some? &&
      (if forall t :: t in d.availableTimes.value ==> WellFormedHHmm(t)
       then ScanTimes(d.availableTimes.value, amOrPm, false) else false)
  }

  /** `filterByTime`: the doctors, in input order, that have an "AM" entry
      (hour < 12) or a "PM" entry (hour >= 12) as asked; any other filter
      value keeps no one. */
  function FilterByTime(ds: seq<Doctor>, amOrPm: string): (r: seq<Doctor>)
    requires TimesWellFormed(ds)
    ensures forall d :: d in r <==> d in ds && OffersHalfDay(d, amOrPm)
    ensures IsSubsequence(r, ds)
    ensures !EqualsIgnoreCase("AM", amOrPm) && !EqualsIgnoreCase("PM", amOrPm) ==> r == []
  {
    var r := Filter(ds, KeepForTime(amOrPm));
    forall d | d in ds && d.availableTimes.Some? {
      ScanTimesIff(d.availableTimes.value, amOrPm, false);
    }
    assert !EqualsIgnoreCase("AM", amOrPm) && !EqualsIgnoreCase("PM", amOrPm) ==> r == [] by {
      if !EqualsIgnoreCase("AM", amOrPm) && !EqualsIgnoreCase("PM", amOrPm) && |r| > 0 {
        assert false;
      }
    }
    r
  }

  // ---- the doctor queries behind `filterDoctor` ----

  /** `filterDoctorsByNameSpecialtyAndTime`. */
  function FilterByNameSpecialtyAndTime(s: Store, name: string, specialty: string, amOrPm: string): (r: seq<Doctor>)
    requires TimesWellFormed(s.doctors)
    ensures forall d :: d in r <==>
      d in s.doctors && ContainsIgnoreCase(d.name, name) && EqualsIgnoreCase(d.specialty, specialty)
      && OffersHalfDay(d, amOrPm)
  {
    FilterByTime(DoctorRepository.FindByNameAndSpecialtyIgnoreCase(s.doctors, name, specialty), amOrPm)
  }

  /** `filterDoctorByNameAndTime`: note the case-sensitive name match. */
  function FilterByNameAndTime(s: Store, name: string, amOrPm: string): (r: seq<Doctor>)
    requires TimesWellFormed(s.doctors)
    ensures forall d :: d in r <==> d in s.doctors && Contains(d.name, name) && OffersHalfDay(d, amOrPm)
  {
    FilterByTime(DoctorRepository.FindByNameLike(s.doctors, name), amOrPm)
  }

  /** `filterDoctorByNameAndSpecialty`. */
  function FilterByNameAndSpecialty(s: Store, name: string, specialty: string): (r: seq<Doctor>)
    ensures forall d :: d in r <==>
      d in s.doctors && ContainsIgnoreCase(d.name, name) && EqualsIgnoreCase(d.specialty, specialty)
  {
    DoctorRepository.FindByNameAndSpecialtyIgnoreCase(s.doctors, name, specialty)
  }

  /** `filterDoctorByTimeAndSpecialty`. */
  function FilterByTimeAndSpecialty(s: Store, specialty: string, amOrPm: string): (r: seq<Doctor>)
    requires TimesWellFormed(s.doctors)
    ensures forall d :: d in r <==> d in s.doctors && EqualsIgnoreCase(d.specialty, specialty) && OffersHalfDay(d, amOrPm)
  {
    FilterByTime(DoctorRepository.FindBySpecialtyIgnoreCase(s.doctors, specialty), amOrPm)
  }

  /** `filterDoctorBySpecialty`. */
  function FilterBySpecialty(s: Store, specialty: string): (r: seq<Doctor>)
    ensures forall d :: d in r <==> d in s.doctors && EqualsIgnoreCase(d.specialty, specialty)
  {
    DoctorRepository.FindBySpecialtyIgnoreCase(s.doctors, specialty)
  }

  /** `findDoctorByName`: case-sensitive. */
  function FindByName(s: Store, name: string): (r: seq<Doctor>)
    ensures forall d :: d in r <==> d in s.doctors && Contains(d.name, name)
  {
    DoctorRepository.FindByNameLike(s.doctors, name)
  }

  /** `filterDoctorsByTime`. */
  function FilterByTimeOnly(s: Store, amOrPm: string): (r: seq<Doctor>)
    requires TimesWellFormed(s.doctors)
    ensures forall d :: d in r <==> d in s.doctors && OffersHalfDay(d, amOrPm)
  {
    FilterByTime(s.doctors, amOrPm)
  }

  // ---- create, update, delete ----

  /** `saveDoctor`: -1 when a doctor with that email is stored, 0 when the
      store fails, 1 when the doctor was saved. Only a 1 changes the store,
      and only its doctor table. */
  function SaveDoctor(s: Store, d: Doctor, storeFails: bool): (res: (int, Store))
    ensures res.0 == -1 <==> exists x :: x in s.doctors && x.email == d.email
    ensures res.0 == 1 <==> (forall x :: x in s.doctors ==> x.email != d.email) && !storeFails
    ensures res.0 in {-1, 0, 1}
    ensures res.0 != 1 ==> res.1 == s
    ensures res.0 == 1 ==> DoctorSaved(s, res.1, d)
    ensures res.0 == 1 ==> exists x :: x in res.1.doctors && x.(id := d.id) == d
  {
    if DoctorRepository.FindByEmail(s.doctors, d.email).Some? then (-1, s)
    else if storeFails then (0, s)
    else (1, SaveDoctorRow(s, d))
  }

  /** Saving twice with the same email: the second save is refused and
      changes nothing. */
  lemma SaveDoctorTwiceRefused(s: Store, d: Doctor, d2: Doctor, fails1: bool, fails2: bool)
    requires SaveDoctor(s, d, fails1).0 == 1
    requires d2.email == d.email
    ensures SaveDoctor(SaveDoctor(s, d, fails1).1, d2, fails2) == (-1, SaveDoctor(s, d, fails1).1)
  {
    var s1 := SaveDoctor(s, d, fails1).1;
    var x :| x in s1.doctors && x.(id := d.id) == d;
    assert x.email == d2.email;
  }

  /** `updateDoctor`: -1 for an unknown id, 0 when the store fails, 1 when
      the stored doctor with that id was replaced. */
  function UpdateDoctor(s: Store, d: Doctor, storeFails: bool): (res: (int, Store))
    ensures res.0 == -1 <==> !DoctorRepository.ExistsById(s.doctors, d.id)
    ensures res.0 == 1 <==> DoctorRepository.ExistsById(s.doctors, d.id) && !storeFails
    ensures res.0 in {-1, 0, 1}
    ensures res.0 != 1 ==> res.1 == s
    ensures res.0 == 1 ==>
      && res.1 == s.(doctors := res.1.doctors)
      && |res.1.doctors| == |s.doctors|
      && d in res.1.doctors
      && forall i :: 0 <= i < |s.doctors| ==>
           res.1.doctors[i] == (if s.doctors[i].id == d.id then d else s.doctors[i])
  {
    if !DoctorRepository.ExistsById(s.doctors, d.id) then (-1, s)
    else if storeFails then (0, s)
    else
      var x :| x in s.doctors && x.id == d.id;
      var i :| 0 <= i < |s.doctors| && s.doctors[i] == x;
      var r := SaveDoctorRow(s, d);
      assert r.doctors[i] == d;
      (1, r)
  }

  /** An update replaces a doctor by a record with the same id, so every
      appointment still refers to a stored doctor and patient. */
  lemma UpdateDoctorKeepsReferences(s: Store, d: Doctor, storeFails: bool)
    requires ReferencesResolve(s)
    ensures ReferencesResolve(UpdateDoctor(s, d, storeFails).1)
  {
    var s' := UpdateDoctor(s, d, storeFails).1;
    forall a | a in s'.appointments
      ensures exists x :: x in s'.doctors && x.id == a.doctorId
    {
      var x :| x in s.doctors && x.id == a.doctorId;
      var i :| 0 <= i < |s.doctors| && s.doctors[i] == x;
      assert s'.doctors[i].id == x.id;
    }
  }

  function OtherDoctor(id: nat): Doctor -> bool {
    (x: Doctor) => x.id != id
  }

  /** `deleteDoctor`: -1 for an unknown id, 0 when the store fails, 1 when
      the doctor and every appointment with that doctor are removed. Nothing
      else changes. */
  function DeleteDoctor(s: Store, id: nat, storeFails: bool): (res: (int, Store))
    ensures res.0 == -1 <==> !DoctorRepository.ExistsById(s.doctors, id)
    ensures res.0 == 1 <==> DoctorRepository.ExistsById(s.doctors, id) && !storeFails
    ensures res.0 in {-1, 0, 1}
    ensures res.0 != 1 ==> res.1 == s
    ensures res.0 == 1 ==>
      && res.1.admins == s.admins && res.1.patients == s.patients
      && res.1.prescriptions == s.prescriptions && res.1.issued == s.issued
      && (forall x :: x in res.1.doctors <==> x in s.doctors && x.id != id)
      && (forall a :: a in res.1.appointments <==> a in s.appointments && a.doctorId != id)
      && IsSubsequence(res.1.doctors, s.doctors)
      && IsSubsequence(res.1.appointments, s.appointments)
  {
    if !DoctorRepository.ExistsById(s.doctors, id) then (-1, s)
    else if storeFails then (0, s)
    else
      var apps := DeleteAllByDoctorId(s.appointments, id);
      var ds := Filter(s.doctors, OtherDoctor(id));
      (1, s.(doctors := ds, appointments := apps))
  }

  /** Deleting a doctor cascades far enough: if every appointment referred
      to a stored doctor and patient before, it still does after. */
  lemma DeleteDoctorKeepsReferences(s: Store, id: nat, storeFails: bool)
    requires ReferencesResolve(s)
    ensures ReferencesResolve(DeleteDoctor(s, id, storeFails).1)
  {
    var s' := DeleteDoctor(s, id, storeFails).1;
    forall a | a in s'.appointments
      ensures exists d :: d in s'.doctors && d.id == a.doctorId
    {
      if DeleteDoctor(s, id, storeFails).0 == 1 {
        var d :| d in s.doctors && d.id == a.doctorId;
        assert d in s'.doctors;
      }
    }
  }

  /** The doctor writes keep the identity invariants of the store. */
  lemma SaveDoctorKeepsIdsConsistent(s: Store, d: Doctor, storeFails: bool)
    requires IdsConsistent(s)
    ensures IdsConsistent(SaveDoctor(s, d, storeFails).1)
  {
    var res := SaveDoctor(s, d, storeFails);
    if res.0 == 1 {
      DoctorSavedKeepsUniqueIds(s, res.1, d);
      DoctorSavedKeepsIssuedCovers(s, res.1, d);
    }
  }

  lemma UpdateDoctorKeepsIdsConsistent(s: Store, d: Doctor, storeFails: bool)
    requires IdsConsistent(s)
    ensures IdsConsistent(UpdateDoctor(s, d, storeFails).1)
  {
    var res := UpdateDoctor(s, d, storeFails);
    if res.0 == 1 {
      forall i, j | 0 <= i < |res.1.doctors| && 0 <= j < |res.1.doctors| && res.1.doctors[i].id == res.1.doctors[j].id
        ensures i == j
      {
        assert res.1.doctors[i].id == s.doctors[i].id && res.1.doctors[j].id == s.doctors[j].id;
      }
      forall x | x in res.1.doctors ensures x.id <= res.1.issued.doctor {
        var k :| 0 <= k < |res.1.doctors| && res.1.doctors[k] == x;
        assert x.id == s.doctors[k].id && s.doctors[k] in s.doctors;
      }
    }
  }

  lemma DeleteDoctorKeepsIdsConsistent(s: Store, id: nat, storeFails: bool)
    requires IdsConsistent(s)
    ensures IdsConsistent(DeleteDoctor(s, id, storeFails).1)
  {
    if DeleteDoctor(s, id, storeFails).0 == 1 {
      FilterKeepsUniqueDoctorIds(s.doctors, OtherDoctor(id));
      FilterKeepsUniqueAppointmentIds(s.appointments, Not(OfDoctor(id)));
    }
  }

  // ---- login ----

  /** `validateDoctor`: 401 unless the doctor found by email has exactly the
      given password; otherwise a token for the doctor's id with role
      DOCTOR. A null identifier finds no one and a null password matches
      none. */
  function ValidateDoctor(s: Store, login: Login, now: int): (r: Response)
    ensures r.status == OK ==>
      exists d :: d in s.doctors && login.identifier == Some(d.email) && login.password == Some(d.password)
        && r.body == Token(TokenService.GenerateToken(NatToString(d.id), "DOCTOR", now))
    ensures (forall d :: d in s.doctors && login.identifier == Some(d.email) ==> login.password != Some(d.password)) ==>
      r == Response(UNAUTHORIZED, Error("Invalid credentials"))
    ensures r.status in {OK, UNAUTHORIZED}
    ensures r.status != OK ==> r == Response(UNAUTHORIZED, Error("Invalid credentials"))
    ensures login.identifier.Some? ==>
      match DoctorRepository.FindByEmail(s.doctors, login.identifier.value)
      case Some(d) =>
        login.password == Some(d.password) ==>
          r == Response(OK, Token(TokenService.GenerateToken(NatToString(d.id), "DOCTOR", now)))
      case None => r.status == UNAUTHORIZED
  {
    var found := if login.identifier.None? then None else DoctorRepository.FindByEmail(s.doctors, login.identifier.value);
    match found
    case None => Response(UNAUTHORIZED, Error("Invalid credentials"))
    case Some(d) =>
      if login.password != Some(d.password) then Response(UNAUTHORIZED, Error("Invalid credentials"))
      else Response(OK, Token(TokenService.GenerateToken(NatToString(d.id), "DOCTOR", now)))
  }

  /** With emails unique across the doctor table, every stored doctor logs
      in with its own email and password and receives a DOCTOR token for
      its id. */
  lemma ValidateDoctorAcceptsStoredDoctor(s: Store, d: Doctor, now: int)
    requires d in s.doctors
    requires forall i, j :: 0 <= i < |s.doctors| && 0 <= j < |s.doctors| && s.doctors[i].email == s.doctors[j].email ==> i == j
    ensures ValidateDoctor(s, Login(Some(d.email), Some(d.password)), now) ==
      Response(OK, Token(TokenService.GenerateToken(NatToString(d.id), "DOCTOR", now)))
  {
    var x := DoctorRepository.FindByEmail(s.doctors, d.email).value;
    var i :| 0 <= i < |s.doctors| && s.doctors[i] == x;
    var k :| 0 <= k < |s.doctors| && s.doctors[k] == d;
    assert i == k;
  }

  /** The token a doctor login issues carries the doctor's numeric id as
      its subject, while token validation looks the subject up as a doctor
      email: unless some stored email consists of digits only, the doctor's
      own login token is rejected. */
  lemma DoctorLoginTokenRejected(s: Store, login: Login, now: int)
    requires ValidateDoctor(s, login, now).status == OK
    requires forall d :: d in s.doctors ==> exists i :: 0 <= i < |d.email| && !('0' <= d.email[i] <= '9')
    ensures !TokenService.ValidateToken(Some(ValidateDoctor(s, login, now).body.claims), "DOCTOR", s)
  {
    var r := ValidateDoctor(s, login, now);
    var d :| d in s.doctors && r.body == Token(TokenService.GenerateToken(NatToString(d.id), "DOCTOR", now));
    TokenService.IdNamesNoDoctor(s, d.id);
    TokenService.IssuedTokenForNoAccountRejected(NatToString(d.id), "DOCTOR", now, s);
  }
}

=== FILE: http.dfy ===
/** The claims record a token carries once the token library has decoded
    and verified it: `sub` (section 4.1.2 of RFC 7519), `exp` (section
    4.1.4), `iat` (section 4.1.6) and the private "role" claim. Encoding,
    signing and signature checking stay outside the model: every operation
    that takes a token takes the outcome of decoding it, `None` when the
    library rejects the token. Times are milliseconds since the epoch. */
module Jwt {
  import opened Wrappers

  datatype Claims = Claims(subject: Option<string>, role: Option<string>, issuedAt: int, expiration: int)

  /** The expiration check of section 4.1.4 of RFC 7519: the token is not
      accepted on or after its expiration time. */
  predicate Unexpired(c: Claims, now: int) {
    now < c.expiration
  }

  /** Decoding at time `now` a token whose signature verifies: the library
      hands back its claims while they are unexpired and rejects the token
      (an expired-token exception) from the expiration time on. */
  function Parse(c: Claims, now: int): (r: Option<Claims>)
    ensures r.Some? <==> Unexpired(c, now)
    ensures r.Some? ==> r.value == c
  {
    if now < c.expiration then Some(c) else None
  }
}

/** The response shapes of the controllers and services: a status code and
    a body. `Uncaught` stands for an exception no handler catches, which the
    framework answers with status 500. */
module Http {
  import opened Jwt
  import opened Accounts
  import opened AppointmentModel
  import opened AppointmentDtoModel
  import opened PrescriptionModel

  const OK: int := 200
  const CREATED: int := 201
  const BAD_REQUEST: int := 400
  const UNAUTHORIZED: int := 401
  const NOT_FOUND: int := 404
  const CONFLICT: int := 409
  const INTERNAL_SERVER_ERROR: int := 500

  datatype Body =
    | Message(text: string)
    | Error(text: string)
    | Token(claims: Claims)
    | Availability(slots: seq<string>)
    | Doctors(doctors: seq<Doctor>)
    | Appointments(appointments: seq<Appointment>)
    | AppointmentDtos(dtos: seq<AppointmentDto>)
    | Prescriptions(prescriptions: seq<Prescription>)
    | PatientRecord(patient: Patient)
    | Uncaught

  datatype Response = Response(status: int, body: Body)

  /** `HttpStatusCode.isError`: a 4xx or 5xx status. */
  predicate IsError(r: Response) {
    400 <= r.status < 600
  }
}

=== FILE: models.dfy ===
/** The account records. `Doctor` and `Patient` carry the fields the services
    read (the entity classes themselves are not part of this model); strings
    the services never find null are plain strings. */
module Accounts {
  import opened Wrappers

  datatype Admin = Admin(id: nat, username: string, password: string)

  /** `availableTimes` is a nullable list of "HH:mm" strings. */
  datatype Doctor = Doctor(
    id: nat,
    name: string,
    specialty: string,
    email: string,
    password: string,
    phone: string,
    availableTimes: Option<seq<string>>)

  datatype Patient = Patient(
    id: nat,
    name: string,
    email: string,
    password: string,
    phone: string,
    address: string)

  /** The login request body; either field may be null. */
  datatype Login = Login(identifier: Option<string>, password: Option<string>)
}

/** The `Appointment` entity: a doctor and a patient referenced by id, a
    nullable start time, a status (0 scheduled, 1 completed) and two optional
    texts; plus the transient derived getters. */
module AppointmentModel {
  import opened Wrappers
  import opened Clock

  const Scheduled: int := 0
  const Completed: int := 1

  datatype Appointment = Appointment(
    id: nat,
    doctorId: nat,
    patientId: nat,
    time: Option<Moment>,
    status: int,
    reasonForVisit: Option<string>,
    notes: Option<string>)

  /** The bean-validation constraints, checked against the clock `now`:
      `@Future` on the time (null passes), `@Size(max = 500)` on the reason
      and `@Size(max = 1000)` on the notes (null passes). The `@NotNull`
      doctor and patient are always present in this model. */
  predicate Valid(a: Appointment, now: Moment) {
    && (a.time.None? || IsAfter(a.time.value, now))
    && (a.reasonForVisit.None? || |a.reasonForVisit.value| <= 500)
    && (a.notes.None? || |a.notes.value| <= 1000)
  }

  /** `getEndTime`: one hour after the start, null when the start is null. */
  function EndTime(a: Appointment): (r: Option<Moment>)
    ensures r.Some? <==> a.time.Some?
    ensures r.Some? ==> Instant(r.value) == Instant(a.time.value) + NanosPerHour
  {
    match a.time
    case None => None
    case Some(t) => Some(PlusOneHour(t))
  }

  /** `getAppointmentDate`. */
  function AppointmentDate(a: Appointment): (r: Option<int>)
    ensures r.Some? <==> a.time.Some?
  {
    match a.time
    case None => None
    case Some(t) => Some(t.date)
  }

  /** `getAppointmentTimeOnly`. */
  function AppointmentTimeOnly(a: Appointment): (r: Option<LocalTime>)
    ensures r.Some? <==> a.time.Some?
  {
    match a.time
    case None => None
    case Some(t) => Some(t.time)
  }

  /** The date part and the time-of-day part together give back the start
      time, and the time-of-day part is a well-formed time. */
  lemma DerivedPartsRecombine(a: Appointment)
    ensures a.time.Some? ==>
      ValidTime(AppointmentTimeOnly(a).value) &&
      DateTime(AppointmentDate(a).value, AppointmentTimeOnly(a).value) == a.time.value
    ensures a.time.None? ==> AppointmentDate(a).None? && AppointmentTimeOnly(a).None? && EndTime(a).None?
  {
  }

  /** An appointment that satisfies the constraints at `now` still does at
      any earlier clock, and its end time lies after `now` as well. */
  lemma ValidAppointmentEndsInFuture(a: Appointment, now: Moment, earlier: Moment)
    requires Valid(a, now)
    requires Instant(earlier) <= Instant(now)
    ensures Valid(a, earlier)
    ensures a.time.Some? ==> IsAfter(EndTime(a).value, now)
  {
  }
}

/** The `Prescription` document: nullable fields, a refill count that
    defaults to 0, and the bean-validation bounds. */
module PrescriptionModel {
  import opened Wrappers

  datatype Prescription = Prescription(
    id: Option<string>,
    patientName: Option<string>,
    appointmentId: Option<nat>,
    medication: Option<string>,
    dosage: Option<string>,
    doctorNotes: Option<string>,
    refillCount: Option<int>,
    pharmacyName: Option<string>)

  /** `@NotNull` plus `@Size(min, max)`. */
  predicate RequiredSized(s: Option<string>, min: nat, max: nat) {
    s.Some? && min <= |s.value| <= max
  }

  /** `@Size(max)` alone: null passes. */
  predicate OptionalSized(s: Option<string>, max: nat) {
    s.None? || |s.value| <= max
  }

  predicate Valid(p: Prescription) {
    && RequiredSized(p.patientName, 3, 100)
    && p.appointmentId.Some?
    && RequiredSized(p.medication, 3, 100)
    && RequiredSized(p.dosage, 3, 20)
    && OptionalSized(p.doctorNotes, 200)
    && (p.refillCount.None? || 0 <= p.refillCount.value <= 12)
    && OptionalSized(p.pharmacyName, 100)
  }

  /** The no-argument constructor: every field null except the refill count. */
  const Empty: Prescription := Prescription(None, None, None, None, None, None, Some(0), None)

  /** The four-argument constructor. */
  function NewPrescription(patientName: Option<string>, appointmentId: Option<nat>,
                           medication: Option<string>, dosage: Option<string>): (p: Prescription)
    ensures p.patientName == patientName && p.appointmentId == appointmentId
    ensures p.medication == medication && p.dosage == dosage
    ensures p.id.None? && p.doctorNotes.None? && p.pharmacyName.None?
    ensures p.refillCount == Some(0)
  {
    Empty.(patientName := patientName, appointmentId := appointmentId,
           medication := medication, dosage := dosage)
  }

  /** A prescription built with the four-argument constructor meets every
      constraint exactly when its four arguments do: the defaults always
      pass. */
  lemma NewPrescriptionValidIff(patientName: Option<string>, appointmentId: Option<nat>,
                                medication: Option<string>, dosage: Option<string>)
    ensures Valid(NewPrescription(patientName, appointmentId, medication, dosage)) <==>
      && patientName.Some? && 3 <= |patientName.value| <= 100
      && appointmentId.Some?
      && medication.Some? && 3 <= |medication.value| <= 100
      && dosage.Some? && 3 <= |dosage.value| <= 20
  {
  }
}

/** `AppointmentDTO`: an immutable value built from ten fields plus three
    fields derived from the start time. */
module AppointmentDtoModel {
  import opened Clock

  datatype AppointmentDto = AppointmentDto(
    id: nat,
    doctorId: nat,
    doctorName: string,
    patientId: nat,
    patientName: string,
    patientEmail: string,
    patientPhone: string,
    patientAddress: string,
    appointmentTime: Moment,
    status: int,
    appointmentDate: int,
    appointmentTimeOnly: LocalTime,
    endTime: Moment)

  /** The constructor. The start time is dereferenced unconditionally, so
      it takes a non-null time. */
  function NewAppointmentDto(id: nat, doctorId: nat, doctorName: string, patientId: nat,
                             patientName: string, patientEmail: string, patientPhone: string,
                             patientAddress: string, appointmentTime: Moment, status: int): (d: AppointmentDto)
    ensures d.id == id && d.doctorId == doctorId && d.doctorName == doctorName
    ensures d.patientId == patientId && d.patientName == patientName
    ensures d.patientEmail == patientEmail && d.patientPhone == patientPhone
    ensures d.patientAddress == patientAddress
    ensures d.appointmentTime == appointmentTime && d.status == status
    ensures DateTime(d.appointmentDate, d.appointmentTimeOnly) == appointmentTime
    ensures Instant(d.endTime) == Instant(appointmentTime) + NanosPerHour
  {
    AppointmentDto(id, doctorId, doctorName, patientId, patientName, patientEmail,
                   patientPhone, patientAddress, appointmentTime, status,
                   appointmentTime.date, appointmentTime.time, PlusOneHour(appointmentTime))
  }
}

=== FILE: patient_service.dfy ===
/** The patient service: registration, the patient's own appointment list
    behind an id check, the past/future and doctor-name filters, the
    patient record behind a token, and the mapping of appointments to
    transfer objects. */
module PatientService {
  import opened Wrappers
  import opened Seqs
  import opened Text
  import opened Clock
  import opened Jwt
  import opened Http
  import opened Accounts
  import opened AppointmentModel
  import opened AppointmentDtoModel
  import opened Database
  import opened AppointmentRepository
  import TokenService

  /** `createPatient`: a JPA `save` with no uniqueness check; 1 unless the
      store fails. */
  function CreatePatient(s: Store, p: Patient, storeFails: bool): (res: (int, Store))
    ensures res.0 == 1 <==> !storeFails
    ensures res.0 in {0, 1}
    ensures res.0 == 0 ==> res.1 == s
    ensures res.0 == 1 ==> PatientSaved(s, res.1, p)
    ensures res.0 == 1 ==> exists x :: x in res.1.patients && x.(id := p.id) == p
    ensures res.0 == 1 ==> forall x :: x in s.patients && x.id != p.id ==> x in res.1.patients
  {
    if storeFails then (0, s) else (1, SavePatientRow(s, p))
  }

  /** Registration keeps the identity invariants of the store. */
  lemma CreatePatientKeepsIdsConsistent(s: Store, p: Patient, storeFails: bool)
    requires IdsConsistent(s)
    ensures IdsConsistent(CreatePatient(s, p, storeFails).1)
  {
    var res := CreatePatient(s, p, storeFails);
    if res.0 == 1 {
      PatientSavedKeepsUniqueIds(s, res.1, p);
      PatientSavedKeepsIssuedCovers(s, res.1, p);
    }
  }

  /** The appointments `toDto` maps without throwing: a start time, and a
      doctor and a patient row behind the references. */
  predicate Listable(s: Store, a: Appointment) {
    a.time.Some? && DoctorName(s, a).Some? && PatientName(s, a).Some?
  }

  /** `toDto`: the transfer object of an appointment, with the names and
      contact details of its doctor and patient. It throws when the start
      time is null (the transfer object dereferences it) or when the doctor
      or patient row is missing. */
  function ToDto(s: Store, a: Appointment): (r: Result<AppointmentDto, string>)
    ensures r.Success? <==> Listable(s, a)
    ensures r.Success? ==>
      && r.value.id == a.id && r.value.doctorId == a.doctorId && r.value.patientId == a.patientId
      && r.value.appointmentTime == a.time.value && r.value.status == a.status
      && DoctorName(s, a) == Some(r.value.doctorName)
      && PatientName(s, a) == Some(r.value.patientName)
      && (exists p :: p in s.patients && p.id == a.patientId && p.name == r.value.patientName
            && p.email == r.value.patientEmail && p.phone == r.value.patientPhone
            && p.address == r.value.patientAddress)
      && DateTime(r.value.appointmentDate, r.value.appointmentTimeOnly) == a.time.value
      && Instant(r.value.endTime) == Instant(a.time.value) + NanosPerHour
  {
    match FindDoctorById(s, a.doctorId)
    case None => Failure("EntityNotFoundException")
    case Some(d) =>
      match FindPatientById(s, a.patientId)
      case None => Failure("EntityNotFoundException")
      case Some(p) =>
        match a.time
        case None => Failure("NullPointerException")
        case Some(t) =>
          Success(NewAppointmentDto(a.id, d.id, d.name, p.id, p.name, p.email, p.phone, p.address, t, a.status))
  }

  /** Mapping a stream of appointments: all transfer objects in order, or
      the first exception. */
  function ToDtos(s: Store, apps: seq<Appointment>): (r: Result<seq<AppointmentDto>, string>)
    ensures r.Success? <==> forall a :: a in apps ==> Listable(s, a)
    ensures r.Success? ==> |r.value| == |apps|
    ensures r.Success? ==> forall i :: 0 <= i < |apps| ==>
      && r.value[i].id == apps[i].id && r.value[i].patientId == apps[i].patientId
      && r.value[i].doctorId == apps[i].doctorId && r.value[i].status == apps[i].status
      && apps[i].time == Some(r.value[i].appointmentTime)
      && DoctorName(s, apps[i]) == Some(r.value[i].doctorName)
  {
    if |apps| == 0 then Success([])
    else
      assert forall a :: a in apps <==> a == apps[0] || a in apps[1..];
      match ToDto(s, apps[0])
      case Failure(e) => Failure(e)
      case Success(d) =>
        match ToDtos(s, apps[1..])
        case Failure(e) => Failure(e)
        case Success(ds) => Success([d] + ds)
  }

  function DtoIds(ds: seq<AppointmentDto>): (r: seq<nat>)
    ensures |r| == |ds| && forall i :: 0 <= i < |ds| ==> r[i] == ds[i].id
  {
    Map(ds, (d: AppointmentDto) => d.id)
  }

  /** The 200 response listing the transfer objects of `apps`, or the 500
      of an uncaught exception while mapping them. */
  function DtosResponse(s: Store, apps: seq<Appointment>): (r: Response)
    ensures r.status == OK <==> ToDtos(s, apps).Success?
    ensures r.status != OK ==> r == Response(INTERNAL_SERVER_ERROR, Uncaught)
    ensures r.status == OK ==> r.body == AppointmentDtos(ToDtos(s, apps).value)
  {
    match ToDtos(s, apps)
    case Failure(_) => Response(INTERNAL_SERVER_ERROR, Uncaught)
    case Success(dtos) => Response(OK, AppointmentDtos(dtos))
  }

  /** A 200 lists one transfer object per appointment, with the
      appointments' ids in their order. */
  lemma DtosResponseLists(s: Store, apps: seq<Appointment>)
    requires DtosResponse(s, apps).status == OK
    ensures DtoIds(DtosResponse(s, apps).body.dtos) == AppointmentIds(apps)
    ensures forall a :: a in apps ==>
      exists i :: 0 <= i < |DtosResponse(s, apps).body.dtos| && DtosResponse(s, apps).body.dtos[i].id == a.id
  {
    var dtos := ToDtos(s, apps).value;
    forall a | a in apps ensures exists i :: 0 <= i < |dtos| && dtos[i].id == a.id {
      var k :| 0 <= k < |apps| && apps[k] == a;
      assert dtos[k].id == a.id;
    }
  }

  /** Each appointment the patient query returns belongs to the patient. */
  lemma PatientRows(s: Store, id: nat)
    ensures var apps := FindByPatientId(s.appointments, Some(id));
      forall i :: 0 <= i < |apps| ==> apps[i].patientId == id
  {
    var apps := FindByPatientId(s.appointments, Some(id));
    forall i | 0 <= i < |apps| ensures apps[i].patientId == id {
      assert apps[i] in apps;
    }
  }

  /** `getPatientAppointment`: a null id throws; 401 "Unauthorized access"
      unless the id equals the account id resolved from the token;
      otherwise every appointment of that patient. */
  function GetPatientAppointment(s: Store, id: Option<nat>, decoded: Option<Claims>): (r: Response)
    ensures id.None? ==> r == Response(INTERNAL_SERVER_ERROR, Uncaught)
    ensures id.Some? && TokenService.GetUserIdFromToken(decoded, s) != id ==>
      r == Response(UNAUTHORIZED, Error("Unauthorized access"))
    ensures id.Some? && TokenService.GetUserIdFromToken(decoded, s) == id ==>
      && (r.status == OK <==> forall a :: a in s.appointments && a.patientId == id.value ==> Listable(s, a))
      && (r.status != OK ==> r == Response(INTERNAL_SERVER_ERROR, Uncaught))
    ensures r.status == OK ==>
      && id.Some? && TokenService.GetUserIdFromToken(decoded, s) == id
      && r.body.AppointmentDtos?
      && |r.body.dtos| == |FindByPatientId(s.appointments, id)|
      && (forall i :: 0 <= i < |r.body.dtos| ==>
            r.body.dtos[i].patientId == id.value && r.body.dtos[i].id == FindByPatientId(s.appointments, id)[i].id)
      && (forall a :: a in s.appointments && a.patientId == id.value ==>
            exists i :: 0 <= i < |r.body.dtos| && r.body.dtos[i].id == a.id)
  {
    if id.None? then Response(INTERNAL_SERVER_ERROR, Uncaught)
    else if TokenService.GetUserIdFromToken(decoded, s) != id then Response(UNAUTHORIZED, Error("Unauthorized access"))
    else
      var apps := FindByPatientId(s.appointments, id);
      PatientRows(s, id.value);
      if DtosResponse(s, apps).status == OK then
        DtosResponseLists(s, apps);
        DtosResponse(s, apps)
      else DtosResponse(s, apps)
  }

  /** Transfer objects whose ids are a reordering of the ids of `sub`,
      where `all` lists every appointment of `sub`, have their ids listed
      in `all`. */
  lemma ListedWithin(dtos: seq<AppointmentDto>, sub: seq<Appointment>, all: seq<AppointmentDto>)
    requires multiset(DtoIds(dtos)) == multiset(AppointmentIds(sub))
    requires forall a :: a in sub ==> exists i :: 0 <= i < |all| && all[i].id == a.id
    ensures forall d :: d in dtos ==> exists i :: 0 <= i < |all| && all[i].id == d.id
  {
    forall d | d in dtos ensures exists i :: 0 <= i < |all| && all[i].id == d.id {
      var k :| 0 <= k < |dtos| && dtos[k] == d;
      assert DtoIds(dtos)[k] == d.id;
      assert d.id in multiset(AppointmentIds(sub));
      var j :| 0 <= j < |sub| && AppointmentIds(sub)[j] == d.id;
      assert sub[j] in sub;
    }
  }

  /** A condition filter only narrows the owner's full listing: when both
      answer 200, every appointment the filter lists is also listed by
      `getPatientAppointment`. */
  lemma ConditionWithinListing(s: Store, condition: string, id: nat, decoded: Option<Claims>)
    requires GetPatientAppointment(s, Some(id), decoded).status == OK
    requires FilterByCondition(s, condition, Some(id)).status == OK
    ensures var all := GetPatientAppointment(s, Some(id), decoded).body.dtos;
      forall d :: d in FilterByCondition(s, condition, Some(id)).body.dtos ==>
        exists i :: 0 <= i < |all| && all[i].id == d.id
  {
    var all := GetPatientAppointment(s, Some(id), decoded).body.dtos;
    var r := FilterByCondition(s, condition, Some(id));
    var selected := Filter(s.appointments, And(OfPatient(Some(id)), HasStatus(ConditionStatus(condition).value)));
    assert forall a :: a in selected ==> a in s.appointments && a.patientId == id;
    ListedWithin(r.body.dtos, selected, all);
  }

  /** The status a condition selects: "past" (ignoring case) the completed
      appointments, "future" the scheduled ones; nothing else is a
      condition. */
  function ConditionStatus(condition: string): (r: Option<int>)
    ensures r == Some(Completed) <==> EqualsIgnoreCase("past", condition)
    ensures r == Some(Scheduled) <==> EqualsIgnoreCase("future", condition)
    ensures r.None? <==> !EqualsIgnoreCase("past", condition) && !EqualsIgnoreCase("future", condition)
  {
    if EqualsIgnoreCase("past", condition) then Some(1)
    else if EqualsIgnoreCase("future", condition) then Some(0)
    else None
  }

  /** `filterByCondition`: 400 "Invalid condition" for anything but
      past/future, without a query; otherwise the patient's appointments
      with the selected status, earliest first. */
  function FilterByCondition(s: Store, condition: string, id: Option<nat>): (r: Response)
    ensures ConditionStatus(condition).None? <==> r == Response(BAD_REQUEST, Error("Invalid condition"))
    ensures ConditionStatus(condition).Some? ==>
      ConditionListed(s, id, ConditionStatus(condition).value, r)
  {
    match ConditionStatus(condition)
    case None => Response(BAD_REQUEST, Error("Invalid condition"))
    case Some(status) =>
      var apps := FindByPatientIdAndStatusOrderByTime(s.appointments, id, status);
      ConditionListing(s, id, status);
      DtosResponse(s, apps)
  }

  /** What the condition filter promises about its response `r`: a 200
      exactly when every appointment of the patient with the selected
      status maps, the uncaught 500 otherwise; a 200 lists those
      appointments and no others, each once, earliest first. */
  predicate ConditionListed(s: Store, id: Option<nat>, status: int, r: Response) {
    && (r.status == OK <==>
          forall a :: a in s.appointments && HasId(id, a.patientId) && a.status == status ==> Listable(s, a))
    && (r.status != OK ==> r == Response(INTERNAL_SERVER_ERROR, Uncaught))
    && (r.status == OK ==>
          && r.body.AppointmentDtos?
          && (forall i :: 0 <= i < |r.body.dtos| ==>
                Some(r.body.dtos[i].patientId) == id && r.body.dtos[i].status == status)
          && (forall i, j :: 0 <= i < j < |r.body.dtos| ==>
                Instant(r.body.dtos[i].appointmentTime) <= Instant(r.body.dtos[j].appointmentTime))
          && (forall a :: a in s.appointments && HasId(id, a.patientId) && a.status == status ==>
                exists i :: 0 <= i < |r.body.dtos| && r.body.dtos[i].id == a.id)
          && multiset(DtoIds(r.body.dtos)) ==
             multiset(AppointmentIds(Filter(s.appointments, And(OfPatient(id), HasStatus(status))))))
  }

  /** The query the condition filter runs, mapped to transfer objects,
      meets that promise. */
  lemma ConditionListing(s: Store, id: Option<nat>, status: int)
    ensures ConditionListed(s, id, status, DtosResponse(s, FindByPatientIdAndStatusOrderByTime(s.appointments, id, status)))
  {
    var apps := FindByPatientIdAndStatusOrderByTime(s.appointments, id, status);
    var r := DtosResponse(s, apps);
    if r.status == OK {
      ConditionRows(s, id, status);
      ConditionOrder(s, id, status);
      ConditionIds(s, id, status);
    }
  }

  /** The rows the condition query lists belong to the patient and carry
      the status. */
  lemma ConditionRows(s: Store, id: Option<nat>, status: int)
    requires DtosResponse(s, FindByPatientIdAndStatusOrderByTime(s.appointments, id, status)).status == OK
    ensures var dtos := DtosResponse(s, FindByPatientIdAndStatusOrderByTime(s.appointments, id, status)).body.dtos;
      forall i :: 0 <= i < |dtos| ==> Some(dtos[i].patientId) == id && dtos[i].status == status
  {
    var apps := FindByPatientIdAndStatusOrderByTime(s.appointments, id, status);
    var dtos := DtosResponse(s, apps).body.dtos;
    forall i | 0 <= i < |dtos| ensures Some(dtos[i].patientId) == id && dtos[i].status == status {
      assert apps[i] in apps;
    }
  }

  /** The rows the condition query lists come earliest first. */
  lemma ConditionOrder(s: Store, id: Option<nat>, status: int)
    requires DtosResponse(s, FindByPatientIdAndStatusOrderByTime(s.appointments, id, status)).status == OK
    ensures var dtos := DtosResponse(s, FindByPatientIdAndStatusOrderByTime(s.appointments, id, status)).body.dtos;
      forall i, j :: 0 <= i < j < |dtos| ==> Instant(dtos[i].appointmentTime) <= Instant(dtos[j].appointmentTime)
  {
    var apps := FindByPatientIdAndStatusOrderByTime(s.appointments, id, status);
    DtosKeepOrder(s, apps);
  }

  /** Mapping appointments sorted by start time gives transfer objects
      sorted by start time. */
  lemma DtosKeepOrder(s: Store, apps: seq<Appointment>)
    requires SortedByTime(apps) && ToDtos(s, apps).Success?
    ensures var dtos := ToDtos(s, apps).value;
      forall i, j :: 0 <= i < j < |dtos| ==> Instant(dtos[i].appointmentTime) <= Instant(dtos[j].appointmentTime)
  {
    var dtos := ToDtos(s, apps).value;
    forall i, j | 0 <= i < j < |dtos| ensures Instant(dtos[i].appointmentTime) <= Instant(dtos[j].appointmentTime) {
      assert TimeLe(apps[i].time, apps[j].time);
    }
  }

  /** Every appointment the condition selects is listed, and the listed ids
      are a reordering of the selected appointments' ids. */
  lemma ConditionIds(s: Store, id: Option<nat>, status: int)
    requires DtosResponse(s, FindByPatientIdAndStatusOrderByTime(s.appointments, id, status)).status == OK
    ensures var dtos := DtosResponse(s, FindByPatientIdAndStatusOrderByTime(s.appointments, id, status)).body.dtos;
      && (forall a :: a in s.appointments && HasId(id, a.patientId) && a.status == status ==>
            exists i :: 0 <= i < |dtos| && dtos[i].id == a.id)
      && multiset(DtoIds(dtos)) == multiset(AppointmentIds(Filter(s.appointments, And(OfPatient(id), HasStatus(status)))))
  {
    var apps := FindByPatientIdAndStatusOrderByTime(s.appointments, id, status);
    DtosResponseLists(s, apps);
    AppointmentIdsPermute(apps, Filter(s.appointments, And(OfPatient(id), HasStatus(status))));
  }

  /** Each appointment the doctor-name query returns belongs to the patient
      and has a doctor whose name matches. */
  lemma DoctorNameRows(s: Store, name: string, patientId: Option<nat>)
    ensures var apps := FilterByDoctorNameAndPatientId(s, name, patientId);
      forall i :: 0 <= i < |apps| ==>
        HasId(patientId, apps[i].patientId) && DoctorName(s, apps[i]).Some?
        && ContainsIgnoreCase(DoctorName(s, apps[i]).value, name)
  {
    var apps := FilterByDoctorNameAndPatientId(s, name, patientId);
    forall i | 0 <= i < |apps| ensures HasId(patientId, apps[i].patientId) && DoctorName(s, apps[i]).Some?
      && ContainsIgnoreCase(DoctorName(s, apps[i]).value, name) {
      assert apps[i] in apps;
    }
  }

  /** `filterByDoctor`: the patient's appointments whose doctor's name
      contains `name`, ignoring case. */
  function FilterByDoctor(s: Store, name: string, patientId: Option<nat>): (r: Response)
    ensures r.status in {OK, INTERNAL_SERVER_ERROR}
    ensures r.status == OK <==>
      forall a :: (a in s.appointments && HasId(patientId, a.patientId) && DoctorName(s, a).Some?
                   && ContainsIgnoreCase(DoctorName(s, a).value, name)) ==> Listable(s, a)
    ensures r.status != OK ==> r == Response(INTERNAL_SERVER_ERROR, Uncaught)
    ensures r.status == OK ==>
      && r.body.AppointmentDtos?
      && (forall i :: 0 <= i < |r.body.dtos| ==>
            Some(r.body.dtos[i].patientId) == patientId && ContainsIgnoreCase(r.body.dtos[i].doctorName, name))
      && (forall a :: (a in s.appointments && HasId(patientId, a.patientId) && DoctorName(s, a).Some?
                       && ContainsIgnoreCase(DoctorName(s, a).value, name)) ==>
            exists i :: 0 <= i < |r.body.dtos| && r.body.dtos[i].id == a.id)
      && DtoIds(r.body.dtos) == AppointmentIds(FilterByDoctorNameAndPatientId(s, name, patientId))
  {
    var apps := FilterByDoctorNameAndPatientId(s, name, patientId);
    DoctorNameRows(s, name, patientId);
    if DtosResponse(s, apps).status == OK then
      DtosResponseLists(s, apps);
      DtosResponse(s, apps)
    else DtosResponse(s, apps)
  }

  /** `filterByDoctorAndCondition`: 400 "Invalid condition" for anything but
      past/future; otherwise the doctor-name matches filtered by the
      selected status in memory, which is the same list, in the same order,
      as the three-parameter doctor-name-and-status query. */
  function FilterByDoctorAndCondition(s: Store, condition: string, name: string, patientId: Option<nat>): (r: Response)
    ensures ConditionStatus(condition).None? <==> r == Response(BAD_REQUEST, Error("Invalid condition"))
    ensures ConditionStatus(condition).Some? ==>
      r == DtosResponse(s, FilterByDoctorNameAndPatientIdAndStatus(s, name, patientId, ConditionStatus(condition).value))
    ensures r.status == OK ==>
      && r.body.AppointmentDtos?
      && forall i :: 0 <= i < |r.body.dtos| ==>
           Some(r.body.dtos[i].patientId) == patientId && ContainsIgnoreCase(r.body.dtos[i].doctorName, name)
           && Some(r.body.dtos[i].status) == ConditionStatus(condition)
  {
    var byDoctor := FilterByDoctorNameAndPatientId(s, name, patientId);
    match ConditionStatus(condition)
    case None => Response(BAD_REQUEST, Error("Invalid condition"))
    case Some(status) =>
      var apps := Filter(byDoctor, HasStatus(status));
      StatusFilterAgreesWithQuery(s, name, patientId, status);
      DoctorStatusRows(s, name, patientId, status);
      DtosResponse(s, apps)
  }

  /** Each appointment the doctor-name-and-status query returns belongs to
      the patient, carries the status, and has a doctor whose name matches. */
  lemma DoctorStatusRows(s: Store, name: string, patientId: Option<nat>, status: int)
    ensures var apps := FilterByDoctorNameAndPatientIdAndStatus(s, name, patientId, status);
      forall i :: 0 <= i < |apps| ==>
        HasId(patientId, apps[i].patientId) && apps[i].status == status && DoctorName(s, apps[i]).Some?
        && ContainsIgnoreCase(DoctorName(s, apps[i]).value, name)
  {
    var apps := FilterByDoctorNameAndPatientIdAndStatus(s, name, patientId, status);
    forall i | 0 <= i < |apps| ensures HasId(patientId, apps[i].patientId) && apps[i].status == status
      && DoctorName(s, apps[i]).Some? && ContainsIgnoreCase(DoctorName(s, apps[i]).value, name) {
      assert apps[i] in apps;
    }
  }

  /** `getPatientDetails`: the patient whose email is the token's subject,
      or 404 "Patient not found". */
  function GetPatientDetails(s: Store, decoded: Option<Claims>): (r: Response)
    ensures r.status in {OK, NOT_FOUND}
    ensures r.status == NOT_FOUND <==>
      TokenService.ExtractIdentifier(decoded).None? ||
      forall p :: p in s.patients ==> Some(p.email) != TokenService.ExtractIdentifier(decoded)
    ensures r.status == NOT_FOUND ==> r.body == Error("Patient not found")
    ensures r.status == OK ==>
      r.body.PatientRecord? && r.body.patient in s.patients
      && TokenService.ExtractIdentifier(decoded) == Some(r.body.patient.email)
  {
    match FindPatientByEmail(s, TokenService.ExtractIdentifier(decoded))
    case None => Response(NOT_FOUND, Error("Patient not found"))
    case Some(p) => Response(OK, PatientRecord(p))
  }

  /** A patient registered under an email no one else had is what the
      record lookup finds for a token whose subject is that email. */
  lemma RegisteredPatientFound(s: Store, p: Patient, claims: Claims)
    requires forall q :: q in s.patients ==> q.email != p.email
    requires claims.subject == Some(p.email)
    ensures var r := GetPatientDetails(CreatePatient(s, p, false).1, Some(claims));
      r.status == OK && r.body.patient.(id := p.id) == p
  {
    var s' := CreatePatient(s, p, false).1;
    var x := FindPatientByEmail(s', Some(p.email)).value;
    assert x in s'.patients && x.email == p.email;
  }

  /** With a doctor name and a condition, the patient filter lists only
      appointments the doctor-name filter alone lists too: whenever that
      one answers 200, so does the combined one, with a subset of its
      ids. */
  lemma DoctorAndConditionNarrowsDoctor(s: Store, condition: string, name: string, patientId: Option<nat>)
    requires ConditionStatus(condition).Some?
    requires FilterByDoctor(s, name, patientId).status == OK
    ensures var both := FilterByDoctorAndCondition(s, condition, name, patientId);
      var byName := FilterByDoctor(s, name, patientId);
      && both.status == OK
      && forall i :: 0 <= i < |both.body.dtos| ==>
           exists j :: 0 <= j < |byName.body.dtos| && byName.body.dtos[j].id == both.body.dtos[i].id
  {
    var status := ConditionStatus(condition).value;
    var both := FilterByDoctorAndCondition(s, condition, name, patientId);
    var apps := FilterByDoctorNameAndPatientIdAndStatus(s, name, patientId, status);
    DoctorStatusRows(s, name, patientId, status);
    assert both == DtosResponse(s, apps);
    assert ToDtos(s, apps).Success? by {
      forall a | a in apps ensures Listable(s, a) {
      }
    }
    forall i | 0 <= i < |both.body.dtos|
      ensures exists j :: (0 <= j < |FilterByDoctor(s, name, patientId).body.dtos| &&
        FilterByDoctor(s, name, patientId).body.dtos[j].id == both.body.dtos[i].id)
    {
      assert both.body.dtos[i].id == apps[i].id;
      assert apps[i] in apps;
    }
  }
}

=== FILE: prescription_controller.dfy ===
/** The prescription endpoints, both for DOCTOR tokens only. Saving first
    marks the appointment completed and only then saves the prescription,
    so a refused save still leaves the status change behind. */
module PrescriptionController {
  import opened Wrappers
  import opened Jwt
  import opened Http
  import opened AppointmentModel
  import opened PrescriptionModel
  import opened Database
  import opened AppointmentRepository
  import TokenService
  import CentralService
  import AppointmentService
  import PrescriptionService

  /** Saving a prescription. `statusFails` and `storeFails` are the store
      failures of the status update and of the save. */
  function SavePrescription(s: Store, p: Prescription, decoded: Option<Claims>,
                            statusFails: bool, storeFails: bool): (res: (Response, Store))
    ensures !TokenService.ValidateToken(decoded, "DOCTOR", s) ==>
      res == (Response(UNAUTHORIZED, Error("Invalid or expired token")), s)
    ensures TokenService.ValidateToken(decoded, "DOCTOR", s) && statusFails ==>
      res == (Response(INTERNAL_SERVER_ERROR, Error("Failed to update appointment status")), s)
    ensures TokenService.ValidateToken(decoded, "DOCTOR", s) && !statusFails ==>
      && res.1.admins == s.admins && res.1.doctors == s.doctors && res.1.patients == s.patients
      && |res.1.appointments| == |s.appointments|
      && (forall i :: 0 <= i < |s.appointments| ==>
            res.1.appointments[i].(status := s.appointments[i].status) == s.appointments[i]
            && res.1.appointments[i].status ==
                 (if HasId(p.appointmentId, s.appointments[i].id) then Completed else s.appointments[i].status))
    ensures res.0.status == BAD_REQUEST <==>
      && TokenService.ValidateToken(decoded, "DOCTOR", s) && !statusFails
      && exists x :: x in s.prescriptions && x.appointmentId == p.appointmentId
    ensures res.0.status == CREATED <==>
      && TokenService.ValidateToken(decoded, "DOCTOR", s) && !statusFails
      && (forall x :: x in s.prescriptions ==> x.appointmentId != p.appointmentId) && !storeFails
    ensures res.0.status == INTERNAL_SERVER_ERROR ==>
      || (statusFails && res.0.body == Error("Failed to update appointment status"))
      || (!statusFails && storeFails && res.0.body == Error("Failed to save prescription"))
    ensures res.0.status in {CREATED, BAD_REQUEST, UNAUTHORIZED, INTERNAL_SERVER_ERROR}
    ensures res.0.status != CREATED ==> res.1.prescriptions == s.prescriptions
    ensures res.0.status == CREATED ==>
      && TokenService.ValidateToken(decoded, "DOCTOR", s)
      && p in res.1.prescriptions
      && (forall x :: x in res.1.prescriptions ==> x in s.prescriptions || x == p)
  {
    var auth := CentralService.CheckToken(decoded, "DOCTOR", s);
    if IsError(auth) then (auth, s)
    else
      var (statusResp, s1) := AppointmentService.ChangeStatus(s, p.appointmentId, 1, statusFails);
      if IsError(statusResp) then (Response(statusResp.status, Error("Failed to update appointment status")), s)
      else PrescriptionService.SavePrescription(s1, p, storeFails)
  }

  /** Reading the prescriptions of an appointment: for a DOCTOR token only,
      and never a change to the store. */
  function GetPrescription(s: Store, appointmentId: nat, decoded: Option<Claims>): (r: Response)
    ensures !TokenService.ValidateToken(decoded, "DOCTOR", s) ==>
      r == Response(UNAUTHORIZED, Error("Invalid or expired token"))
    ensures r.status == OK <==> TokenService.ValidateToken(decoded, "DOCTOR", s)
    ensures r.status == OK ==>
      r.body.Prescriptions? &&
      forall x :: x in r.body.prescriptions <==> x in s.prescriptions && x.appointmentId == Some(appointmentId)
  {
    var auth := CentralService.CheckToken(decoded, "DOCTOR", s);
    if IsError(auth) then Response(auth.status, Error(auth.body.text))
    else PrescriptionService.GetPrescription(s, appointmentId)
  }
}

=== FILE: prescription_service.dfy ===
/** The prescription service: a check-then-save that refuses a second
    prescription for an appointment, and the lookup by appointment. */
module PrescriptionService {
  import opened Wrappers
  import opened Seqs
  import opened Http
  import opened PrescriptionModel
  import opened Database

  /** `savePrescription`: 400 when a prescription for the same appointment
      id is stored, 500 on a store failure, 201 once the document is saved.
      Only a 201 changes the store, and only its prescriptions. */
  function SavePrescription(s: Store, p: Prescription, storeFails: bool): (res: (Response, Store))
    ensures res.0.status in {CREATED, BAD_REQUEST, INTERNAL_SERVER_ERROR}
    ensures res.0.status == BAD_REQUEST <==> exists x :: x in s.prescriptions && x.appointmentId == p.appointmentId
    ensures res.0.status == BAD_REQUEST ==> res.0.body == Error("Prescription already exists for this appointment")
    ensures res.0.status == INTERNAL_SERVER_ERROR ==> storeFails && res.0.body == Error("Failed to save prescription")
    ensures res.0.status == CREATED <==>
      (forall x :: x in s.prescriptions ==> x.appointmentId != p.appointmentId) && !storeFails
    ensures res.0.status != CREATED ==> res.1 == s
    ensures res.0.status == CREATED ==>
      && res.0.body == Message("Prescription saved")
      && res.1 == s.(prescriptions := res.1.prescriptions)
      && p in res.1.prescriptions
      && (forall x :: x in res.1.prescriptions ==> x in s.prescriptions || x == p)
      && (p.id.None? ==> res.1.prescriptions == s.prescriptions + [p])
  {
    var existing := FindPrescriptionsByAppointmentId(s.prescriptions, p.appointmentId);
    assert |existing| > 0 <==> exists x :: x in s.prescriptions && x.appointmentId == p.appointmentId by {
      if |existing| > 0 { assert existing[0] in existing; }
    }
    if |existing| > 0 then
      (Response(BAD_REQUEST, Error("Prescription already exists for this appointment")), s)
    else if storeFails then
      (Response(INTERNAL_SERVER_ERROR, Error("Failed to save prescription")), s)
    else
      (Response(CREATED, Message("Prescription saved")), s.(prescriptions := SavePrescriptionDoc(s.prescriptions, p)))
  }

  /** Two saves for the same appointment: the second is always refused and
      changes nothing. */
  lemma SecondSaveRefused(s: Store, p: Prescription, q: Prescription, fails1: bool, fails2: bool)
    requires SavePrescription(s, p, fails1).0.status == CREATED
    requires q.appointmentId == p.appointmentId
    ensures SavePrescription(SavePrescription(s, p, fails1).1, q, fails2).0.status == BAD_REQUEST
    ensures SavePrescription(SavePrescription(s, p, fails1).1, q, fails2).1 == SavePrescription(s, p, fails1).1
  {
  }

  /** At most one prescription per appointment id. */
  predicate OnePerAppointment(ps: seq<Prescription>) {
    forall i, j :: 0 <= i < |ps| && 0 <= j < |ps| && ps[i].appointmentId == ps[j].appointmentId ==> i == j
  }

  /** Document ids are unique, as MongoDB's `_id` index guarantees. */
  predicate UniqueDocumentIds(ps: seq<Prescription>) {
    forall i, j :: 0 <= i < |ps| && 0 <= j < |ps| && ps[i].id.Some? && ps[i].id == ps[j].id ==> i == j
  }

  /** Saving a document for an appointment no stored document has keeps
      at most one document per appointment. */
  lemma SaveDocKeepsOnePerAppointment(ps: seq<Prescription>, p: Prescription)
    requires OnePerAppointment(ps) && UniqueDocumentIds(ps)
    requires forall x :: x in ps ==> x.appointmentId != p.appointmentId
    ensures OnePerAppointment(SavePrescriptionDoc(ps, p))
  {
    var r := SavePrescriptionDoc(ps, p);
    forall i, j | 0 <= i < |r| && 0 <= j < |r| && r[i].appointmentId == r[j].appointmentId
      ensures i == j
    {
      if i < |ps| { assert ps[i] in ps; }
      if j < |ps| { assert ps[j] in ps; }
    }
  }

  /** Saving through this service keeps at most one prescription per
      appointment. */
  lemma SavePrescriptionKeepsOnePerAppointment(s: Store, p: Prescription, storeFails: bool)
    requires OnePerAppointment(s.prescriptions)
    requires UniqueDocumentIds(s.prescriptions)
    ensures OnePerAppointment(SavePrescription(s, p, storeFails).1.prescriptions)
  {
    if SavePrescription(s, p, storeFails).0.status == CREATED {
      SaveDocKeepsOnePerAppointment(s.prescriptions, p);
    }
  }

  /** Saving through this service keeps document ids unique. */
  lemma SavePrescriptionKeepsUniqueDocumentIds(s: Store, p: Prescription, storeFails: bool)
    requires UniqueDocumentIds(s.prescriptions)
    ensures UniqueDocumentIds(SavePrescription(s, p, storeFails).1.prescriptions)
  {
    var ps := s.prescriptions;
    var r := SavePrescription(s, p, storeFails).1.prescriptions;
    if SavePrescription(s, p, storeFails).0.status == CREATED {
      if p.id.Some? && exists i :: 0 <= i < |ps| && ps[i].id == p.id {
        forall i, j | 0 <= i < |r| && 0 <= j < |r| && r[i].id.Some? && r[i].id == r[j].id ensures i == j {
          assert r[i].id == ps[i].id && r[j].id == ps[j].id;
        }
      }
    }
  }

  /** `getPrescription`: 200 with every stored prescription for that
      appointment, in insertion order, possibly none. */
  function GetPrescription(s: Store, appointmentId: nat): (r: Response)
    ensures r.status == OK && r.body.Prescriptions?
    ensures forall x :: x in r.body.prescriptions <==> x in s.prescriptions && x.appointmentId == Some(appointmentId)
    ensures IsSubsequence(r.body.prescriptions, s.prescriptions)
  {
    Response(OK, Prescriptions(FindPrescriptionsByAppointmentId(s.prescriptions, Some(appointmentId))))
  }

  /** After a prescription is saved for an appointment, the lookup by that
      appointment finds exactly that prescription. */
  lemma SavedPrescriptionFound(s: Store, p: Prescription, storeFails: bool, appointmentId: nat)
    requires SavePrescription(s, p, storeFails).0.status == CREATED
    requires p.appointmentId == Some(appointmentId)
    ensures var r := GetPrescription(SavePrescription(s, p, storeFails).1, appointmentId);
      forall x :: x in r.body.prescriptions <==> x == p
  {
  }
}

=== FILE: seqs.dfy ===
/** Sequence operations shared by the repositories and services: the query
    semantics (filtering in store order, first match) and the list removals
    that `java.util.List` performs. */
module Seqs {
  import opened Wrappers

  /** `a` is an order-preserving subsequence of `b`. */
  predicate IsSubsequence<T(==,!new)>(a: seq<T>, b: seq<T>)
    decreases |b|
  {
    if |a| == 0 then true
    else if |b| == 0 then false
    else if a[0] == b[0] then IsSubsequence(a[1..], b[1..])
    else IsSubsequence(a, b[1..])
  }

  lemma {:induction false} IsSubsequenceRefl<T(!new)>(xs: seq<T>)
    ensures IsSubsequence(xs, xs)
    decreases |xs|
  {
    if |xs| > 0 {
      IsSubsequenceRefl(xs[1..]);
    }
  }

  /** Dropping the first element of a subsequence keeps it a subsequence. */
  lemma {:induction false} SubsequenceDropHead<T(!new)>(a: seq<T>, b: seq<T>)
    requires |a| > 0 && IsSubsequence(a, b)
    ensures IsSubsequence(a[1..], b)
    decreases |b|, 1
  {
    if a[0] == b[0] {
      SubsequenceOfTail(a[1..], b);
    } else {
      SubsequenceDropHead(a, b[1..]);
      SubsequenceOfTail(a[1..], b);
    }
  }

  /** A subsequence of the tail is a subsequence of the whole. */
  lemma {:induction false} SubsequenceOfTail<T(!new)>(a: seq<T>, b: seq<T>)
    requires |b| > 0 && IsSubsequence(a, b[1..])
    ensures IsSubsequence(a, b)
    decreases |b|, 0
  {
    if |a| > 0 && a[0] == b[0] {
      SubsequenceDropHead(a, b[1..]);
    }
  }

  lemma {:induction false} IsSubsequenceTrans<T(!new)>(a: seq<T>, b: seq<T>, c: seq<T>)
    requires IsSubsequence(a, b) && IsSubsequence(b, c)
    ensures IsSubsequence(a, c)
    decreases |c|
  {
    if |a| > 0 && |c| > 0 && |b| > 0 {
      if b[0] == c[0] {
        if a[0] == b[0] {
          IsSubsequenceTrans(a[1..], b[1..], c[1..]);
        } else {
          IsSubsequenceTrans(a, b[1..], c[1..]);
        }
      } else {
        IsSubsequenceTrans(a, b, c[1..]);
        SubsequenceOfTail(a, c);
      }
    }
  }

  /** No element occurs twice. */
  predicate NoDuplicates<T(==,!new)>(xs: seq<T>) {
    forall i, j :: 0 <= i < j < |xs| ==> xs[i] != xs[j]
  }

  /** The elements of `xs` satisfying `p`, in their original order: what a
      `WHERE` clause returns when no `ORDER BY` is given. */
  function Filter<T(==,!new)>(xs: seq<T>, p: T -> bool): (r: seq<T>)
    ensures forall x :: x in r <==> x in xs && p(x)
    ensures forall i :: 0 <= i < |r| ==> p(r[i])
    ensures IsSubsequence(r, xs)
    ensures |r| <= |xs|
  {
    if |xs| == 0 then []
    else
      var rest := Filter(xs[1..], p);
      if p(xs[0]) then
        assert ([xs[0]] + rest)[1..] == rest;
        [xs[0]] + rest
      else
        assert |rest| > 0 ==> rest[0] != xs[0] by {
          if |rest| > 0 { assert p(rest[0]); }
        }
        rest
  }

  lemma {:induction false} FilterAppend<T(!new)>(xs: seq<T>, ys: seq<T>, p: T -> bool)
    ensures Filter(xs + ys, p) == Filter(xs, p) + Filter(ys, p)
    decreases |xs|
  {
    if |xs| == 0 {
      assert xs + ys == ys;
    } else {
      assert (xs + ys)[1..] == xs[1..] + ys;
      FilterAppend(xs[1..], ys, p);
    }
  }

  function Not<T>(p: T -> bool): T -> bool {
    x => !p(x)
  }

  function And<T>(p: T -> bool, q: T -> bool): T -> bool {
    x => p(x) && q(x)
  }

  /** A filter and its complement split the sequence: nothing is lost and
      nothing is duplicated. */
  lemma {:induction false} FilterPartition<T(!new)>(xs: seq<T>, p: T -> bool)
    ensures multiset(Filter(xs, p)) + multiset(Filter(xs, Not(p))) == multiset(xs)
    decreases |xs|
  {
    if |xs| > 0 {
      FilterPartition(xs[1..], p);
      assert xs == [xs[0]] + xs[1..];
    }
  }

  /** No two positions of `xs` share a key. */
  ghost predicate DistinctKeys<T, K>(xs: seq<T>, key: T -> K) {
    forall i, j :: 0 <= i < |xs| && 0 <= j < |xs| && key(xs[i]) == key(xs[j]) ==> i == j
  }

  /** Keeping some elements keeps distinct keys distinct. */
  lemma {:induction false} FilterKeepsDistinctKeys<T(!new), K>(xs: seq<T>, p: T -> bool, key: T -> K)
    requires DistinctKeys(xs, key)
    ensures DistinctKeys(Filter(xs, p), key)
    decreases |xs|
  {
    if |xs| > 0 {
      var tail := xs[1..];
      assert DistinctKeys(tail, key) by {
        forall i, j | 0 <= i < |tail| && 0 <= j < |tail| && key(tail[i]) == key(tail[j]) ensures i == j {
          assert xs[i + 1] == tail[i] && xs[j + 1] == tail[j];
        }
      }
      FilterKeepsDistinctKeys(tail, p, key);
      var rest := Filter(tail, p);
      if p(xs[0]) {
        var r := [xs[0]] + rest;
        assert Filter(xs, p) == r;
        forall i, j | 0 <= i < |r| && 0 <= j < |r| && key(r[i]) == key(r[j]) ensures i == j {
          if i > 0 { KeyOfKept(xs, p, key, rest[i - 1]); }
          if j > 0 { KeyOfKept(xs, p, key, rest[j - 1]); }
        }
      } else {
        assert Filter(xs, p) == rest;
      }
    }
  }

  /** A kept element of the tail does not share the head's key. */
  lemma KeyOfKept<T(!new), K>(xs: seq<T>, p: T -> bool, key: T -> K, y: T)
    requires |xs| > 0 && DistinctKeys(xs, key) && y in Filter(xs[1..], p)
    ensures key(y) != key(xs[0])
  {
    var k :| 0 <= k < |xs[1..]| && xs[1..][k] == y;
    assert xs[k + 1] == y;
  }

  /** Filtering twice is filtering once by both conditions. */
  lemma {:induction false} FilterFilter<T(!new)>(xs: seq<T>, p: T -> bool, q: T -> bool)
    ensures Filter(Filter(xs, p), q) == Filter(xs, And(p, q))
    decreases |xs|
  {
    if |xs| > 0 {
      FilterFilter(xs[1..], p, q);
    }
  }

  /** Filters that agree on every element of `xs` select the same subsequence. */
  lemma {:induction false} FilterAgree<T(!new)>(xs: seq<T>, p: T -> bool, q: T -> bool)
    requires forall x :: x in xs ==> p(x) == q(x)
    ensures Filter(xs, p) == Filter(xs, q)
    decreases |xs|
  {
    if |xs| > 0 {
      FilterAgree(xs[1..], p, q);
    }
  }

  /** The first element satisfying `p`: the row a single-result finder returns. */
  function FindFirst<T(!new)>(xs: seq<T>, p: T -> bool): (r: Option<T>)
    ensures r.Some? ==> r.value in xs && p(r.value)
    ensures r.None? <==> forall x :: x in xs ==> !p(x)
    ensures r.Some? ==> exists i :: 0 <= i < |xs| && xs[i] == r.value && forall j :: 0 <= j < i ==> !p(xs[j])
  {
    if |xs| == 0 then None
    else if p(xs[0]) then Some(xs[0])
    else
      var r := FindFirst(xs[1..], p);
      assert r.Some? ==> exists i :: 1 <= i < |xs| && xs[i] == r.value && forall j :: 0 <= j < i ==> !p(xs[j]) by {
        if r.Some? {
          var i :| 0 <= i < |xs[1..]| && xs[1..][i] == r.value && forall j :: 0 <= j < i ==> !p(xs[1..][j]);
          assert xs[i + 1] == r.value;
          assert forall j :: 0 <= j < i + 1 ==> !p(xs[j]) by {
            forall j | 0 <= j < i + 1 ensures !p(xs[j]) {
              if j > 0 { assert xs[j] == xs[1..][j - 1]; }
            }
          }
        }
      }
      r
  }

  /** When at most one element satisfies `p`, the first match is that element. */
  lemma FindFirstUnique<T(!new)>(xs: seq<T>, p: T -> bool, x: T)
    requires x in xs && p(x)
    requires forall i, j :: 0 <= i < |xs| && 0 <= j < |xs| && p(xs[i]) && p(xs[j]) ==> i == j
    ensures FindFirst(xs, p) == Some(x)
  {
    var r := FindFirst(xs, p);
    var i :| 0 <= i < |xs| && xs[i] == r.value && forall j :: 0 <= j < i ==> !p(xs[j]);
    var k :| 0 <= k < |xs| && xs[k] == x;
  }

  /** Taking the same element off two permutations of each other leaves
      permutations of each other. */
  lemma MultisetRemoveAt<T>(xs: seq<T>, ys: seq<T>, k: nat)
    requires multiset(xs) == multiset(ys)
    requires |xs| > 0 && k < |ys| && ys[k] == xs[0]
    ensures multiset(xs[1..]) == multiset(ys[..k] + ys[k + 1..])
  {
    assert xs == [xs[0]] + xs[1..];
    assert ys == ys[..k] + [ys[k]] + ys[k + 1..];
    assert multiset(ys) == multiset(ys[..k] + ys[k + 1..]) + multiset{ys[k]};
    assert multiset(xs) == multiset(xs[1..]) + multiset{xs[0]};
    forall z ensures multiset(xs[1..])[z] == multiset(ys[..k] + ys[k + 1..])[z] {
      assert multiset(xs)[z] == multiset(ys)[z];
    }
  }

  /** `java.util.List.remove(Object)`: drop the first element equal to `x`, if any. */
  function RemoveFirst<T(==,!new)>(xs: seq<T>, x: T): (r: seq<T>)
    ensures x in xs ==> |r| == |xs| - 1
    ensures x !in xs ==> r == xs
  {
    if |xs| == 0 then []
    else if xs[0] == x then xs[1..]
    else [xs[0]] + RemoveFirst(xs[1..], x)
  }

  /** Removing each element of `ys` in turn, as a `for` loop over `ys` calling
      `List.remove` does. */
  function RemoveEach<T(==,!new)>(xs: seq<T>, ys: seq<T>): seq<T>
    decreases |ys|
  {
    if |ys| == 0 then xs else RemoveEach(RemoveFirst(xs, ys[0]), ys[1..])
  }

  /** The elements of `xs` that do not occur in `ys`, in the order of `xs`. */
  function Without<T(==,!new)>(xs: seq<T>, ys: seq<T>): (r: seq<T>)
    ensures forall x :: x in r <==> x in xs && x !in ys
    ensures IsSubsequence(r, xs)
    ensures |r| <= |xs|
  {
    Filter(xs, x => x !in ys)
  }

  lemma {:induction false} RemoveFirstIsWithout<T(!new)>(xs: seq<T>, x: T)
    requires NoDuplicates(xs)
    ensures RemoveFirst(xs, x) == Without(xs, [x])
    ensures NoDuplicates(RemoveFirst(xs, x))
    decreases |xs|
  {
    if |xs| > 0 {
      assert NoDuplicates(xs[1..]);
      RemoveFirstIsWithout(xs[1..], x);
      if xs[0] == x {
        assert x !in xs[1..];
        FilterAgree(xs[1..], y => y !in [x], y => true);
        FilterTrue(xs[1..]);
      }
    }
  }

  lemma {:induction false} FilterTrue<T(!new)>(xs: seq<T>)
    ensures Filter(xs, y => true) == xs
    decreases |xs|
  {
    if |xs| > 0 {
      FilterTrue(xs[1..]);
    }
  }

  lemma {:induction false} WithoutWithout<T(!new)>(xs: seq<T>, a: seq<T>, b: seq<T>)
    ensures Without(Without(xs, a), b) == Without(xs, a + b)
    decreases |xs|
  {
    if |xs| > 0 {
      WithoutWithout(xs[1..], a, b);
    }
  }

  /** With no duplicates in `xs`, removing the elements of `ys` one by one
      deletes exactly the elements that occur in `ys`; the order and the
      multiplicity of `ys` do not matter. */
  lemma {:induction false} RemoveEachIsWithout<T(!new)>(xs: seq<T>, ys: seq<T>)
    requires NoDuplicates(xs)
    ensures RemoveEach(xs, ys) == Without(xs, ys)
    decreases |ys|
  {
    if |ys| == 0 {
      FilterAgree(xs, y => y !in ys, y => true);
      FilterTrue(xs);
    } else {
      RemoveFirstIsWithout(xs, ys[0]);
      RemoveEachIsWithout(RemoveFirst(xs, ys[0]), ys[1..]);
      WithoutWithout(xs, [ys[0]], ys[1..]);
      assert [ys[0]] + ys[1..] == ys;
    }
  }

  /** Apply `f` to every element, keeping the order. */
  function Map<T, U>(xs: seq<T>, f: T -> U): (r: seq<U>)
    ensures |r| == |xs|
    ensures forall i :: 0 <= i < |xs| ==> r[i] == f(xs[i])
  {
    if |xs| == 0 then [] else [f(xs[0])] + Map(xs[1..], f)
  }

  /** When exactly one position satisfies `p`, filtering keeps that one
      element. */
  lemma {:induction false} FilterSingle<T(!new)>(xs: seq<T>, p: T -> bool, k: nat)
    requires k < |xs| && p(xs[k])
    requires forall j :: 0 <= j < |xs| && p(xs[j]) ==> j == k
    ensures Filter(xs, p) == [xs[k]]
    decreases |xs|
  {
    assert xs == [xs[0]] + xs[1..];
    if k == 0 {
      forall j | 0 <= j < |xs[1..]| ensures !p(xs[1..][j]) {
        assert xs[1..][j] == xs[j + 1];
      }
      assert Filter(xs[1..], p) == [] by {
        if |Filter(xs[1..], p)| > 0 { assert false; }
      }
    } else {
      FilterSingle(xs[1..], p, k - 1);
    }
  }
}

=== FILE: text.dfy ===
/** String operations the backend relies on: `equalsIgnoreCase`,
    `toUpperCase`, SQL `LOWER(..) LIKE '%..%'`, and the two-digit and decimal
    number formatting. Case folding covers the ASCII letters only. */
module Text {

  function LowerChar(c: char): char {
    if 'A' <= c <= 'Z' then (c as int - 'A' as int + 'a' as int) as char else c
  }

  function UpperChar(c: char): char {
    if 'a' <= c <= 'z' then (c as int - 'a' as int + 'A' as int) as char else c
  }

  function ToLower(s: string): (r: string)
    ensures |r| == |s|
    ensures forall i :: 0 <= i < |s| ==> r[i] == LowerChar(s[i])
  {
    if |s| == 0 then "" else [LowerChar(s[0])] + ToLower(s[1..])
  }

  function ToUpper(s: string): (r: string)
    ensures |r| == |s|
    ensures forall i :: 0 <= i < |s| ==> r[i] == UpperChar(s[i])
  {
    if |s| == 0 then "" else [UpperChar(s[0])] + ToUpper(s[1..])
  }

  /** `String.equalsIgnoreCase`, and SQL `LOWER(a) = LOWER(b)`. */
  predicate EqualsIgnoreCase(a: string, b: string) {
    ToLower(a) == ToLower(b)
  }

  /** Two characters fold to the same lower-case letter exactly when they
      fold to the same upper-case letter. */
  lemma FoldAgree(a: char, b: char)
    ensures LowerChar(a) == LowerChar(b) <==> UpperChar(a) == UpperChar(b)
  {
  }

  /** `k` holds no lower-case letter. */
  predicate NoLower(k: string) {
    |k| == 0 || (!('a' <= k[0] <= 'z') && NoLower(k[1..]))
  }

  /** A string without lower-case letters is its own upper-case form. */
  lemma {:induction false} UpperFixed(k: string)
    requires NoLower(k)
    ensures ToUpper(k) == k
  {
    if |k| > 0 {
      UpperFixed(k[1..]);
      assert k == [k[0]] + k[1..];
    }
  }

  /** Comparing `s.toUpperCase()` against an upper-case constant, as the
      `switch` on a role name does, is the same test as `equalsIgnoreCase`. */
  lemma UpperEqualsIffIgnoreCase(s: string, k: string)
    requires ToUpper(k) == k
    ensures ToUpper(s) == k <==> EqualsIgnoreCase(s, k)
  {
    if ToUpper(s) == k {
      forall i | 0 <= i < |s| ensures LowerChar(s[i]) == LowerChar(k[i]) {
        assert UpperChar(s[i]) == k[i] == UpperChar(k[i]);
        FoldAgree(s[i], k[i]);
      }
    }
    if EqualsIgnoreCase(s, k) {
      assert |s| == |ToLower(s)| == |ToLower(k)| == |k|;
      forall i | 0 <= i < |s| ensures UpperChar(s[i]) == k[i] {
        assert ToLower(s)[i] == ToLower(k)[i];
        FoldAgree(s[i], k[i]);
        assert UpperChar(k[i]) == ToUpper(k)[i] == k[i];
      }
    }
  }

  predicate IsPrefix(p: string, s: string) {
    |p| <= |s| && s[..|p|] == p
  }

  /** `needle` occurs as a contiguous piece of `hay`: `hay LIKE '%needle%'`
      and `String.contains`. */
  predicate Contains(hay: string, needle: string)
    decreases |hay|
  {
    IsPrefix(needle, hay) || (|hay| > 0 && Contains(hay[1..], needle))
  }

  /** `LOWER(hay) LIKE LOWER('%needle%')`. */
  predicate ContainsIgnoreCase(hay: string, needle: string) {
    Contains(ToLower(hay), ToLower(needle))
  }

  lemma {:induction false} ContainsAt(hay: string, needle: string, i: nat)
    requires i + |needle| <= |hay| && hay[i..i + |needle|] == needle
    ensures Contains(hay, needle)
    decreases i
  {
    if i > 0 {
      assert hay[1..][i - 1..i - 1 + |needle|] == needle;
      ContainsAt(hay[1..], needle, i - 1);
    }
  }

  /** Every string contains the empty string, so an empty `LIKE` pattern
      keeps every row. */
  lemma ContainsEmpty(hay: string)
    ensures Contains(hay, "")
  {
  }

  function DigitChar(d: nat): (c: char)
    requires d < 10
    ensures '0' <= c <= '9'
  {
    ('0' as int + d) as char
  }

  /** Two decimal digits with a leading zero: `%02d`, and `HH`/`mm` in a
      `DateTimeFormatter` pattern. */
  function Pad2(n: nat): (r: string)
    requires n < 100
    ensures |r| == 2 && '0' <= r[0] <= '9' && '0' <= r[1] <= '9'
    ensures (r[0] as int - '0' as int) * 10 + (r[1] as int - '0' as int) == n
  {
    [DigitChar(n / 10), DigitChar(n % 10)]
  }

  /** `Long.toString` for a non-negative value. */
  function NatToString(n: nat): (r: string)
    ensures |r| > 0
    ensures forall i :: 0 <= i < |r| ==> '0' <= r[i] <= '9'
  {
    if n < 10 then [DigitChar(n)] else NatToString(n / 10) + [DigitChar(n % 10)]
  }
}

=== FILE: token_service.dfy ===
/** Token issuing and the decisions taken on a decoded token: role check,
    account lookup by role, subject extraction, and resolution of the
    subject to an account id. */
module TokenService {
  import opened Wrappers
  import opened Text
  import opened Jwt
  import opened Accounts
  import opened Database
  import DoctorRepository

  /** Seven days in milliseconds. */
  const TokenLifetimeMillis: int := 7 * 24 * 60 * 60 * 1000

  /** `generateToken`: the claims signed into a new token issued at `now`. */
  function GenerateToken(identifier: string, role: string, now: int): (c: Claims)
    ensures c.subject == Some(identifier) && c.role == Some(role)
    ensures c.issuedAt == now && c.expiration == now + 604_800_000
  {
    Claims(Some(identifier), Some(role), now, now + TokenLifetimeMillis)
  }

  /** `extractIdentifier`: the subject, or null when decoding failed. */
  function ExtractIdentifier(decoded: Option<Claims>): (r: Option<string>)
    ensures decoded.None? ==> r.None?
    ensures decoded.Some? ==> r == decoded.value.subject
  {
    match decoded
    case None => None
    case Some(c) => c.subject
  }

  /** An account of the kind `role` names has `subject` as its identifier:
      the username for ADMIN, the email for DOCTOR and PATIENT (ignoring
      case in the role name); no other role names an account. */
  predicate AccountExists(s: Store, role: string, subject: Option<string>) {
    && subject.Some?
    && (if EqualsIgnoreCase(role, "ADMIN") then exists a :: a in s.admins && a.username == subject.value
        else if EqualsIgnoreCase(role, "DOCTOR") then exists d :: d in s.doctors && d.email == subject.value
        else if EqualsIgnoreCase(role, "PATIENT") then exists p :: p in s.patients && p.email == subject.value
        else false)
  }

  /** The three role names as the token check reads them: each selects its
      own table. */
  lemma RoleAccounts(s: Store, subject: Option<string>)
    ensures AccountExists(s, "ADMIN", subject) <==>
      subject.Some? && exists a :: a in s.admins && a.username == subject.value
    ensures AccountExists(s, "DOCTOR", subject) <==>
      subject.Some? && exists d :: d in s.doctors && d.email == subject.value
    ensures AccountExists(s, "PATIENT", subject) <==>
      subject.Some? && exists p :: p in s.patients && p.email == subject.value
  {
    assert |ToLower("ADMIN")| == 5 && |ToLower("DOCTOR")| == 6 && |ToLower("PATIENT")| == 7;
  }

  /** A decimal account id differs from every identifier that holds a
      character other than a digit. */
  lemma IdDiffers(x: string, id: nat)
    requires exists i :: 0 <= i < |x| && !('0' <= x[i] <= '9')
    ensures x != NatToString(id)
  {
    var i :| 0 <= i < |x| && !('0' <= x[i] <= '9');
    var n := NatToString(id);
    if |n| == |x| {
      assert '0' <= n[i] <= '9';
    }
  }

  /** A decimal admin id names no admin when every username holds a
      character other than a digit. */
  lemma IdNamesNoAdmin(s: Store, id: nat)
    requires forall a :: a in s.admins ==> exists i :: 0 <= i < |a.username| && !('0' <= a.username[i] <= '9')
    ensures !AccountExists(s, "ADMIN", Some(NatToString(id)))
  {
    RoleAccounts(s, Some(NatToString(id)));
    forall a | a in s.admins ensures a.username != NatToString(id) {
      IdDiffers(a.username, id);
    }
  }

  /** A decimal doctor id names no doctor when every doctor email holds a
      character other than a digit. */
  lemma IdNamesNoDoctor(s: Store, id: nat)
    requires forall d :: d in s.doctors ==> exists i :: 0 <= i < |d.email| && !('0' <= d.email[i] <= '9')
    ensures !AccountExists(s, "DOCTOR", Some(NatToString(id)))
  {
    RoleAccounts(s, Some(NatToString(id)));
    forall d | d in s.doctors ensures d.email != NatToString(id) {
      IdDiffers(d.email, id);
    }
  }

  /** A decimal patient id names no patient when every patient email holds
      a character other than a digit. */
  lemma IdNamesNoPatient(s: Store, id: nat)
    requires forall p :: p in s.patients ==> exists i :: 0 <= i < |p.email| && !('0' <= p.email[i] <= '9')
    ensures !AccountExists(s, "PATIENT", Some(NatToString(id)))
  {
    RoleAccounts(s, Some(NatToString(id)));
    forall p | p in s.patients ensures p.email != NatToString(id) {
      IdDiffers(p.email, id);
    }
  }

  /** The `switch` on the upper-cased role name picks the same table as
      comparing the role name with each constant ignoring case. */
  lemma RoleSwitch(role: string)
    ensures ToUpper(role) == "ADMIN" <==> EqualsIgnoreCase(role, "ADMIN")
    ensures ToUpper(role) == "DOCTOR" <==> EqualsIgnoreCase(role, "DOCTOR")
    ensures ToUpper(role) == "PATIENT" <==> EqualsIgnoreCase(role, "PATIENT")
  {
    UpperFixed("ADMIN");
    UpperFixed("DOCTOR");
    UpperFixed("PATIENT");
    UpperEqualsIffIgnoreCase(role, "ADMIN");
    UpperEqualsIffIgnoreCase(role, "DOCTOR");
    UpperEqualsIffIgnoreCase(role, "PATIENT");
  }

  /** The decision `validateToken` takes once the token has been decoded:
      the expected role must equal the role claim ignoring case, then the
      subject is looked up in the store that role names. */
  function ValidateToken(decoded: Option<Claims>, userRole: string, s: Store): (ok: bool)
    ensures ok <==>
      && decoded.Some? && decoded.value.role.Some?
      && EqualsIgnoreCase(userRole, decoded.value.role.value)
      && AccountExists(s, decoded.value.role.value, decoded.value.subject)
  {
    match decoded
    case None => false
    case Some(claims) =>
      match claims.role
      case None => false
      case Some(role) =>
        if !EqualsIgnoreCase(userRole, role) then false
        else
          RoleSwitch(role);
          var upper := ToUpper(role);
          if upper == "ADMIN" then FindAdminByUsername(s, claims.subject).Some?
          else if upper == "DOCTOR" then
            claims.subject.Some? && DoctorRepository.FindByEmail(s.doctors, claims.subject.value).Some?
          else if upper == "PATIENT" then FindPatientByEmail(s, claims.subject).Some?
          else false
  }

  /** A token issued for an identifier that names no account of its role
      is rejected for that role. */
  lemma IssuedTokenForNoAccountRejected(identifier: string, role: string, now: int, s: Store)
    requires !AccountExists(s, role, Some(identifier))
    ensures !ValidateToken(Some(GenerateToken(identifier, role, now)), role, s)
  {
  }

  /** A token is accepted for at most one role, up to case: asking for any
      other role fails. */
  lemma ValidateTokenRejectsOtherRoles(decoded: Option<Claims>, role1: string, role2: string, s: Store)
    requires ValidateToken(decoded, role1, s)
    requires !EqualsIgnoreCase(role1, role2)
    ensures !ValidateToken(decoded, role2, s)
  {
  }

  /** A decoded token whose role claim matches and whose subject names a
      stored account of that kind is accepted. */
  lemma ValidateTokenAcceptsLiveAccount(claims: Claims, userRole: string, s: Store)
    requires claims.role.Some? && EqualsIgnoreCase(userRole, claims.role.value)
    requires AccountExists(s, claims.role.value, claims.subject)
    ensures ValidateToken(Some(claims), userRole, s)
  {
  }

  /** A token issued at `issued` for `identifier` and `role`, decoded at
      `now` and checked for that same role, is accepted exactly during the
      seven days after issue and only while `identifier` names a stored
      account of that role. */
  lemma IssuedTokenAccepted(identifier: string, role: string, issued: int, now: int, s: Store)
    ensures ValidateToken(Parse(GenerateToken(identifier, role, issued), now), role, s) <==>
      now - issued < 604_800_000 && AccountExists(s, role, Some(identifier))
  {
  }

  /** The subject read back from an issued token: the identifier it was
      issued for while the token is less than seven days old, and null
      once decoding rejects it as expired. */
  lemma IssuedTokenSubject(identifier: string, role: string, issued: int, now: int)
    ensures ExtractIdentifier(Parse(GenerateToken(identifier, role, issued), now)) ==
      (if now - issued < 604_800_000 then Some(identifier) else None)
  {
  }

  /** The object `Jwts.builder()` returns, and the parser-builder type
      `validateToken` casts it to in order to build its parser. */
  datatype JwtObject = JwtBuilder | JwtParserBuilder

  /** A checked reference cast to `JwtParserBuilder`. */
  function CastToParserBuilder(o: JwtObject): Result<JwtObject, string> {
    if o == JwtParserBuilder then Success(o) else Failure("ClassCastException")
  }

  /** `validateToken` as written: the parser is obtained by casting the
      result of `Jwts.builder()`, and any exception yields false. */
  function ValidateTokenAsWritten(decoded: Option<Claims>, userRole: string, s: Store): bool {
    match CastToParserBuilder(JwtBuilder)
    case Failure(_) => false
    case Success(_) => ValidateToken(decoded, userRole, s)
  }

  /** As written, no token is ever accepted, not even one the corrected
      decision accepts. */
  lemma ValidateTokenAsWrittenRejectsAll(decoded: Option<Claims>, userRole: string, s: Store)
    ensures !ValidateTokenAsWritten(decoded, userRole, s)
    ensures ValidateToken(decoded, userRole, s) ==> ValidateTokenAsWritten(decoded, userRole, s) != ValidateToken(decoded, userRole, s)
  {
  }

  /** `getUserIdFromToken`: the subject is looked up as a patient email,
      then as a doctor email, then as an admin username; the first hit
      gives the id. */
  function GetUserIdFromToken(decoded: Option<Claims>, s: Store): (r: Option<nat>)
    ensures ExtractIdentifier(decoded).None? ==> r.None?
    ensures ExtractIdentifier(decoded).Some? ==>
      var id := ExtractIdentifier(decoded).value;
      if exists p :: p in s.patients && p.email == id then
        r.Some? && exists p :: p in s.patients && p.email == id && p.id == r.value
      else if exists d :: d in s.doctors && d.email == id then
        r.Some? && exists d :: d in s.doctors && d.email == id && d.id == r.value
      else if exists a :: a in s.admins && a.username == id then
        r.Some? && exists a :: a in s.admins && a.username == id && a.id == r.value
      else r.None?
  {
    match ExtractIdentifier(decoded)
    case None => None
    case Some(identifier) =>
      match FindPatientByEmail(s, Some(identifier))
      case Some(p) => Some(p.id)
      case None =>
        match DoctorRepository.FindByEmail(s.doctors, identifier)
        case Some(d) => Some(d.id)
        case None =>
          match FindAdminByUsername(s, Some(identifier))
          case Some(a) => Some(a.id)
          case None => None
  }

  /** A login token carries the account's decimal id as its subject, so
      when every stored email and username holds a character other than a
      digit, resolving that token back to an account id finds no one. */
  lemma IdTokenResolvesToNoOne(s: Store, id: nat, role: string, now: int)
    requires forall p :: p in s.patients ==> exists i :: 0 <= i < |p.email| && !('0' <= p.email[i] <= '9')
    requires forall d :: d in s.doctors ==> exists i :: 0 <= i < |d.email| && !('0' <= d.email[i] <= '9')
    requires forall a :: a in s.admins ==> exists i :: 0 <= i < |a.username| && !('0' <= a.username[i] <= '9')
    ensures GetUserIdFromToken(Some(GenerateToken(NatToString(id), role, now)), s).None?
  {
    forall p | p in s.patients ensures p.email != NatToString(id) {
      IdDiffers(p.email, id);
    }
    forall d | d in s.doctors ensures d.email != NatToString(id) {
      IdDiffers(d.email, id);
    }
    forall a | a in s.admins ensures a.username != NatToString(id) {
      IdDiffers(a.username, id);
    }
  }
}

=== FILE: wrappers.dfy ===
/** Failure-carrying values used throughout the model: `Option` stands for a
    Java reference that may be null, `Result` for a call that may throw. */
module Wrappers {

  datatype Option<+T> = None | Some(value: T) {

    /** The wrapped value, or `default` when there is none. */
    function GetOr(default: T): T {
      match this
      case Some(v) => v
      case None => default
    }
  }

  datatype Result<+R, +E> = Success(value: R) | Failure(error: E)
}
